=== FILE: README.md ===
# Casing design load and strength model

A Dafny model of the casing-design engine of CasingDesign. It computes the
loads on a casing string along a depth grid and rates the casing against them.
The model is written over exact reals and covers these stages:

- **Fluid pressure.** `Fluids` walks a column of fluid segments and sums their
  hydrostatic heads.
- **Tension.** `Tubulars` gives the real tension in the string by walking the
  casing sections up from total depth. Effective tension adds the
  pressure-area correction at one depth.
- **Stress.** `Stress` covers the Lamé radial and tangential stresses, the
  axial stress, the von Mises equivalent stress and the biaxial yield-point
  adjustment.
- **Ratings.** `Api` holds the API Bulletin 5C3 burst, pipe-body tensile and
  joint tensile ratings. `CollapseRating` holds the four-regime collapse
  rating with its regression coefficients and regime boundaries.
- **Depth grid.** `Grid` builds the depth grid with its extra point below
  every casing break. It also finds the casing section at every grid point.
- **Pipeline.** `Algorithm` runs the per-scenario pipeline:
  - casing geometry, pressures, tensions, and burst and collapse loads;
  - stress state and yield-point adjustment;
  - the master scenario, which takes the worst case at every depth;
  - the casing strength along the master.

The design rests on a few conventions:

- Square root and `np.power` are function-valued parameters. `IsSqrt` states
  the only property the proofs use: a non-negative root whose square is its
  argument.
- Pi is 3.141592653589793 and standard gravity is 9.80665.
- Every exception the source can raise on a reachable path is a `Failure` of
  the `Outcomes.Result` type, and the model propagates it. The cases are:
  - a depth below total depth;
  - a negative depth;
  - an index past the end of a list;
  - an argmax over an empty list;
  - a missing coupling.

## Model

| member | source | states |
|---|---|---|
| Fluids.Hydrostatic | CasingDesign/fluids.py:58-69 | the head pressure is non-negative for non-negative head and density, and zero for zero head |
| Fluids.HydrostaticMonotone | CasingDesign/fluids.py:58-69 | with a non-negative density a longer head never gives less pressure |
| Fluids.Pressure | CasingDesign/fluids.py:6-20 | the pair of inside and outside single-column pressures; fails exactly when one of them fails, with the inside failure reported first |
| Fluids.WalkClosedForm | CasingDesign/fluids.py:41-55 | the segment walk from any segment reaching the containing segment k adds the full heads of the traversed segments and the partial head of segment k |
| Fluids.PressureClosedForm | CasingDesign/fluids.py:39-55 | pressure is the surface pressure plus the full heads of all segments above the containing one plus the partial head in it |
| Fluids.SingleSegmentPressure | CasingDesign/fluids.py:39-55 | a one-segment column gives surface pressure plus (depth − top)·density·g |
| Fluids.PressureAtSurface | CasingDesign/fluids.py:39-55 | at the top of the first segment the pressure is exactly the surface pressure |
| Fluids.PressureContinuousAtBoundary | CasingDesign/fluids.py:46-55 | at a segment boundary the strict test keeps the upper segment, and its value equals the starting value of the lower segment |
| Fluids.WalkDefined | CasingDesign/fluids.py:35-55 | the walk ends with a value exactly when the depth is not below total depth; past it the walk indexes beyond the last segment |
| Fluids.PressureDefined | CasingDesign/fluids.py:35-55 | single-column pressure succeeds exactly when depth ≤ total depth |
| Fluids.WalkAtLeastAcc | CasingDesign/fluids.py:46-55 | with non-negative densities the walk never lowers the pressure it starts from |
| Fluids.WalkMonotone | CasingDesign/fluids.py:46-55 | with non-negative densities the walk's result is non-decreasing in depth |
| Fluids.PressureMonotone | CasingDesign/fluids.py:39-55 | with increasing tops and non-negative densities pressure is non-decreasing in depth up to total depth |
| Tubulars.Area | CasingDesign/tubulars.py:88-96 | the area of a circle of any diameter is non-negative |
| Tubulars.AreaMonotone | CasingDesign/tubulars.py:88-96 | area is monotone in a non-negative diameter |
| Tubulars.WallAreaPositive | CasingDesign/tubulars.py:88-96 | the wall cross-section is positive when 0 ≤ id < od |
| Tubulars.StepForce | CasingDesign/tubulars.py:78-79 | the pressure-area step at a section boundary vanishes when neither diameter changes |
| Tubulars.SectionWeight | CasingDesign/tubulars.py:70-85 | the buoyant-free weight of a non-negative length of pipe is non-negative |
| Tubulars.TensionReal | CasingDesign/tubulars.py:57-63 | a depth below total depth and a negative depth are both errors, the first checked first |
| Tubulars.TensionRealDefined | CasingDesign/tubulars.py:57-85 | real tension succeeds exactly when 0 ≤ depth ≤ total depth |
| Tubulars.TensionAtTotalDepth | CasingDesign/tubulars.py:66-72 | at total depth the tension is −slack-off + Pin(TD)·area(id_last) − Pout(TD)·area(od_last) |
| Tubulars.TensionInDeepestSection | CasingDesign/tubulars.py:70-72 | in the deepest section tension is the bottom value plus (TD − depth)·wpf_last·g |
| Tubulars.TensionWalkClosedForm | CasingDesign/tubulars.py:76-85 | the upward walk from any section adds each crossed boundary's pressure-area step and section weight, then the partial weight of the containing section |
| Tubulars.TensionClosedForm | CasingDesign/tubulars.py:66-85 | tension is the bottom-hole force plus everything carried below the containing section plus the partial weight in it |
| Tubulars.TensionLinearInSection | CasingDesign/tubulars.py:70-85 | within one section tension changes linearly with depth at rate wpf·g |
| Tubulars.SectionExists | CasingDesign/tubulars.py:76-85 | below the first top some section contains the depth, so the upward walk stops |
| Tubulars.SectionScan | CasingDesign/tubulars.py:26-34 | the scan returns a valid section index, either the current one or one at or past the scan position |
| Tubulars.SectionAt | CasingDesign/tubulars.py:26-34 | with increasing tops, the last section whose top is at or above the depth, and section 0 when none is |
| Tubulars.SectionAtSpec | CasingDesign/tubulars.py:26-34 | the scan from any position keeps the last section whose top is not below the depth |
| Tubulars.SectionAtFindsSection | CasingDesign/tubulars.py:26-34 | on a well-formed string the chosen section contains the depth |
| Tubulars.TensionEff | CasingDesign/tubulars.py:8-38 | effective minus real tension is Pout·area(od) − Pin·area(id) of the section at that depth; fails exactly when the pressures do |
| Stress.LameDifference | CasingDesign/stress.py:80-85 | the two Lamé constants differ by −Pi |
| Stress.LameSum | CasingDesign/stress.py:103-108 | the sum of the Lamé constants in closed form |
| Stress.Radial | CasingDesign/stress.py:65-85 | radial stress at the inner wall simplifies to −Pi |
| Stress.Tangential | CasingDesign/stress.py:88-108 | tangential stress is (Pi·(od²+id²) − 2·od²·Po)/(od² − id²) |
| Stress.RadialTangentialConstants | CasingDesign/stress.py:80-108 | radial + tangential = 2·k1 and tangential − radial = 2·k2 |
| Stress.EqualPressuresGiveUniformStress | CasingDesign/stress.py:80-108 | with equal inside and outside pressure P both stresses are −P |
| Stress.Axial | CasingDesign/stress.py:111-125 | axial stress times the wall area is the real tension |
| Stress.AxialSign | CasingDesign/stress.py:111-125 | for od > id ≥ 0 axial stress has the sign of the tension, and is zero exactly when the tension is |
| Stress.VonMisesRadicand | CasingDesign/stress.py:199-204 | the half-sum of squared differences is non-negative |
| Stress.VonMises | CasingDesign/stress.py:187-204 | the equivalent stress is non-negative and its square is σr²+σt²+σa²−σrσt−σrσa−σtσa |
| Stress.VonMisesZeroIff | CasingDesign/stress.py:199-204 | the equivalent stress is zero exactly when all three stresses are equal |
| Stress.VonMisesSymmetric | CasingDesign/stress.py:199-204 | the equivalent stress is unchanged by permuting its arguments |
| Stress.VonMisesUniaxial | CasingDesign/stress.py:199-204 | with only an axial stress the equivalent stress is its magnitude |
| Stress.VonMisesBending | CasingDesign/stress.py:207-226 | with bending, the equivalent stress of the axial stress reduced by the bending stress |
| Stress.VonMisesSquared | CasingDesign/stress.py:199-204 | the equivalent stress squared equals the half-sum of squared differences |
| Stress.VonMisesBendingWithoutBending | CasingDesign/stress.py:207-226 | with zero bending stress both formulas agree |
| Stress.BiaxialSlope | CasingDesign/stress.py:21-29 | the linear coefficient of the four branches is ±0.5 |
| Stress.BiaxialYield | CasingDesign/stress.py:5-29 | the adjusted yield point is yp·(root + h·σa/yp), with the sign h chosen by the two flags |
| Stress.BiaxialUnloaded | CasingDesign/stress.py:21-29 | with no axial stress every branch returns yp |
| Stress.BiaxialPairing | CasingDesign/stress.py:21-29 | flipping both flags gives the same formula: (T,T) pairs with (F,F) and (T,F) with (F,T) |
| Stress.BiaxialOnEllipse | CasingDesign/stress.py:21-29 | every branch lies on the ellipse of plasticity y² ± y·s + s² = 1, in units of yp |
| Api.DiameterRoot | CasingDesign/api.py:216-228 | the thread-root diameter lies below its reference (E7 + 0.062 for BTC, E1 + H − 2·Srn otherwise) exactly when the taper drop, engaged length times T, is positive |
| Api.BurstCouplingPositive | CasingDesign/api.py:202-228 | for a positive coupling yield point and W, the coupling rating is positive exactly when the thread-root diameter d1 lies below W |
| Api.BurstBody | CasingDesign/api.py:169-183 | the body rating is 0.875·yp·(od − id)/od |
| Api.BurstBodyBounds | CasingDesign/api.py:169-183 | for 0 ≤ id ≤ od and yp ≥ 0 the body rating lies between 0 and 0.875·yp |
| Api.BurstCoupling | CasingDesign/api.py:202-213 | the coupling rating is coupling yp·(1 − d1/W) |
| Api.BurstCouplingBounds | CasingDesign/api.py:202-213 | with 0 ≤ d1 ≤ W the coupling rating lies between 0 and coupling yp |
| Api.BurstLeakSign | CasingDesign/api.py:186-199 | with positive dimensions the leak rating is positive exactly when E1 < W, zero exactly when E1 = W, and always below modulus·T·A / (2·tpi·E1) |
| Api.Burst | CasingDesign/api.py:138-166 | the burst rating is at most the body and the coupling ratings, and at most the leak rating when leak is on; it equals one of them |
| Api.TensileBody | CasingDesign/api.py:36-49 | the pipe-body rating is yp times the wall area |
| Api.TensileBodyReachesYield | CasingDesign/api.py:36-49 | the body rating is the real tension under which the axial stress of the wall is exactly yp |
| Api.AreaLastThread | CasingDesign/api.py:123-135 | the area under the last perfect thread is the wall area with the OD reduced by the thread depth |
| Api.AreaLastThreadBelowBody | CasingDesign/api.py:123-135 | that area is less than the pipe wall area |
| Api.UltimateStrength | CasingDesign/api.py:101-120 | 95000 with the L flag whatever the grade; otherwise 95000, 100000 or 105000 for grades 75, 80, 95, else 125000 |
| Api.TensionFracture | CasingDesign/api.py:78-98 | a round-thread fracture rating stays below 0.95·up·(wall area) when up > 0 and the OD carries the thread depth; a BTC fracture rating is non-negative when 0 ≤ d1 ≤ W and up ≥ 0 |
| Api.TensionPullout | CasingDesign/api.py:52-75 | the pull-out rating is its value at zero yield point plus yp times a fixed slope: 0.0396·od·0.95·(wall area) for BTC, 0.95·(last-thread area)·L/(L + 0.14·od) for round threads |
| Api.TensionPulloutMonotone | CasingDesign/api.py:52-75 | on a real wall the pull-out rating does not decrease as the yield point grows, for buttress and round threads alike |
| Api.JointUltimateStrength | CasingDesign/api.py:101-120 | the ultimate strength of the pipe's own grade, with the L flag for L-80 pipe |
| Api.TensileJoint | CasingDesign/api.py:8-33 | the joint rating is at most the fracture and pull-out ratings and equals one of them |
| Api.TensileJointAsWritten | CasingDesign/api.py:8-33 | as the source is written, the joint rating is bounded by the fracture and pull-out ratings for an ultimate strength of 125000, and equals one of them |
| Api.TensileJointAsWrittenIgnoresGrade | CasingDesign/api.py:28-33 | as written, the joint rating does not depend on the grade at all |
| Api.UltimateStrengthOfLabelN80 | CasingDesign/api.py:101-120 | the label "N-80" yields 125000 where the grade N-80 calls for 100000 |
| CollapseRating.CoefficientFormulas | CasingDesign/api.py:351-384 | A, B and C are the 5C3 regression polynomials in yp |
| CollapseRating.Slenderness | CasingDesign/api.py:244-245 | D/t times the wall difference is twice the OD |
| CollapseRating.RatioTransition | CasingDesign/api.py:259 | the plastic/transition boundary solves D/t·(C + yp(B − G)) = yp(A − F) |
| CollapseRating.RegimeOf | CasingDesign/api.py:262-268 | yield-strength, plastic, transition or elastic, exactly as the boundary tests pick them in order, the first match winning |
| CollapseRating.RegimeMonotone | CasingDesign/api.py:262-268 | a larger D/t never selects an earlier regime |
| CollapseRating.Collapse | CasingDesign/api.py:231-268 | the collapse rating is the value of the regime selected by D/t |
| CollapseRating.PlasticMeetsTransition | CasingDesign/api.py:259-331 | the plastic and transition formulas agree at the plastic/transition boundary |
| CollapseRating.TransitionMeetsElastic | CasingDesign/api.py:260-419 | the transition and elastic formulas agree at the transition/elastic boundary, given how F and G are derived |
| CollapseRating.YieldMeetsPlastic | CasingDesign/api.py:258-310 | the yield-strength and plastic formulas agree at the positive root that bounds the yield regime |
| Grid.UpdateDepth | CasingDesign/algorithm.py:245-271 | the grid fails exactly for an empty casing, and otherwise starts at 0 with at least one point per foot |
| Grid.DepthWalkLength | CasingDesign/algorithm.py:256-269 | the walk yields one point per foot plus one per matched top |
| Grid.DepthWalkIncreasing | CasingDesign/algorithm.py:256-269 | the walk is strictly increasing and stays within the feet it covers |
| Grid.DepthWalkIntegers | CasingDesign/algorithm.py:256-258 | every whole foot of the range is on the grid |
| Grid.DepthWalkBoundaries | CasingDesign/algorithm.py:256-269 | when the pending tops are whole increasing feet in range, each has its +0.01 point on the grid |
| Grid.DepthWalkOnlyGridPoints | CasingDesign/algorithm.py:256-269 | every grid point is a whole foot of the range or 0.01 below a pending top |
| Grid.UpdateDepthOnlyGridPoints | CasingDesign/algorithm.py:256-271 | every point of the built grid is a whole foot in [0, td] or 0.01 below a section top after the first |
| Grid.DepthWalkGaps | CasingDesign/algorithm.py:256-269 | consecutive grid points are at most one foot apart |
| Grid.UpdateDepthGrid | CasingDesign/algorithm.py:245-271 | for a casing string whose tops after the first are whole feet, strictly increasing and within [0, td], the full grid: it starts at 0 and strictly increases; it holds every foot and a +0.01 point after every break but the first; it has td+|casing| points and nothing else |
| Grid.Counter | CasingDesign/algorithm.py:219-228 | the section counter stays between 1 and the number of sections |
| Grid.CounterLocates | CasingDesign/algorithm.py:219-228 | on a non-decreasing grid that crosses one top at a time, the counter names the section whose top is above the point and whose next top is not |
| Grid.CountedIndices | CasingDesign/algorithm.py:219-229 | the indices stay below the section count, start at 0 or 1, and rise by 0 or 1 per point |
| Grid.GridCrossesSingly | CasingDesign/algorithm.py:245-271 | for a casing string whose tops after the first are whole feet, strictly increasing and within [0, td], the grid update_depth builds crosses at most one section top between consecutive points |
| Grid.SectionIndices | CasingDesign/algorithm.py:219-229 | the per-point section index: valid, non-decreasing by steps of at most 1, and the section containing the point when the grid crosses tops singly |
| Algorithm.MapSeries | CasingDesign/algorithm.py:194-206 | a per-point step succeeds exactly when it succeeds at every point, keeps the values in order, and otherwise reports the first failure |
| Algorithm.UpdateCasing | CasingDesign/algorithm.py:209-242 | od, id, yp, wpf, grade and connection at every point come from its section; the section index starts at 0 or 1; only those series change |
| Algorithm.Pressures | CasingDesign/algorithm.py:194-206 | pin and pout at every point are the column pressures at its depth; nothing else changes |
| Algorithm.PressuresDefined | CasingDesign/algorithm.py:194-206 | the pressures succeed exactly when every point lies at or above total depth |
| Algorithm.PressuresIncreaseWithDepth | CasingDesign/algorithm.py:194-206 | on a non-decreasing grid with non-negative densities both pressure series are non-decreasing |
| Algorithm.TensionAt | CasingDesign/algorithm.py:147-153 | real tension plus the overpull for OMW, and the effective tension of that value |
| Algorithm.Tensions | CasingDesign/algorithm.py:136-153 | treal and teff at every point; fails at the first depth tension cannot be computed for |
| Algorithm.OverpullShiftsTension | CasingDesign/algorithm.py:149-152 | the OMW scenario's real and effective tensions exceed those of the same scenario under another name by exactly mop |
| Algorithm.ClampAtZero | CasingDesign/algorithm.py:167-170 | a negative difference becomes 0; any other is kept |
| Algorithm.BurstLoads | CasingDesign/algorithm.py:175-191 | burst[k] = max(0, pin[k] − pout[k]) at every point; nothing else changes |
| Algorithm.CollapseLoads | CasingDesign/algorithm.py:156-172 | collapse[k] = max(0, pout[k] − pin[k]) at every point; nothing else changes |
| Algorithm.LoadsComplementary | CasingDesign/algorithm.py:166-191 | burst − collapse = pin − pout, at most one of them is non-zero, and burst is zero exactly when pin ≤ pout |
| Algorithm.StressState | CasingDesign/algorithm.py:101-114 | axial·wall area = treal, radial = −pin, tangential in closed form, von Mises taken of that point's three stresses; every other field unchanged |
| Algorithm.BalancedPressureStress | CasingDesign/algorithm.py:101-114 | where pin = pout the wall stresses are both −p and von Mises is \|axial + p\| |
| Algorithm.YieldPtAdjust | CasingDesign/algorithm.py:117-133 | a collapse scenario gets the biaxial yield with the tension flag treal ≥ 0; any other keeps yp |
| Algorithm.YieldPtAdjustUnloaded | CasingDesign/algorithm.py:117-133 | with no axial stress the adjusted yield point is yp |
| Algorithm.YieldPtAdjustTensionLowers | CasingDesign/algorithm.py:125-127 | in a collapse scenario, axial tension up to yp never raises the yield point |
| Algorithm.ArgMax | CasingDesign/algorithm.py:55 | the index of the first maximum |
| Algorithm.ArgMaxFrom | CasingDesign/algorithm.py:55 | the scan keeps the first maximum seen so far |
| Algorithm.OfMode | CasingDesign/algorithm.py:41-47 | a scenario is in the group exactly when it is in the list with that mode |
| Algorithm.OfModeOrigin | CasingDesign/algorithm.py:41-47 | the group keeps the list order: its k-th member is some list scenario j of that mode, and every scenario of the mode listed before j is in the group before position k |
| Algorithm.Winners | CasingDesign/algorithm.py:49-87 | at every point, the index of the first scenario of the group with the largest load |
| Algorithm.TakeCasing | CasingDesign/algorithm.py:56-63 | burst and casing series at every point come from that point's winner |
| Algorithm.TakeLoads | CasingDesign/algorithm.py:71-78 | collapse, pressure, stress and tension series at every point come from that point's winner |
| Algorithm.TakeVonMises | CasingDesign/algorithm.py:81-87 | von Mises at every point comes from that point's winner |
| Algorithm.Combine | CasingDesign/algorithm.py:49-87 | the combined master: casing from the burst winner, loads from the collapse winner, von Mises from the overall winner, mode collapse once a point is combined |
| Algorithm.MasterScenario | CasingDesign/algorithm.py:27-98 | no burst or no tensile scenario is an IndexError; points without a collapse scenario are an empty argmax; otherwise every series is full and the collapse yield is adjusted |
| Algorithm.WinnerOfMode | CasingDesign/algorithm.py:49-79 | the first-largest scenario of a mode has that mode, no scenario of the mode exceeds it, and every scenario of the mode listed before it is strictly smaller |
| Algorithm.MasterTakesWorstBurst | CasingDesign/algorithm.py:49-63 | the master's burst is the largest over the burst scenarios and comes with the casing of the first burst scenario in list order that reaches it, as np.argmax picks it |
| Algorithm.MasterTakesWorstCollapse | CasingDesign/algorithm.py:65-79 | the master's collapse is the largest over the collapse scenarios and comes with the pressures, stresses and tensions of the first collapse scenario in list order that reaches it, as np.argmax picks it |
| Algorithm.MasterTakesLargestVonMises | CasingDesign/algorithm.py:81-87 | the master's von Mises is the largest over all scenarios of any mode |
| Algorithm.CasingStrength | CasingDesign/algorithm.py:8-24 | all five ratings at every point from that point's coupling; fails with the first missing coupling |
| Algorithm.Ratings | CasingDesign/algorithm.py:17-24 | the burst, joint, body, collapse and biaxial collapse rating at every point |
| Algorithm.UnadjustedCollapseRating | CasingDesign/algorithm.py:22-24 | after the yield-point adjustment of algorithm.py:125-133, the biaxial collapse rating equals the plain one at every point of a non-collapse scenario and at every point of a collapse scenario free of axial stress |
| Algorithm.BurstWithinBodyRating | CasingDesign/algorithm.py:18-19 | no burst rating along the master exceeds its pipe-body rating |

## Left out

- Database and file access are not modelled. `get_5B_data`, `get_5C3_data` and the database helpers become the `lookup` parameter of `Algorithm.CasingStrength`. The identity comparisons in those helpers are equality. CSV loading of fluids, casing and scenarios is omitted as well.
- Unit conversion is the identity; all quantities are taken in consistent units. The `np.round` calls in `update_depth` and `update_casing` are dropped: section tops are taken as already whole feet, and od, id, yp and wpf are copied unrounded.
- Floating point is replaced by exact reals. NaN and infinity are not modelled. Every division carries a `requires` that its divisor is non-zero. On the single formulas these are plain `requires` clauses: the `tpi` clause of `Api.DiameterRoot`, the `od` clause of `Api.BurstBody`, the wall-area clause of `Stress.Axial`, the `yp` clauses of the `Stress.BiaxialYield` family, and the ones on the collapse helpers. On records and scenarios they are the predicates `Stress.LameDefined`, `CollapseRating.CollapseDefined`, `Api.CouplingBurstDefined`, `Api.LeakDefined`, `Api.PulloutDefined`, `Algorithm.StressDefined`, `Algorithm.YieldAdjustDefined`, `Algorithm.StrengthDefined` and `Algorithm.LookupUsable`, and the non-zero burst yield point clause of `Algorithm.Aligned`.
- Square root and `np.power(od, -0.59)` are parameters. The square root is constrained only by `IsSqrt`; the power function is unconstrained.
- In `collapse`, a negative discriminant makes `np.sqrt` return NaN, so `Dt <= ratio_plastic` is false. The model writes this as an explicit test that the discriminant is non-negative.
- `lubinski`, `beam`, `bending` and `triaxial_yield` are not modelled; no stage of the pipeline calls them.
- The configuration globals are parameters: `total_depth`, `slack_off`, `mop` and `leak_resistance`. The orchestration order of `main.py` is not modelled as a function of its own.
- Algorithm.MasterScenario: requires every scenario's series to be sampled on one common grid (`Aligned`). The source would raise an IndexError when series of unequal length are combined; that error is not modelled.
- Algorithm.MasterScenario: the tensile loop at the end of `master_scenario` only computes an argmax whose result is discarded. It is modelled as its only observable effect, the IndexError for an empty tensile group.
- Algorithm.MasterScenario: the master starts as an empty scenario. Its name and fluids are never set by the source, so they are "" and an empty column here.
- Algorithm.UpdateCasing: locates the containing section only on grids that cross at most one section top between consecutive points. `Grid.GridCrossesSingly` shows that the grid `update_depth` builds is such a grid when the tops after the first are whole feet, strictly increasing and within [0, td]. For tops out of order or beyond total depth the model promises nothing about the located section; the source does not check the order or the range either.
- Tubulars.TensionReal: reports a negative depth as `NegativeDepth`, apart from a depth beyond total depth. In tubulars.py:60-62 the log line differs, but the raised error carries the same message as for a depth beyond total depth.
- Algorithm.CasingStrength: uses the corrected joint rating `Api.TensileJoint` rather than the source's `Api.TensileJointAsWritten` (see Findings).

## Findings

| source | as written | input that shows it | evidently intended | confidence | as-written member | corrected member |
|---|---|---|---|---|---|---|
| CasingDesign/api.py:28-29 | `tensile_joint` passes the grade label (such as "N-80") to `ultimate_strength`, which compares it with the integers 75, 80 and 95 and never sets the L flag | grade "N-80": the label equals none of the integers, so the ultimate strength is 125000 | the ultimate strength of the grade: 100000 for N-80, 95000 for L-80 | not executed | Api.TensileJointAsWritten | Api.TensileJoint |

=== FILE: algorithm.dfy ===
/** The load-case pipeline of algorithm.py.

    Every scenario carries one series per quantity, sampled on its depth
    grid: the casing geometry at each grid point, the inside and outside
    pressures, real and effective tension, burst and collapse loads and the
    stress state. The master scenario takes, at every depth, the worst
    burst case, the worst collapse case and the largest equivalent stress,
    and the casing strength is rated along the master's geometry.

    The source appends to lists that start empty; here every stage returns
    the scenario with the series it fills replaced. */
module Algorithm {
  import opened Numerics
  import opened Outcomes
  import Fluids
  import Tubulars
  import Stress
  import Api
  import CollapseRating
  import Grid

  /** The failure mode a scenario is written for; Unset is the master
      before any depth has been combined (the source's None). */
  datatype Mode = Unset | Burst | Collapse | Tensile

  datatype Scenario = Scenario(
    mode: Mode,
    name: string,
    fluidIn: Fluids.FluidColumn,
    fluidOut: Fluids.FluidColumn,
    md: seq<real>,
    od: seq<real>,
    id: seq<real>,
    yp: seq<real>,
    wpf: seq<real>,
    grade: seq<Tubulars.Grade>,
    conn: seq<Tubulars.Connection>,
    pin: seq<real>,
    pout: seq<real>,
    treal: seq<real>,
    teff: seq<real>,
    burst: seq<real>,
    collapse: seq<real>,
    axial: seq<real>,
    radial: seq<real>,
    tangential: seq<real>,
    vonmises: seq<real>,
    ypadj: seq<real>)

  /** The ratings of casing_strength, one series each. */
  datatype Strengths = Strengths(
    burst: seq<real>,
    joint: seq<real>,
    tensile: seq<real>,
    collapse: seq<real>,
    collapseBiax: seq<real>)

  /** Every series of the scenario has one entry per grid point. */
  predicate Complete(s: Scenario, n: nat) {
    && |s.md| == n && |s.od| == n && |s.id| == n && |s.yp| == n && |s.wpf| == n
    && |s.grade| == n && |s.conn| == n && |s.pin| == n && |s.pout| == n
    && |s.treal| == n && |s.teff| == n && |s.burst| == n && |s.collapse| == n
    && |s.axial| == n && |s.radial| == n && |s.tangential| == n && |s.vonmises| == n
    && |s.ypadj| == n
  }

  /** Every scenario of the group has every series sampled on n points. */
  predicate AllComplete(group: seq<Scenario>, n: nat) {
    forall j :: 0 <= j < |group| ==> Complete(group[j], n)
  }

  /* ---------------------------------------------------------------------
     Applying a fallible step to every grid point
     --------------------------------------------------------------------- */

  /** Apply f to every element in order, stopping at the first failure, as
      the source's loops stop at the first exception. */
  function MapSeries<S, T>(xs: seq<S>, f: S -> Result<T>): (r: Result<seq<T>>)
    ensures r.Success? <==> forall k :: 0 <= k < |xs| ==> f(xs[k]).Success?
    ensures r.Success? ==> |r.value| == |xs| && forall k :: 0 <= k < |xs| ==> r.value[k] == f(xs[k]).value
    ensures r.Failure? ==> exists k :: 0 <= k < |xs| && f(xs[k]) == Failure(r.error)
                                       && forall m :: 0 <= m < k ==> f(xs[m]).Success?
  {
    if |xs| == 0 then Success([])
    else
      var head :- f(xs[0]);
      var rest :- MapSeries(xs[1..], f);
      assert forall k :: 1 <= k < |xs| ==> xs[k] == xs[1..][k - 1];
      Success([head] + rest)
  }

  /* ---------------------------------------------------------------------
     update_casing
     --------------------------------------------------------------------- */

  /** update_casing(casing, scenario): the geometry, grade and connection
      of the section at every grid point (rounding of the source's unit
      conversion left out). Only the casing series change. */
  method UpdateCasing(casing: seq<Tubulars.Section>, s: Scenario) returns (r: Scenario, ids: seq<nat>)
    requires 1 <= |casing|
    ensures r == s.(od := r.od, id := r.id, yp := r.yp, wpf := r.wpf, grade := r.grade, conn := r.conn)
    ensures |ids| == |s.md| && |r.od| == |r.id| == |r.yp| == |r.wpf| == |r.grade| == |r.conn| == |s.md|
    ensures forall k :: 0 <= k < |ids| ==>
              && ids[k] < |casing|
              && r.od[k] == casing[ids[k]].od && r.id[k] == casing[ids[k]].id
              && r.yp[k] == casing[ids[k]].yp && r.wpf[k] == casing[ids[k]].wpf
              && r.grade[k] == casing[ids[k]].grade && r.conn[k] == casing[ids[k]].connection
    ensures |ids| > 0 ==> ids[0] <= 1
    ensures forall k :: 0 < k < |ids| ==> ids[k - 1] <= ids[k] <= ids[k - 1] + 1
    ensures Grid.NonDecreasing(s.md) && Grid.SingleCrossings(casing, s.md) ==>
              forall k :: 0 <= k < |ids| ==> Grid.InSectionBelowTop(casing, s.md[k], ids[k])
  {
    ids := Grid.SectionIndices(casing, s.md);
    r := s.(od := seq(|ids|, k requires 0 <= k < |ids| => casing[ids[k]].od),
            id := seq(|ids|, k requires 0 <= k < |ids| => casing[ids[k]].id),
            yp := seq(|ids|, k requires 0 <= k < |ids| => casing[ids[k]].yp),
            wpf := seq(|ids|, k requires 0 <= k < |ids| => casing[ids[k]].wpf),
            grade := seq(|ids|, k requires 0 <= k < |ids| => casing[ids[k]].grade),
            conn := seq(|ids|, k requires 0 <= k < |ids| => casing[ids[k]].connection));
  }

  /* ---------------------------------------------------------------------
     pressure
     --------------------------------------------------------------------- */

  /** pressure(scenarios) for one scenario: inside and outside pressure at
      every grid point; the first depth either column cannot reach fails. */
  function Pressures(s: Scenario, td: real): (r: Result<Scenario>)
    ensures r.Success? <==> forall k :: 0 <= k < |s.md| ==> Fluids.Pressure(s.md[k], s.fluidIn, s.fluidOut, td).Success?
    ensures r.Success? ==>
              && r.value == s.(pin := r.value.pin, pout := r.value.pout)
              && |r.value.pin| == |s.md| == |r.value.pout|
              && forall k :: 0 <= k < |s.md| ==>
                   && Fluids.PressureSingle(s.md[k], s.fluidIn, td) == Success(r.value.pin[k])
                   && Fluids.PressureSingle(s.md[k], s.fluidOut, td) == Success(r.value.pout[k])
  {
    var ps :- MapSeries(s.md, (d: real) => Fluids.Pressure(d, s.fluidIn, s.fluidOut, td));
    Success(s.(pin := seq(|ps|, k requires 0 <= k < |ps| => ps[k].0),
               pout := seq(|ps|, k requires 0 <= k < |ps| => ps[k].1)))
  }

  /** Pressures succeed exactly when every grid point lies at or above the
      total depth, and with non-negative densities both series grow with
      depth along a non-decreasing grid. */
  lemma PressuresDefined(s: Scenario, td: real)
    requires Fluids.WellFormed(s.fluidIn, td) && Fluids.WellFormed(s.fluidOut, td)
    ensures Pressures(s, td).Success? <==> forall k :: 0 <= k < |s.md| ==> s.md[k] <= td
  {
    forall k | 0 <= k < |s.md|
      ensures Fluids.Pressure(s.md[k], s.fluidIn, s.fluidOut, td).Success? <==> s.md[k] <= td
    {
      Fluids.PressureDefined(s.md[k], s.fluidIn, td);
      Fluids.PressureDefined(s.md[k], s.fluidOut, td);
    }
  }

  lemma PressuresIncreaseWithDepth(s: Scenario, td: real)
    requires Fluids.WellFormed(s.fluidIn, td) && Fluids.WellFormed(s.fluidOut, td)
    requires Fluids.NonNegativeDensities(s.fluidIn) && Fluids.NonNegativeDensities(s.fluidOut)
    requires Pressures(s, td).Success? && Grid.NonDecreasing(s.md)
    ensures var p := Pressures(s, td).value;
            forall a, b :: 0 <= a < b < |s.md| ==> p.pin[a] <= p.pin[b] && p.pout[a] <= p.pout[b]
  {
    PressuresDefined(s, td);
    var p := Pressures(s, td).value;
    forall a, b | 0 <= a < b < |s.md|
      ensures p.pin[a] <= p.pin[b] && p.pout[a] <= p.pout[b]
    {
      Fluids.PressureMonotone(s.md[a], s.md[b], s.fluidIn, td);
      Fluids.PressureMonotone(s.md[a], s.md[b], s.fluidOut, td);
    }
  }

  /* ---------------------------------------------------------------------
     tension
     --------------------------------------------------------------------- */

  /** The scenario whose name adds the maximum overpull to real tension. */
  const OverpullScenario: string := "OMW"

  /** Real and effective tension at one depth: real tension, plus the
      overpull margin mop for the OMW scenario, then the effective tension
      of that value. */
  function TensionAt(depth: real, s: Scenario, casing: seq<Tubulars.Section>, td: real,
                     slackOff: real, mop: real): (r: Result<(real, real)>)
    ensures r.Success? <==> Tubulars.TensionReal(depth, casing, s.fluidIn, s.fluidOut, td, slackOff).Success?
                            && Tubulars.TensionEff(0.0, depth, casing, s.fluidIn, s.fluidOut, td).Success?
    ensures r.Success? ==>
              && r.value.0 - (if s.name == OverpullScenario then mop else 0.0)
                 == Tubulars.TensionReal(depth, casing, s.fluidIn, s.fluidOut, td, slackOff).value
              && r.value.1 - r.value.0 == Tubulars.TensionEff(0.0, depth, casing, s.fluidIn, s.fluidOut, td).value
  {
    var treal :- Tubulars.TensionReal(depth, casing, s.fluidIn, s.fluidOut, td, slackOff);
    var treal' := if s.name == OverpullScenario then treal + mop else treal;
    var teff :- Tubulars.TensionEff(treal', depth, casing, s.fluidIn, s.fluidOut, td);
    Success((treal', teff))
  }

  /** tension(scenarios, casing) for one scenario. */
  function Tensions(s: Scenario, casing: seq<Tubulars.Section>, td: real, slackOff: real, mop: real): (r: Result<Scenario>)
    ensures r.Success? <==> forall k :: 0 <= k < |s.md| ==> TensionAt(s.md[k], s, casing, td, slackOff, mop).Success?
    ensures r.Success? ==>
              && r.value == s.(treal := r.value.treal, teff := r.value.teff)
              && |r.value.treal| == |s.md| == |r.value.teff|
              && forall k :: 0 <= k < |s.md| ==>
                   (r.value.treal[k], r.value.teff[k]) == TensionAt(s.md[k], s, casing, td, slackOff, mop).value
  {
    var ts :- MapSeries(s.md, (d: real) => TensionAt(d, s, casing, td, slackOff, mop));
    Success(s.(treal := seq(|ts|, k requires 0 <= k < |ts| => ts[k].0),
               teff := seq(|ts|, k requires 0 <= k < |ts| => ts[k].1)))
  }

  /** The OMW scenario differs from the same scenario under any other name
      only by the overpull: both real and effective tension are shifted by
      exactly mop at every grid point. */
  lemma OverpullShiftsTension(s: Scenario, other: string, casing: seq<Tubulars.Section>, td: real,
                              slackOff: real, mop: real)
    requires s.name == OverpullScenario && other != OverpullScenario
    ensures var t := s.(name := other);
            && (Tensions(s, casing, td, slackOff, mop).Success? <==> Tensions(t, casing, td, slackOff, mop).Success?)
            && (Tensions(s, casing, td, slackOff, mop).Success? ==>
                  forall k :: 0 <= k < |s.md| ==>
                    && Tensions(s, casing, td, slackOff, mop).value.treal[k]
                       == Tensions(t, casing, td, slackOff, mop).value.treal[k] + mop
                    && Tensions(s, casing, td, slackOff, mop).value.teff[k]
                       == Tensions(t, casing, td, slackOff, mop).value.teff[k] + mop)
  {
    var t := s.(name := other);
    assert t.md == s.md && t.fluidIn == s.fluidIn && t.fluidOut == s.fluidOut;
  }

  /* ---------------------------------------------------------------------
     burst and collapse loads
     --------------------------------------------------------------------- */

  /** A pressure difference, with a negative one replaced by zero. */
  function ClampAtZero(x: real): (r: real)
    ensures 0.0 <= r && x <= r
    ensures r == x || r == 0.0
  {
    if x < 0.0 then 0.0 else x
  }

  /** burst(scenarios) for one scenario: inside over outside pressure. */
  function BurstLoads(s: Scenario): (r: Scenario)
    requires |s.pin| == |s.md| == |s.pout|
    ensures r == s.(burst := r.burst) && |r.burst| == |s.md|
    ensures forall k :: 0 <= k < |s.md| ==>
              0.0 <= r.burst[k] && s.pin[k] - s.pout[k] <= r.burst[k]
              && (r.burst[k] == s.pin[k] - s.pout[k] || r.burst[k] == 0.0)
  {
    s.(burst := seq(|s.md|, k requires 0 <= k < |s.md| => ClampAtZero(s.pin[k] - s.pout[k])))
  }

  /** collapse(scenarios) for one scenario: outside over inside pressure. */
  function CollapseLoads(s: Scenario): (r: Scenario)
    requires |s.pin| == |s.md| == |s.pout|
    ensures r == s.(collapse := r.collapse) && |r.collapse| == |s.md|
    ensures forall k :: 0 <= k < |s.md| ==>
              0.0 <= r.collapse[k] && s.pout[k] - s.pin[k] <= r.collapse[k]
              && (r.collapse[k] == s.pout[k] - s.pin[k] || r.collapse[k] == 0.0)
  {
    s.(collapse := seq(|s.md|, k requires 0 <= k < |s.md| => ClampAtZero(s.pout[k] - s.pin[k])))
  }

  /** At every grid point at most one of the two loads is non-zero, the
      burst load exceeds the collapse load by exactly the pressure
      difference, and the burst load is zero exactly when the outside
      pressure is at least the inside one. */
  lemma LoadsComplementary(s: Scenario)
    requires |s.pin| == |s.md| == |s.pout|
    ensures var r := CollapseLoads(BurstLoads(s));
            forall k :: 0 <= k < |s.md| ==>
              && r.burst[k] - r.collapse[k] == s.pin[k] - s.pout[k]
              && (r.burst[k] == 0.0 || r.collapse[k] == 0.0)
              && (r.burst[k] == 0.0 <==> s.pin[k] <= s.pout[k])
  {
  }

  /* ---------------------------------------------------------------------
     stress_state and yield_pt_adjust
     --------------------------------------------------------------------- */

  /** The Lamé and axial stresses are defined at every grid point. */
  predicate StressDefined(s: Scenario) {
    && |s.od| == |s.md| && |s.id| == |s.md| && |s.pin| == |s.md| && |s.pout| == |s.md| && |s.treal| == |s.md|
    && forall k :: 0 <= k < |s.md| ==>
         Stress.LameDefined(s.od[k], s.id[k]) && Tubulars.WallArea(s.od[k], s.id[k]) != 0.0
  }

  /** stress_state(scenarios) for one scenario: axial, radial, tangential
      and von Mises stress at every grid point, at the inner wall. */
  function StressState(s: Scenario, sqrt: real -> real): (r: Scenario)
    requires IsSqrt(sqrt) && StressDefined(s)
    ensures r == s.(axial := r.axial, radial := r.radial, tangential := r.tangential, vonmises := r.vonmises)
    ensures |r.axial| == |r.radial| == |r.tangential| == |r.vonmises| == |s.md|
    ensures forall k :: 0 <= k < |s.md| ==>
              && r.axial[k] * Tubulars.WallArea(s.od[k], s.id[k]) == s.treal[k]
              && r.radial[k] == -s.pin[k]
              && r.tangential[k] == Stress.Tangential(s.od[k], s.id[k], s.pin[k], s.pout[k])
              && r.vonmises[k] == Stress.VonMises(r.radial[k], r.tangential[k], r.axial[k], sqrt)
  {
    var n := |s.md|;
    var axial := seq(n, k requires 0 <= k < n => Stress.Axial(s.od[k], s.id[k], s.treal[k]));
    var radial := seq(n, k requires 0 <= k < n => Stress.Radial(s.od[k], s.id[k], s.pin[k], s.pout[k]));
    var tangential := seq(n, k requires 0 <= k < n => Stress.Tangential(s.od[k], s.id[k], s.pin[k], s.pout[k]));
    var vonmises := seq(n, k requires 0 <= k < n => Stress.VonMises(radial[k], tangential[k], axial[k], sqrt));
    s.(axial := axial, radial := radial, tangential := tangential, vonmises := vonmises)
  }

  /** Where inside and outside pressure balance, the pipe wall is under
      hydrostatic stress -p in the plane and the equivalent stress is the
      distance of the axial stress from -p. */
  lemma BalancedPressureStress(s: Scenario, sqrt: real -> real, k: nat)
    requires IsSqrt(sqrt) && StressDefined(s)
    requires k < |s.md| && s.pin[k] == s.pout[k]
    ensures var r := StressState(s, sqrt);
            var d := r.axial[k] + s.pin[k];
            && r.radial[k] == r.tangential[k] == -s.pin[k]
            && r.vonmises[k] == (if d < 0.0 then -d else d)
  {
    var r := StressState(s, sqrt);
    var p := s.pin[k];
    Stress.EqualPressuresGiveUniformStress(s.od[k], s.id[k], p);
    var sa := r.axial[k];
    var d := sa + p;
    BalancedRadicand(p, sa);
    Stress.VonMisesSquared(-p, -p, sa, sqrt);
    RootUnique(r.vonmises[k], if d < 0.0 then -d else d);
  }

  lemma BalancedRadicand(p: real, sa: real)
    ensures Stress.VonMisesRadicand(-p, -p, sa) == (sa + p) * (sa + p)
  {
  }

  /** Collapse scenarios rate against the biaxial yield point. */
  predicate YieldAdjustDefined(s: Scenario) {
    && |s.yp| == |s.md| && |s.axial| == |s.md| && |s.treal| == |s.md|
    && (s.mode == Collapse ==> forall k :: 0 <= k < |s.md| ==> s.yp[k] != 0.0)
  }

  /** yield_pt_adjust(scenarios) for one scenario: a collapse scenario
      reduces the yield point by the axial stress (tension when real
      tension is non-negative, always on the collapse side of the ellipse);
      every other scenario keeps the yield point. */
  function YieldPtAdjust(s: Scenario, sqrt: real -> real): (r: Scenario)
    requires YieldAdjustDefined(s)
    ensures r == s.(ypadj := r.ypadj) && |r.ypadj| == |s.md|
    ensures s.mode != Collapse ==> r.ypadj == s.yp
    ensures s.mode == Collapse ==> forall k :: 0 <= k < |s.md| ==>
              r.ypadj[k] == Stress.BiaxialYield(s.yp[k], s.axial[k], 0.0 <= s.treal[k], true, sqrt)
  {
    if s.mode == Collapse then
      s.(ypadj := seq(|s.md|, k requires 0 <= k < |s.md| =>
                        if s.treal[k] >= 0.0 then Stress.BiaxialYield(s.yp[k], s.axial[k], true, true, sqrt)
                        else Stress.BiaxialYield(s.yp[k], s.axial[k], false, true, sqrt)))
    else
      s.(ypadj := s.yp)
  }

  /** Without axial stress the adjusted yield point is the yield point. */
  lemma YieldPtAdjustUnloaded(s: Scenario, sqrt: real -> real, k: nat)
    requires IsSqrt(sqrt) && YieldAdjustDefined(s)
    requires k < |s.md| && s.axial[k] == 0.0
    ensures YieldPtAdjust(s, sqrt).ypadj[k] == s.yp[k]
  {
    if s.mode == Collapse {
      Stress.BiaxialUnloaded(s.yp[k], 0.0 <= s.treal[k], true, sqrt);
    }
  }

  /** In a collapse scenario, axial tension up to the yield point lowers
      the yield point used for the collapse rating. */
  lemma YieldPtAdjustTensionLowers(s: Scenario, sqrt: real -> real, k: nat)
    requires IsSqrt(sqrt) && YieldAdjustDefined(s) && s.mode == Collapse
    requires k < |s.md| && 0.0 <= s.treal[k] && 0.0 <= s.axial[k] <= s.yp[k]
    ensures YieldPtAdjust(s, sqrt).ypadj[k] <= s.yp[k]
  {
    var yp, sa := s.yp[k], s.axial[k];
    var q := sa / yp;
    QuotientAtMostOne(sa, yp);
    assert 0.0 <= q * q <= 1.0 by { SquaresWeaklyOrdered(q, 1.0); }
    SqrtAtMostOne(sqrt, 1.0 - 0.75 * (q * q));
    var root := Stress.BiaxialRoot(yp, sa, sqrt);
    assert root <= 1.0;
    assert Stress.BiaxialSlope(true, true) == -0.5;
    assert YieldPtAdjust(s, sqrt).ypadj[k] == yp * (root + -0.5 * q);
    assert yp * (root + -0.5 * q) == yp * root - 0.5 * sa;
    assert yp * root <= yp by { ProductNonNegative(yp, 1.0 - root); }
  }

  /* ---------------------------------------------------------------------
     master_scenario
     --------------------------------------------------------------------- */

  /** np.argmax: the index of the first largest entry. */
  function ArgMax(xs: seq<real>): (j: nat)
    requires |xs| > 0
    ensures j < |xs|
    ensures forall k :: 0 <= k < |xs| ==> xs[k] <= xs[j]
    ensures forall k :: 0 <= k < j ==> xs[k] < xs[j]
  {
    ArgMaxFrom(xs, 1, 0)
  }

  function ArgMaxFrom(xs: seq<real>, i: nat, best: nat): (j: nat)
    requires best < i <= |xs|
    requires forall k :: 0 <= k < i ==> xs[k] <= xs[best]
    requires forall k :: 0 <= k < best ==> xs[k] < xs[best]
    ensures j < |xs|
    ensures forall k :: 0 <= k < |xs| ==> xs[k] <= xs[j]
    ensures forall k :: 0 <= k < j ==> xs[k] < xs[j]
    decreases |xs| - i
  {
    if i == |xs| then best
    else if xs[i] > xs[best] then ArgMaxFrom(xs, i + 1, i)
    else ArgMaxFrom(xs, i + 1, best)
  }

  /** The scenarios of one failure mode, in their original order. */
  function OfMode(scenarios: seq<Scenario>, m: Mode): (g: seq<Scenario>)
    ensures forall s :: s in g <==> s in scenarios && s.mode == m
    ensures |g| <= |scenarios|
  {
    if |scenarios| == 0 then []
    else
      var rest := OfMode(scenarios[1..], m);
      assert forall s :: s in scenarios <==> s == scenarios[0] || s in scenarios[1..];
      if scenarios[0].mode == m then [scenarios[0]] + rest else rest
  }

  /** The load a group of scenarios is ranked by. */
  datatype Load = BurstLoad | CollapseLoad | VonMisesLoad

  function LoadOf(s: Scenario, l: Load): seq<real> {
    match l
    case BurstLoad => s.burst
    case CollapseLoad => s.collapse
    case VonMisesLoad => s.vonmises
  }

  /** The value of one load at grid point i, across a group. */
  function Column(group: seq<Scenario>, i: nat, l: Load): (xs: seq<real>)
    requires forall j :: 0 <= j < |group| ==> i < |LoadOf(group[j], l)|
    ensures |xs| == |group|
    ensures forall j :: 0 <= j < |group| ==> xs[j] == LoadOf(group[j], l)[i]
  {
    seq(|group|, j requires 0 <= j < |group| => LoadOf(group[j], l)[i])
  }

  /** At every grid point, the index of the first scenario of the group
      with the largest value of the load. */
  function Winners(group: seq<Scenario>, n: nat, l: Load): (w: seq<nat>)
    requires n == 0 || |group| > 0
    requires AllComplete(group, n)
    ensures |w| == n
    ensures forall i :: 0 <= i < n ==>
              && w[i] < |group|
              && (forall j :: 0 <= j < |group| ==> LoadOf(group[j], l)[i] <= LoadOf(group[w[i]], l)[i])
              && (forall j :: 0 <= j < w[i] ==> LoadOf(group[j], l)[i] < LoadOf(group[w[i]], l)[i])
  {
    seq(n, i requires 0 <= i < n => ArgMax(Column(group, i, l)))
  }

  /** Both series have an entry i and the entries agree. */
  predicate SameAt<T(==)>(x: seq<T>, y: seq<T>, i: nat) {
    i < |x| && i < |y| && x[i] == y[i]
  }

  /** At grid point i the master carries the burst load and the casing of
      scenario s. */
  predicate CasingFrom(m: Scenario, s: Scenario, i: nat) {
    && SameAt(m.burst, s.burst, i) && SameAt(m.md, s.md, i)
    && SameAt(m.od, s.od, i) && SameAt(m.id, s.id, i) && SameAt(m.wpf, s.wpf, i)
    && SameAt(m.grade, s.grade, i) && SameAt(m.conn, s.conn, i) && SameAt(m.yp, s.yp, i)
  }

  /** At grid point i the master carries the collapse load, pressures,
      tensions and wall stresses of scenario s. */
  predicate LoadsFrom(m: Scenario, s: Scenario, i: nat) {
    && SameAt(m.collapse, s.collapse, i) && SameAt(m.pin, s.pin, i) && SameAt(m.pout, s.pout, i)
    && SameAt(m.axial, s.axial, i) && SameAt(m.radial, s.radial, i) && SameAt(m.tangential, s.tangential, i)
    && SameAt(m.treal, s.treal, i) && SameAt(m.teff, s.teff, i)
  }

  /** The fluid column of the master, which the source leaves unset. */
  const NoFluid: Fluids.FluidColumn := Fluids.FluidColumn(0.0, [], [])

  /** A master scenario with every series empty (Scenario() in the source). */
  function EmptyMaster(): (m: Scenario)
    ensures Complete(m, 0)
  {
    Scenario(Unset, "", NoFluid, NoFluid, [], [], [], [], [], [], [], [], [], [], [], [], [], [], [], [], [], [])
  }

  /** The burst load and casing series, taken at every grid point i from
      the scenario group[w[i]]. */
  function TakeCasing(m: Scenario, group: seq<Scenario>, w: seq<nat>): (r: Scenario)
    requires AllComplete(group, |w|)
    requires forall i :: 0 <= i < |w| ==> w[i] < |group|
    ensures r == m.(burst := r.burst, md := r.md, od := r.od, id := r.id, wpf := r.wpf,
                    grade := r.grade, conn := r.conn, yp := r.yp)
    ensures |r.burst| == |r.md| == |r.od| == |r.id| == |r.wpf| == |r.grade| == |r.conn| == |r.yp| == |w|
    ensures forall i :: 0 <= i < |w| ==> CasingFrom(r, group[w[i]], i)
  {
    var n := |w|;
    assert forall i :: 0 <= i < n ==> Complete(group[w[i]], n);
    m.(burst := seq(n, i requires 0 <= i < n => group[w[i]].burst[i]),
       md := seq(n, i requires 0 <= i < n => group[w[i]].md[i]),
       od := seq(n, i requires 0 <= i < n => group[w[i]].od[i]),
       id := seq(n, i requires 0 <= i < n => group[w[i]].id[i]),
       wpf := seq(n, i requires 0 <= i < n => group[w[i]].wpf[i]),
       grade := seq(n, i requires 0 <= i < n => group[w[i]].grade[i]),
       conn := seq(n, i requires 0 <= i < n => group[w[i]].conn[i]),
       yp := seq(n, i requires 0 <= i < n => group[w[i]].yp[i]))
  }

  /** The collapse load, pressure, tension and wall stress series, taken
      at every grid point i from the scenario group[w[i]]. */
  function TakeLoads(m: Scenario, group: seq<Scenario>, w: seq<nat>): (r: Scenario)
    requires AllComplete(group, |w|)
    requires forall i :: 0 <= i < |w| ==> w[i] < |group|
    ensures r == m.(collapse := r.collapse, pin := r.pin, pout := r.pout, axial := r.axial,
                    radial := r.radial, tangential := r.tangential, treal := r.treal, teff := r.teff)
    ensures |r.collapse| == |r.pin| == |r.pout| == |r.axial| == |r.radial| == |r.tangential| == |w|
    ensures |r.treal| == |r.teff| == |w|
    ensures forall i :: 0 <= i < |w| ==> LoadsFrom(r, group[w[i]], i)
  {
    var n := |w|;
    assert forall i :: 0 <= i < n ==> Complete(group[w[i]], n);
    m.(collapse := seq(n, i requires 0 <= i < n => group[w[i]].collapse[i]),
       pin := seq(n, i requires 0 <= i < n => group[w[i]].pin[i]),
       pout := seq(n, i requires 0 <= i < n => group[w[i]].pout[i]),
       axial := seq(n, i requires 0 <= i < n => group[w[i]].axial[i]),
       radial := seq(n, i requires 0 <= i < n => group[w[i]].radial[i]),
       tangential := seq(n, i requires 0 <= i < n => group[w[i]].tangential[i]),
       treal := seq(n, i requires 0 <= i < n => group[w[i]].treal[i]),
       teff := seq(n, i requires 0 <= i < n => group[w[i]].teff[i]))
  }

  /** The von Mises series, taken at every grid point i from the scenario
      group[w[i]]. */
  function TakeVonMises(m: Scenario, group: seq<Scenario>, w: seq<nat>): (r: Scenario)
    requires AllComplete(group, |w|)
    requires forall i :: 0 <= i < |w| ==> w[i] < |group|
    ensures r == m.(vonmises := r.vonmises) && |r.vonmises| == |w|
    ensures forall i :: 0 <= i < |w| ==> SameAt(r.vonmises, group[w[i]].vonmises, i)
  {
    var n := |w|;
    assert forall i :: 0 <= i < n ==> Complete(group[w[i]], n);
    m.(vonmises := seq(n, i requires 0 <= i < n => group[w[i]].vonmises[i]))
  }

  /** The combining loop of master_scenario: at every grid point the
      casing series come from the burst scenario with the largest burst
      load, the pressure, tension and stress series from the collapse
      scenario with the largest collapse load, and the von Mises stress is
      the largest over all scenarios. Once a grid point has been combined
      the master is marked as a collapse scenario. */
  function Combine(bursts: seq<Scenario>, collapses: seq<Scenario>, all: seq<Scenario>, n: nat): (m: Scenario)
    requires |bursts| > 0 && |all| > 0 && (n == 0 || |collapses| > 0)
    requires AllComplete(bursts, n) && AllComplete(collapses, n) && AllComplete(all, n)
    ensures m.mode == (if n == 0 then Unset else Collapse)
    ensures Complete(m.(ypadj := m.md), n) && m.ypadj == []
    ensures var b := Winners(bursts, n, BurstLoad);
            forall i :: 0 <= i < n ==> CasingFrom(m, bursts[b[i]], i)
    ensures var c := Winners(collapses, n, CollapseLoad);
            forall i :: 0 <= i < n ==> LoadsFrom(m, collapses[c[i]], i)
    ensures var v := Winners(all, n, VonMisesLoad);
            forall i :: 0 <= i < n ==> SameAt(m.vonmises, all[v[i]].vonmises, i)
  {
    var b := Winners(bursts, n, BurstLoad);
    var c := Winners(collapses, n, CollapseLoad);
    var v := Winners(all, n, VonMisesLoad);
    var m1 := TakeCasing(EmptyMaster().(mode := if n == 0 then Unset else Collapse), bursts, b);
    var m2 := TakeLoads(m1, collapses, c);
    var m3 := TakeVonMises(m2, all, v);
    assert forall i :: 0 <= i < n ==> CasingFrom(m2, bursts[b[i]], i) ==> CasingFrom(m3, bursts[b[i]], i);
    assert forall i :: 0 <= i < n ==> CasingFrom(m1, bursts[b[i]], i) ==> CasingFrom(m2, bursts[b[i]], i);
    assert forall i :: 0 <= i < n ==> LoadsFrom(m2, collapses[c[i]], i) ==> LoadsFrom(m3, collapses[c[i]], i);
    m3
  }

  /** The number of grid points of a scenario list, read from its first
      scenario. */
  function Samples(scenarios: seq<Scenario>): nat {
    if |scenarios| == 0 then 0 else |scenarios[0].md|
  }

  /** Some scenario of the list is written for mode m. */
  predicate HasMode(scenarios: seq<Scenario>, m: Mode) {
    exists j :: 0 <= j < |scenarios| && scenarios[j].mode == m
  }

  lemma OfModeEmpty(scenarios: seq<Scenario>, m: Mode)
    ensures |OfMode(scenarios, m)| > 0 <==> HasMode(scenarios, m)
  {
    var g := OfMode(scenarios, m);
    if |g| > 0 {
      assert g[0] in g;
      var j :| 0 <= j < |scenarios| && scenarios[j] == g[0];
    }
    if HasMode(scenarios, m) {
      var j :| 0 <= j < |scenarios| && scenarios[j].mode == m;
      assert scenarios[j] in g;
    }
  }

  /** The k-th scenario of a group is some scenario j of the list with that
      mode, and every scenario of the mode listed before j comes before
      position k in the group: the filter keeps the list order. */
  lemma {:induction false} OfModeOrigin(scenarios: seq<Scenario>, m: Mode, k: nat)
    requires k < |OfMode(scenarios, m)|
    ensures var g := OfMode(scenarios, m);
            exists j :: 0 <= j < |scenarios| && scenarios[j] == g[k] && scenarios[j].mode == m
                        && KeptInOrder(scenarios, g, m, j, k)
    decreases |scenarios|
  {
    var g := OfMode(scenarios, m);
    var tail := scenarios[1..];
    var rest := OfMode(tail, m);
    if scenarios[0].mode == m && k == 0 {
      assert g[0] == scenarios[0];
      assert KeptInOrder(scenarios, g, m, 0, 0);
    } else {
      var k0 := if scenarios[0].mode == m then k - 1 else k;
      assert k0 < |rest|;
      OfModeOrigin(tail, m, k0);
      var j' :| 0 <= j' < |tail| && tail[j'] == rest[k0] && tail[j'].mode == m
                && KeptInOrder(tail, rest, m, j', k0);
      if scenarios[0].mode == m {
        KeptAfterHead(scenarios, g, rest, m, j', k);
      } else {
        KeptAfterSkip(scenarios, g, rest, m, j', k);
      }
    }
  }

  /** Keeping the list's first scenario shifts both positions by one. */
  lemma KeptAfterHead(scenarios: seq<Scenario>, g: seq<Scenario>, rest: seq<Scenario>, m: Mode, j: nat, k: nat)
    requires 0 < |scenarios| && scenarios[0].mode == m && 1 <= k && g == [scenarios[0]] + rest
    requires j + 1 < |scenarios| && k - 1 < |rest| && scenarios[j + 1] == rest[k - 1] && scenarios[j + 1].mode == m
    requires KeptInOrder(scenarios[1..], rest, m, j, k - 1)
    ensures j + 1 < |scenarios| && k < |g| && scenarios[j + 1] == g[k] && scenarios[j + 1].mode == m
    ensures KeptInOrder(scenarios, g, m, j + 1, k)
  {
    forall q | 0 <= q < j + 1 && q < |scenarios| && scenarios[q].mode == m
      ensures exists k' :: 0 <= k' < k && k' < |g| && g[k'] == scenarios[q]
    {
      if q == 0 {
        assert g[0] == scenarios[q];
      } else {
        assert scenarios[1..][q - 1] == scenarios[q];
        var k'' :| 0 <= k'' < k - 1 && k'' < |rest| && rest[k''] == scenarios[1..][q - 1];
        assert g[k'' + 1] == scenarios[q];
      }
    }
  }

  /** Dropping a first scenario of another mode shifts the list position
      by one and leaves the group position. */
  lemma KeptAfterSkip(scenarios: seq<Scenario>, g: seq<Scenario>, rest: seq<Scenario>, m: Mode, j: nat, k: nat)
    requires 0 < |scenarios| && scenarios[0].mode != m && g == rest
    requires j + 1 < |scenarios| && k < |rest| && scenarios[j + 1] == rest[k] && scenarios[j + 1].mode == m
    requires KeptInOrder(scenarios[1..], rest, m, j, k)
    ensures KeptInOrder(scenarios, g, m, j + 1, k)
  {
    forall q | 0 <= q < j + 1 && q < |scenarios| && scenarios[q].mode == m
      ensures exists k' :: 0 <= k' < k && k' < |rest| && rest[k'] == scenarios[q]
    {
      assert scenarios[1..][q - 1] == scenarios[q];
    }
  }

  /** Every scenario of mode m listed before position j appears in the
      group before position k. */
  predicate KeptInOrder(scenarios: seq<Scenario>, g: seq<Scenario>, m: Mode, j: nat, k: nat) {
    forall q :: 0 <= q < j && q < |scenarios| && scenarios[q].mode == m ==>
      exists k' :: 0 <= k' < k && k' < |g| && g[k'] == scenarios[q]
  }

  /** A group drawn from complete scenarios is complete. */
  lemma SubgroupComplete(sub: seq<Scenario>, group: seq<Scenario>, n: nat)
    requires forall s :: s in sub ==> s in group
    requires AllComplete(group, n)
    ensures AllComplete(sub, n)
  {
    forall j | 0 <= j < |sub|
      ensures Complete(sub[j], n)
    {
      assert sub[j] in group;
      var k :| 0 <= k < |group| && group[k] == sub[j];
    }
  }

  /** The scenarios the source accepts: every series of every scenario
      sampled on the same grid, and non-zero yield points in the burst
      scenarios whose casing the master may take. */
  predicate Aligned(scenarios: seq<Scenario>) {
    && AllComplete(scenarios, Samples(scenarios))
    && forall j, i :: 0 <= j < |scenarios| && 0 <= i < |scenarios[j].yp| && scenarios[j].mode == Burst ==>
         scenarios[j].yp[i] != 0.0
  }

  /** master_scenario(master, scenarios), with the master starting empty:
      combine the worst cases grid point by grid point, adjust the yield
      point of the combined collapse case, then check the tensile group.
      The source reads the first burst scenario before anything else, so
      no burst scenario is an IndexError; a grid point with no collapse
      scenario is an argmax over an empty list; no tensile scenario is an
      IndexError after the master has been filled. */
  function MasterScenario(scenarios: seq<Scenario>, sqrt: real -> real): (r: Result<Scenario>)
    requires Aligned(scenarios)
    ensures !HasMode(scenarios, Burst) ==> r == Failure(IndexError)
    ensures HasMode(scenarios, Burst) && 0 < Samples(scenarios) && !HasMode(scenarios, Collapse) ==>
              r == Failure(EmptyArgmax)
    ensures r.Success? <==> HasMode(scenarios, Burst) && HasMode(scenarios, Tensile)
                            && (Samples(scenarios) == 0 || HasMode(scenarios, Collapse))
    ensures r.Success? ==>
              && Complete(r.value, Samples(scenarios))
              && r.value.mode == (if Samples(scenarios) == 0 then Unset else Collapse)
              && forall i :: 0 <= i < Samples(scenarios) ==>
                   && r.value.yp[i] != 0.0
                   && r.value.ypadj[i]
                      == Stress.BiaxialYield(r.value.yp[i], r.value.axial[i], 0.0 <= r.value.treal[i], true, sqrt)
  {
    var n := Samples(scenarios);
    var bursts := OfMode(scenarios, Burst);
    var collapses := OfMode(scenarios, Collapse);
    var tensiles := OfMode(scenarios, Tensile);
    OfModeEmpty(scenarios, Burst);
    OfModeEmpty(scenarios, Collapse);
    OfModeEmpty(scenarios, Tensile);
    if |bursts| == 0 then Failure(IndexError)
    else
      SubgroupComplete(bursts, scenarios, n);
      SubgroupComplete(collapses, scenarios, n);
      assert |bursts[0].md| == n;
      if n > 0 && |collapses| == 0 then Failure(EmptyArgmax)
      else
        var combined := Combine(bursts, collapses, scenarios, n);
        MasterYieldPoints(scenarios, bursts, collapses, n);
        var master := YieldPtAdjust(combined, sqrt);
        if |tensiles| == 0 then Failure(IndexError) else Success(master)
  }

  /** The yield points the master takes from the burst winners are
      non-zero, so the biaxial adjustment is defined. */
  lemma MasterYieldPoints(scenarios: seq<Scenario>, bursts: seq<Scenario>, collapses: seq<Scenario>, n: nat)
    requires Aligned(scenarios) && n == Samples(scenarios)
    requires bursts == OfMode(scenarios, Burst) && |bursts| > 0 && (n == 0 || |collapses| > 0)
    requires AllComplete(bursts, n) && AllComplete(collapses, n)
    ensures YieldAdjustDefined(Combine(bursts, collapses, scenarios, n))
  {
    var m := Combine(bursts, collapses, scenarios, n);
    var b := Winners(bursts, n, BurstLoad);
    forall i | 0 <= i < n
      ensures m.yp[i] != 0.0
    {
      assert CasingFrom(m, bursts[b[i]], i);
      assert bursts[b[i]] in bursts;
      var j :| 0 <= j < |scenarios| && scenarios[j] == bursts[b[i]];
      assert scenarios[j].mode == Burst;
    }
  }

  /** No scenario of mode `mode` carries more of load l at grid point i
      than x. */
  predicate NoneExceeds(scenarios: seq<Scenario>, mode: Mode, l: Load, x: real, i: nat) {
    forall j :: 0 <= j < |scenarios| && scenarios[j].mode == mode && i < |LoadOf(scenarios[j], l)| ==>
      LoadOf(scenarios[j], l)[i] <= x
  }

  /** Every scenario of the mode listed before scenario j has a strictly
      smaller load at grid point i: j is the first maximum, as np.argmax
      picks it. */
  predicate EarlierBelow(scenarios: seq<Scenario>, mode: Mode, l: Load, j: nat, i: nat) {
    forall q :: 0 <= q < j < |scenarios| && scenarios[q].mode == mode
                && i < |LoadOf(scenarios[q], l)| && i < |LoadOf(scenarios[j], l)| ==>
      LoadOf(scenarios[q], l)[i] < LoadOf(scenarios[j], l)[i]
  }

  /** The first burst scenario in list order with the largest burst load
      supplies the master's casing at grid point i. */
  predicate CasingSourceAt(scenarios: seq<Scenario>, m: Scenario, i: nat) {
    exists j :: 0 <= j < |scenarios| && scenarios[j].mode == Burst && CasingFrom(m, scenarios[j], i)
                && EarlierBelow(scenarios, Burst, BurstLoad, j, i)
  }

  /** The first collapse scenario in list order with the largest collapse
      load supplies the master's loads at grid point i. */
  predicate LoadsSourceAt(scenarios: seq<Scenario>, m: Scenario, i: nat) {
    exists j :: 0 <= j < |scenarios| && scenarios[j].mode == Collapse && LoadsFrom(m, scenarios[j], i)
                && EarlierBelow(scenarios, Collapse, CollapseLoad, j, i)
  }

  /** Some scenario supplies the master's von Mises stress at grid point i,
      and no scenario exceeds it. */
  predicate LargestVonMisesAt(scenarios: seq<Scenario>, m: Scenario, i: nat) {
    && (exists j :: 0 <= j < |scenarios| && SameAt(m.vonmises, scenarios[j].vonmises, i))
    && forall j :: 0 <= j < |scenarios| && i < |scenarios[j].vonmises| && i < |m.vonmises| ==>
         scenarios[j].vonmises[i] <= m.vonmises[i]
  }

  /** The first-largest scenario of a mode is a scenario of that mode,
      no scenario of the mode exceeds it, and every scenario of the mode
      listed before it is strictly smaller. */
  lemma WinnerOfMode(scenarios: seq<Scenario>, mode: Mode, l: Load, n: nat, i: nat)
    requires AllComplete(scenarios, n) && i < n && HasMode(scenarios, mode)
    ensures var g := OfMode(scenarios, mode);
            && |g| > 0 && AllComplete(g, n)
            && var w := Winners(g, n, l);
               && w[i] < |g|
               && NoneExceeds(scenarios, mode, l, LoadOf(g[w[i]], l)[i], i)
               && exists j :: 0 <= j < |scenarios| && scenarios[j] == g[w[i]] && scenarios[j].mode == mode
                              && EarlierBelow(scenarios, mode, l, j, i)
  {
    var g := OfMode(scenarios, mode);
    OfModeEmpty(scenarios, mode);
    SubgroupComplete(g, scenarios, n);
    var w := Winners(g, n, l);
    FirstWinnerOfMode(scenarios, mode, l, n, i);
    forall j | 0 <= j < |scenarios| && scenarios[j].mode == mode && i < |LoadOf(scenarios[j], l)|
      ensures LoadOf(scenarios[j], l)[i] <= LoadOf(g[w[i]], l)[i]
    {
      assert scenarios[j] in g;
      var q :| 0 <= q < |g| && g[q] == scenarios[j];
    }
  }

  /** The group's first-largest scenario comes from a list position before
      which every scenario of the mode is strictly smaller. */
  lemma FirstWinnerOfMode(scenarios: seq<Scenario>, mode: Mode, l: Load, n: nat, i: nat)
    requires i < n && |OfMode(scenarios, mode)| > 0 && AllComplete(OfMode(scenarios, mode), n)
    ensures var g := OfMode(scenarios, mode);
            var w := Winners(g, n, l);
            exists j :: 0 <= j < |scenarios| && scenarios[j] == g[w[i]] && scenarios[j].mode == mode
                        && EarlierBelow(scenarios, mode, l, j, i)
  {
    var g := OfMode(scenarios, mode);
    var wi := Winners(g, n, l)[i];
    OfModeOrigin(scenarios, mode, wi);
    var k :| 0 <= k < |scenarios| && scenarios[k] == g[wi] && scenarios[k].mode == mode
             && KeptInOrder(scenarios, g, mode, k, wi);
    KeptBelow(scenarios, g, mode, l, i, k, wi);
  }

  /** Scenarios kept before the group's first maximum are below it. */
  lemma KeptBelow(scenarios: seq<Scenario>, g: seq<Scenario>, mode: Mode, l: Load, i: nat, k: nat, wi: nat)
    requires k < |scenarios| && wi < |g| && scenarios[k] == g[wi] && KeptInOrder(scenarios, g, mode, k, wi)
    requires forall k' :: 0 <= k' < wi && i < |LoadOf(g[k'], l)| && i < |LoadOf(g[wi], l)| ==>
               LoadOf(g[k'], l)[i] < LoadOf(g[wi], l)[i]
    ensures EarlierBelow(scenarios, mode, l, k, i)
  {
    forall q | 0 <= q < k < |scenarios| && scenarios[q].mode == mode
               && i < |LoadOf(scenarios[q], l)| && i < |LoadOf(scenarios[k], l)|
      ensures LoadOf(scenarios[q], l)[i] < LoadOf(scenarios[k], l)[i]
    {
      var k' :| 0 <= k' < wi && k' < |g| && g[k'] == scenarios[q];
    }
  }

  /** The successful master is the combination of its groups with the
      yield point adjusted. */
  lemma MasterCombines(scenarios: seq<Scenario>, sqrt: real -> real)
    requires Aligned(scenarios) && MasterScenario(scenarios, sqrt).Success?
    ensures var n := Samples(scenarios);
            var bursts := OfMode(scenarios, Burst);
            var collapses := OfMode(scenarios, Collapse);
            && |bursts| > 0 && |scenarios| > 0 && (n == 0 || |collapses| > 0)
            && AllComplete(bursts, n) && AllComplete(collapses, n)
            && var m := MasterScenario(scenarios, sqrt).value;
               m == Combine(bursts, collapses, scenarios, n).(ypadj := m.ypadj)
  {
    var n := Samples(scenarios);
    var bursts := OfMode(scenarios, Burst);
    var collapses := OfMode(scenarios, Collapse);
    OfModeEmpty(scenarios, Burst);
    OfModeEmpty(scenarios, Collapse);
    SubgroupComplete(bursts, scenarios, n);
    SubgroupComplete(collapses, scenarios, n);
    MasterYieldPoints(scenarios, bursts, collapses, n);
  }

  /** At every grid point the master's burst load is the largest over the
      burst scenarios and comes with that scenario's casing. */
  lemma MasterTakesWorstBurst(scenarios: seq<Scenario>, sqrt: real -> real)
    requires Aligned(scenarios) && MasterScenario(scenarios, sqrt).Success?
    ensures var m := MasterScenario(scenarios, sqrt).value;
            forall i :: 0 <= i < Samples(scenarios) ==>
              && i < |m.burst|
              && NoneExceeds(scenarios, Burst, BurstLoad, m.burst[i], i) && CasingSourceAt(scenarios, m, i)
  {
    var n := Samples(scenarios);
    var m := MasterScenario(scenarios, sqrt).value;
    MasterCombines(scenarios, sqrt);
    var bursts := OfMode(scenarios, Burst);
    var b := Winners(bursts, n, BurstLoad);
    forall i | 0 <= i < n
      ensures i < |m.burst| && NoneExceeds(scenarios, Burst, BurstLoad, m.burst[i], i)
      ensures CasingSourceAt(scenarios, m, i)
    {
      WinnerOfMode(scenarios, Burst, BurstLoad, n, i);
      assert CasingFrom(m, bursts[b[i]], i);
    }
  }

  /** At every grid point the master's collapse load is the largest over
      the collapse scenarios and comes with that scenario's pressures,
      tensions and stresses. */
  lemma MasterTakesWorstCollapse(scenarios: seq<Scenario>, sqrt: real -> real)
    requires Aligned(scenarios) && MasterScenario(scenarios, sqrt).Success?
    ensures var m := MasterScenario(scenarios, sqrt).value;
            forall i :: 0 <= i < Samples(scenarios) ==>
              && i < |m.collapse|
              && NoneExceeds(scenarios, Collapse, CollapseLoad, m.collapse[i], i) && LoadsSourceAt(scenarios, m, i)
  {
    var n := Samples(scenarios);
    var m := MasterScenario(scenarios, sqrt).value;
    MasterCombines(scenarios, sqrt);
    var collapses := OfMode(scenarios, Collapse);
    OfModeEmpty(scenarios, Collapse);
    var c := Winners(collapses, n, CollapseLoad);
    forall i | 0 <= i < n
      ensures i < |m.collapse| && NoneExceeds(scenarios, Collapse, CollapseLoad, m.collapse[i], i)
      ensures LoadsSourceAt(scenarios, m, i)
    {
      WinnerOfMode(scenarios, Collapse, CollapseLoad, n, i);
      assert LoadsFrom(m, collapses[c[i]], i);
    }
  }

  /** At every grid point the master's von Mises stress is the largest
      over all scenarios, whatever their mode. */
  lemma MasterTakesLargestVonMises(scenarios: seq<Scenario>, sqrt: real -> real)
    requires Aligned(scenarios) && MasterScenario(scenarios, sqrt).Success?
    ensures var m := MasterScenario(scenarios, sqrt).value;
            forall i :: 0 <= i < Samples(scenarios) ==> LargestVonMisesAt(scenarios, m, i)
  {
    var n := Samples(scenarios);
    var m := MasterScenario(scenarios, sqrt).value;
    MasterCombines(scenarios, sqrt);
    var v := Winners(scenarios, n, VonMisesLoad);
    forall i | 0 <= i < n
      ensures LargestVonMisesAt(scenarios, m, i)
    {
      assert SameAt(m.vonmises, scenarios[v[i]].vonmises, i);
      LargestOfWinner(scenarios, m, n, i);
    }
  }

  /** A master that carries the overall winner's von Mises stress at grid
      point i carries the largest one. */
  lemma LargestOfWinner(scenarios: seq<Scenario>, m: Scenario, n: nat, i: nat)
    requires |scenarios| > 0 && AllComplete(scenarios, n) && i < n
    requires SameAt(m.vonmises, scenarios[Winners(scenarios, n, VonMisesLoad)[i]].vonmises, i)
    ensures LargestVonMisesAt(scenarios, m, i)
  {
    var v := Winners(scenarios, n, VonMisesLoad);
    forall j | 0 <= j < |scenarios| && i < |scenarios[j].vonmises| && i < |m.vonmises|
      ensures scenarios[j].vonmises[i] <= m.vonmises[i]
    {
      assert LoadOf(scenarios[j], VonMisesLoad)[i] <= LoadOf(scenarios[v[i]], VonMisesLoad)[i];
    }
  }


  /* ---------------------------------------------------------------------
     casing_strength
     --------------------------------------------------------------------- */

  /** What the API 5B coupling table is looked up by. */
  datatype CouplingKey = CouplingKey(od: real, wpf: real, grade: Tubulars.Grade, connection: Tubulars.Connection)

  function KeyAt(m: Scenario, i: nat): CouplingKey
    requires i < |m.od| && i < |m.wpf| && i < |m.grade| && i < |m.conn|
  {
    CouplingKey(m.od[i], m.wpf[i], m.grade[i], m.conn[i])
  }

  /** A coupling record the burst and joint formulas can be evaluated on
      without dividing by zero. */
  predicate CouplingUsable(key: CouplingKey, c: Api.Coupling, leak: bool) {
    && Api.CouplingBurstDefined(c)
    && (leak ==> Api.LeakDefined(c))
    && Api.PulloutDefined(key.od, Api.JointUltimateStrength(key.grade), c)
  }

  /** Every coupling record the table returns is usable. */
  ghost predicate LookupUsable(lookup: CouplingKey -> Result<Api.Coupling>, leak: bool) {
    forall key :: lookup(key).Success? ==> CouplingUsable(key, lookup(key).value, leak)
  }

  /** The master's series the ratings read, of one length, with the body
      and collapse formulas defined at every grid point. */
  predicate StrengthDefined(m: Scenario) {
    && |m.od| == |m.md| && |m.id| == |m.md| && |m.yp| == |m.md| && |m.wpf| == |m.md|
    && |m.grade| == |m.md| && |m.conn| == |m.md| && |m.ypadj| == |m.md|
    && forall i :: 0 <= i < |m.md| ==>
         && m.od[i] != 0.0
         && CollapseRating.CollapseDefined(m.od[i], m.id[i], m.yp[i])
         && CollapseRating.CollapseDefined(m.od[i], m.id[i], m.ypadj[i])
  }

  /** casing_strength(master): the burst, joint, body, collapse and
      biaxial collapse ratings at every grid point of the master. The
      coupling table is the parameter `lookup`; a grid point whose coupling
      is missing fails the whole rating with the lookup's error, at the
      first such point. The joint rating is the corrected one, with the
      ultimate strength of the pipe's grade. */
  function CasingStrength(m: Scenario, lookup: CouplingKey -> Result<Api.Coupling>, leak: bool,
                          sqrt: real -> real, pow: real -> real): (r: Result<Strengths>)
    requires StrengthDefined(m)
    requires LookupUsable(lookup, leak)
    ensures r.Success? <==> forall i :: 0 <= i < |m.md| ==> lookup(KeyAt(m, i)).Success?
    ensures r.Failure? ==> exists i :: 0 <= i < |m.md| && lookup(KeyAt(m, i)) == Failure(r.error)
    ensures r.Success? ==>
              var st := r.value;
              && |st.burst| == |st.joint| == |st.tensile| == |st.collapse| == |st.collapseBiax| == |m.md|
              && forall i :: 0 <= i < |m.md| ==>
                   var c := lookup(KeyAt(m, i)).value;
                   && st.burst[i] == Api.Burst(m.od[i], m.id[i], m.yp[i], c, leak)
                   && st.joint[i] == Api.TensileJoint(m.od[i], m.id[i], m.yp[i], m.grade[i], c, pow)
                   && st.tensile[i] == m.yp[i] * Tubulars.WallArea(m.od[i], m.id[i])
                   && st.collapse[i] == CollapseRating.Collapse(m.od[i], m.id[i], m.yp[i], sqrt)
                   && st.collapseBiax[i] == CollapseRating.Collapse(m.od[i], m.id[i], m.ypadj[i], sqrt)
  {
    var n := |m.md|;
    var keys := seq(n, i requires 0 <= i < n => KeyAt(m, i));
    var cs :- MapSeries(keys, lookup);
    LookedUpCouplings(m, keys, lookup, leak, cs);
    Success(Ratings(m, cs, leak, sqrt, pow))
  }

  /** The couplings the table returns for the master's keys, in order, are
      the ones it returns for each grid point, and are usable. */
  lemma LookedUpCouplings(m: Scenario, keys: seq<CouplingKey>, lookup: CouplingKey -> Result<Api.Coupling>,
                          leak: bool, cs: seq<Api.Coupling>)
    requires StrengthDefined(m) && LookupUsable(lookup, leak)
    requires |keys| == |cs| == |m.md| && forall i :: 0 <= i < |keys| ==> keys[i] == KeyAt(m, i)
    requires forall i :: 0 <= i < |keys| ==> lookup(keys[i]).Success? && cs[i] == lookup(keys[i]).value
    ensures forall i :: 0 <= i < |m.md| ==> lookup(KeyAt(m, i)).Success? && cs[i] == lookup(KeyAt(m, i)).value
    ensures CouplingsUsable(m, cs, leak)
  {
  }

  /** One usable coupling for every grid point of the master. */
  predicate CouplingsUsable(m: Scenario, cs: seq<Api.Coupling>, leak: bool)
    requires StrengthDefined(m)
  {
    |cs| == |m.md| && forall i :: 0 <= i < |m.md| ==> CouplingUsable(KeyAt(m, i), cs[i], leak)
  }

  /** The ratings at every grid point, given the coupling of each. */
  function Ratings(m: Scenario, cs: seq<Api.Coupling>, leak: bool, sqrt: real -> real, pow: real -> real): (st: Strengths)
    requires StrengthDefined(m) && CouplingsUsable(m, cs, leak)
    ensures |st.burst| == |st.joint| == |st.tensile| == |st.collapse| == |st.collapseBiax| == |m.md|
    ensures forall i :: 0 <= i < |m.md| ==>
              && st.burst[i] == Api.Burst(m.od[i], m.id[i], m.yp[i], cs[i], leak)
              && st.joint[i] == Api.TensileJoint(m.od[i], m.id[i], m.yp[i], m.grade[i], cs[i], pow)
              && st.tensile[i] == m.yp[i] * Tubulars.WallArea(m.od[i], m.id[i])
              && st.collapse[i] == CollapseRating.Collapse(m.od[i], m.id[i], m.yp[i], sqrt)
              && st.collapseBiax[i] == CollapseRating.Collapse(m.od[i], m.id[i], m.ypadj[i], sqrt)
  {
    var n := |m.md|;
    assert forall i :: 0 <= i < n ==> CouplingUsable(KeyAt(m, i), cs[i], leak);
    Strengths(
      burst := seq(n, i requires 0 <= i < n => Api.Burst(m.od[i], m.id[i], m.yp[i], cs[i], leak)),
      joint := seq(n, i requires 0 <= i < n => Api.TensileJoint(m.od[i], m.id[i], m.yp[i], m.grade[i], cs[i], pow)),
      tensile := seq(n, i requires 0 <= i < n => Api.TensileBody(m.od[i], m.id[i], m.yp[i])),
      collapse := seq(n, i requires 0 <= i < n => CollapseRating.Collapse(m.od[i], m.id[i], m.yp[i], sqrt)),
      collapseBiax := seq(n, i requires 0 <= i < n => CollapseRating.Collapse(m.od[i], m.id[i], m.ypadj[i], sqrt)))
  }

  /** Once the yield point has been adjusted, the biaxial collapse rating
      differs from the plain one only where the adjustment bites: in a
      scenario whose mode is not collapse it never does, and in a collapse
      scenario it does not at a point free of axial stress. */
  lemma UnadjustedCollapseRating(s: Scenario, lookup: CouplingKey -> Result<Api.Coupling>, leak: bool,
                                 sqrt: real -> real, pow: real -> real, i: nat)
    requires IsSqrt(sqrt) && YieldAdjustDefined(s)
    requires StrengthDefined(YieldPtAdjust(s, sqrt))
    requires LookupUsable(lookup, leak)
    requires CasingStrength(YieldPtAdjust(s, sqrt), lookup, leak, sqrt, pow).Success?
    requires i < |s.md| && (s.mode != Collapse || s.axial[i] == 0.0)
    ensures var st := CasingStrength(YieldPtAdjust(s, sqrt), lookup, leak, sqrt, pow).value;
            st.collapseBiax[i] == st.collapse[i]
  {
    if s.mode == Collapse {
      YieldPtAdjustUnloaded(s, sqrt, i);
    }
    var m := YieldPtAdjust(s, sqrt);
    assert m.ypadj[i] == m.yp[i];
  }

  /** No rating along the master exceeds its pipe body burst rating. */
  lemma BurstWithinBodyRating(m: Scenario, lookup: CouplingKey -> Result<Api.Coupling>, leak: bool,
                              sqrt: real -> real, pow: real -> real)
    requires StrengthDefined(m)
    requires LookupUsable(lookup, leak)
    requires CasingStrength(m, lookup, leak, sqrt, pow).Success?
    ensures var st := CasingStrength(m, lookup, leak, sqrt, pow).value;
            forall i :: 0 <= i < |m.md| ==> st.burst[i] <= Api.BurstBody(m.od[i], m.id[i], m.yp[i])
  { }
}

=== FILE: api.dfy ===
/** Strength ratings of API Bulletin 5C3 (CasingDesign/api.py): pipe-body
    and coupling burst, leak resistance, pipe-body and joint tensile
    strength. The coupling dimensions of API Specification 5B come in as a
    plain record; the collapse rating is in module CollapseRating. */
module Api {
  import opened Numerics
  import Tubulars
  import Stress

  /** The fields of an API 5B coupling record that the ratings read. */
  datatype Coupling = Coupling(
    connection: Tubulars.Connection,
    w: real,       // W, coupling outer diameter
    yp: real,      // coupling yield point
    tpi: real,     // threads per inch
    l1: real,      // L1, end of pipe to hand-tight plane
    l4: real,      // L4, end of pipe to vanish point
    l7: real,      // L7, perfect-thread length
    e1: real,      // E1, pitch diameter at the hand-tight plane
    e7: real,      // E7, pitch diameter (buttress)
    m: real,       // M, coupling face to hand-tight plane
    a: real,       // A, hand-tight standoff in thread turns
    h: real,       // H, thread height
    t: real,       // T, taper
    srn: real,     // Srn, thread root truncation
    i: real)       // I, buttress thread length term

  /** Young's modulus the burst rating passes to the leak-resistance rating. */
  const SteelModulus: real := 30000000.0

  /** Wall-thickness tolerance of the body burst rating. */
  const WallTolerance: real := 0.875

  /** Radial depth of the last perfect thread removed from the pipe OD. */
  const ThreadDepth: real := 0.1425

  /* ---------------------------------------------------------------------
     Burst
     --------------------------------------------------------------------- */

  /** Diameter of the coupling thread root at the end of the pipe in the
      power-tight position. The source tests the type with an identity
      comparison against 'BTC'; the model uses equality. */
  function DiameterRoot(c: Coupling): (d1: real)
    requires c.connection == Tubulars.BTC || c.tpi != 0.0
    ensures c.connection == Tubulars.BTC ==> (d1 < c.e7 + 0.062 <==> 0.0 < (c.l7 + c.i) * c.t)
    ensures c.connection != Tubulars.BTC ==> (d1 < c.e1 + c.h - 2.0 * c.srn <==> 0.0 < (c.l1 + c.a / c.tpi) * c.t)
  {
    if c.connection == Tubulars.BTC then
      TaperDrop(c.e7 + 0.062, (c.l7 + c.i) * c.t, c.e7 - (c.l7 + c.i) * c.t + 0.062);
      c.e7 - (c.l7 + c.i) * c.t + 0.062
    else
      TaperDrop(c.e1 + c.h - 2.0 * c.srn, (c.l1 + c.a / c.tpi) * c.t,
                c.e1 - (c.l1 + c.a / c.tpi) * c.t + c.h - 2.0 * c.srn);
      c.e1 - (c.l1 + c.a / c.tpi) * c.t + c.h - 2.0 * c.srn
  }

  /** A diameter reached by dropping from a reference lies below it exactly
      when the drop is positive. */
  lemma TaperDrop(reference: real, drop: real, d: real)
    requires d == reference - drop
    ensures d < reference <==> 0.0 < drop
  {
  }

  /** Barlow's formula with the 87.5 % wall tolerance, written with the
      half-wall thickness t = (od − id)/2. */
  function BurstBody(od: real, id: real, yp: real): (p: real)
    requires od != 0.0
    ensures p == WallTolerance * yp * (od - id) / od
  {
    var t := (od - id) / 2.0;
    WallTolerance * 2.0 * yp * t / od
  }

  /** For a real wall and a non-negative yield point the body rating lies
      between 0 and 87.5 % of the yield point. */
  lemma BurstBodyBounds(od: real, id: real, yp: real)
    requires 0.0 <= id <= od && 0.0 < od && 0.0 <= yp
    ensures 0.0 <= BurstBody(od, id, yp) <= WallTolerance * yp
  {
    var f := (od - id) / od;
    assert 0.0 <= f <= 1.0;
    assert BurstBody(od, id, yp) == WallTolerance * yp * f;
    ProductNonNegative(WallTolerance * yp, f);
    ProductNonNegative(WallTolerance * yp, 1.0 - f);
  }

  predicate CouplingBurstDefined(c: Coupling) {
    (c.connection == Tubulars.BTC || c.tpi != 0.0) && c.w != 0.0
  }

  /** Coupling burst rating: coupling yield over the wall between the
      thread root and the coupling OD, relative to the coupling OD. */
  function BurstCoupling(c: Coupling): (p: real)
    requires CouplingBurstDefined(c)
    ensures p == c.yp * (1.0 - DiameterRoot(c) / c.w)
  {
    var d1 := DiameterRoot(c);
    c.yp * (c.w - d1) / c.w
  }

  /** When the root lies inside the coupling the rating is between 0 and
      the coupling yield point. */
  lemma BurstCouplingBounds(c: Coupling)
    requires CouplingBurstDefined(c)
    requires 0.0 <= DiameterRoot(c) <= c.w && 0.0 <= c.yp
    ensures 0.0 <= BurstCoupling(c) <= c.yp
  {
    var f := 1.0 - DiameterRoot(c) / c.w;
    assert 0.0 <= f <= 1.0;
    ProductNonNegative(c.yp, f);
    ProductNonNegative(c.yp, 1.0 - f);
  }

  /** With a positive coupling yield point and OD, the coupling holds a
      positive burst pressure exactly when the thread root lies inside the
      coupling OD. */
  lemma BurstCouplingPositive(c: Coupling)
    requires CouplingBurstDefined(c)
    requires 0.0 < c.yp && 0.0 < c.w
    ensures 0.0 < BurstCoupling(c) <==> DiameterRoot(c) < c.w
  {
    var d1 := DiameterRoot(c);
    var f := 1.0 - d1 / c.w;
    assert 0.0 < f <==> d1 < c.w by { QuotientBelowOne(d1, c.w); }
    Stress.SignOfProduct(f, c.yp);
  }

  /** For a positive divisor, a / b < 1 exactly when a < b. */
  lemma QuotientBelowOne(a: real, b: real)
    requires 0.0 < b
    ensures a / b < 1.0 <==> a < b
  {
    assert a / b * b == a;
    if a / b < 1.0 {
      Stress.SignOfProduct(1.0 - a / b, b);
    }
    if a < b {
      Stress.SignOfProduct(1.0 - a / b, b);
    }
  }

  predicate LeakDefined(c: Coupling) {
    c.tpi != 0.0 && c.e1 != 0.0 && c.w != 0.0
  }

  /** Leak resistance at the hand-tight plane:
      E·T·A·(W² − E1²) / (2·tpi·E1·W²). */
  function BurstLeak(c: Coupling, modulus: real): (p: real)
    requires LeakDefined(c)
    ensures c.w * c.w == c.e1 * c.e1 ==> p == 0.0
  {
    modulus * c.t * c.a * (c.w * c.w - c.e1 * c.e1) / LeakDenominator(c)
  }

  /** With positive modulus, taper, standoff, thread count, E1 and W the
      leak resistance is positive exactly when the coupling OD exceeds the
      pitch diameter E1, zero exactly when they are equal, and always below
      E·T·A / (2·tpi·E1), the limit for a coupling of unbounded OD. */
  lemma BurstLeakSign(c: Coupling, modulus: real)
    requires LeakDefined(c)
    requires 0.0 < modulus && 0.0 < c.t && 0.0 < c.a && 0.0 < c.tpi && 0.0 < c.e1 && 0.0 < c.w
    ensures 0.0 < BurstLeak(c, modulus) <==> c.e1 < c.w
    ensures BurstLeak(c, modulus) == 0.0 <==> c.e1 == c.w
    ensures BurstLeak(c, modulus) < modulus * c.t * c.a / (2.0 * c.tpi * c.e1)
  {
    LeakFactors(c, modulus);
    assert 0.0 < modulus * c.t * c.a by {
      ProductPositive(modulus, c.t);
      ProductPositive(modulus * c.t, c.a);
    }
    assert 0.0 < 2.0 * c.tpi * c.e1 by { ProductPositive(2.0 * c.tpi, c.e1); }
    SquareCompare(c.e1, c.w);
    LeakRatio(modulus * c.t * c.a, 2.0 * c.tpi * c.e1, Square(c.w), Square(c.e1));
  }

  /** The leak rating as k·(W² − E1²) / (q·W²). */
  lemma LeakFactors(c: Coupling, modulus: real)
    requires LeakDefined(c)
    ensures LeakDenominator(c) == (2.0 * c.tpi * c.e1) * Square(c.w)
    ensures BurstLeak(c, modulus) == (modulus * c.t * c.a) * (Square(c.w) - Square(c.e1)) / LeakDenominator(c)
  {
  }

  /** x², kept as a term of its own so that facts about it stay linear. */
  function Square(x: real): real {
    x * x
  }

  /** For positive numbers the squares are positive and compare as the
      numbers do. */
  lemma SquareCompare(a: real, b: real)
    requires 0.0 < a && 0.0 < b
    ensures 0.0 < Square(a) && 0.0 < Square(b)
    ensures Square(a) < Square(b) <==> a < b
    ensures Square(a) == Square(b) <==> a == b
  {
    SquaresOrdered(0.0, a);
    SquaresOrdered(0.0, b);
    if a < b {
      SquaresOrdered(a, b);
    } else if b < a {
      SquaresOrdered(b, a);
    }
  }

  /** The shape of k·(w2 − e2) / (q·w2) for positive k, q, w2 and e2. */
  lemma LeakRatio(k: real, q: real, w2: real, e2: real)
    requires 0.0 < k && 0.0 < q
    requires 0.0 < w2
    requires 0.0 < e2
    ensures 0.0 < k * (w2 - e2) / (q * w2) <==> e2 < w2
    ensures k * (w2 - e2) / (q * w2) == 0.0 <==> e2 == w2
    ensures k * (w2 - e2) / (q * w2) < k / q
  {
    SplitQuotient(k, w2 - e2, q, w2);
    var f := (w2 - e2) / w2;
    var r := k / q;
    OneMinusQuotient(e2, w2);
    QuotientPositive(e2, w2);
    QuotientBelowOne(e2, w2);
    QuotientPositive(k, q);
    Stress.SignOfProduct(f, r);
    ProductPositive(r, 1.0 - f);
  }

  lemma OneMinusQuotient(a: real, b: real)
    requires b != 0.0
    ensures (b - a) / b == 1.0 - a / b
  {
    QuotientTimes(b - a, b);
    QuotientTimes(a, b);
    DifferenceTimes(1.0, a / b, b);
    CancelRight((b - a) / b, 1.0 - a / b, b, b - a);
  }

  lemma QuotientTimes(x: real, b: real)
    requires b != 0.0
    ensures x / b * b == x
  {
  }

  lemma DifferenceTimes(x: real, y: real, b: real)
    ensures (x - y) * b == x * b - y * b
  {
  }

  lemma QuotientPositive(a: real, b: real)
    requires 0.0 < a && 0.0 < b
    ensures 0.0 < a / b
  {
  }

  /** k·x / (q·w) splits into (k/q)·(x/w). */
  lemma SplitQuotient(k: real, x: real, q: real, w: real)
    requires q != 0.0 && w != 0.0
    ensures k * x / (q * w) == k / q * (x / w)
  {
    ProductNonZero(q, w);
  }

  function LeakDenominator(c: Coupling): (den: real)
    requires LeakDefined(c)
    ensures den != 0.0
  {
    SquareZero(c.w);
    var w2 := c.w * c.w;
    if 2.0 * c.tpi * c.e1 * w2 == 0.0 then
      ProductZero(2.0 * c.tpi * c.e1, w2);
      ProductZero(2.0 * c.tpi, c.e1);
      2.0 * c.tpi * c.e1 * w2
    else
      2.0 * c.tpi * c.e1 * w2
  }

  /** The burst rating: the smaller of body and coupling ratings, and also
      of the leak resistance when it is requested. The coupling record is
      the one the 5B lookup returns for the joint. */
  function Burst(od: real, id: real, yp: real, c: Coupling, leak: bool): (p: real)
    requires od != 0.0 && CouplingBurstDefined(c)
    requires leak ==> LeakDefined(c)
    ensures p <= BurstBody(od, id, yp) && p <= BurstCoupling(c)
    ensures leak ==> p <= BurstLeak(c, SteelModulus)
    ensures p == BurstBody(od, id, yp) || p == BurstCoupling(c) || (leak && p == BurstLeak(c, SteelModulus))
  {
    var body := BurstBody(od, id, yp);
    var coupling := BurstCoupling(c);
    if leak then Min(Min(body, coupling), BurstLeak(c, SteelModulus))
    else Min(body, coupling)
  }

  /* ---------------------------------------------------------------------
     Tension
     --------------------------------------------------------------------- */

  /** Pipe-body yield strength in tension: yield point times wall area. */
  function TensileBody(od: real, id: real, yp: real): (f: real)
    ensures f == yp * Tubulars.WallArea(od, id)
  {
    Pi / 4.0 * yp * (od * od - id * id)
  }

  /** The body rating is the real tension under which the axial stress of
      the pipe wall reaches the yield point. */
  lemma TensileBodyReachesYield(od: real, id: real, yp: real)
    requires 0.0 <= id < od
    ensures Tubulars.WallArea(od, id) != 0.0
    ensures Stress.Axial(od, id, TensileBody(od, id, yp)) == yp
  {
    Tubulars.WallAreaPositive(od, id);
    var a := Tubulars.WallArea(od, id);
    var t := TensileBody(od, id, yp);
    var sa := Stress.Axial(od, id, t);
    CancelRight(sa, yp, a, t);
  }

  /** A non-zero factor cancels from both sides of an equation. */
  lemma CancelRight(x: real, y: real, a: real, t: real)
    requires a != 0.0 && x * a == t && t == y * a
    ensures x == y
  {
    assert (x - y) * a == 0.0;
    ProductZero(x - y, a);
  }

  /** Wall area under the last perfect thread: the OD less the thread depth. */
  function AreaLastThread(od: real, id: real): (a: real)
    ensures a == Tubulars.WallArea(od - ThreadDepth, id)
  {
    Pi / 4.0 * ((od - ThreadDepth) * (od - ThreadDepth) - id * id)
  }

  /** Cutting the thread removes wall: the threaded section is strictly
      smaller than the body. */
  lemma AreaLastThreadBelowBody(od: real, id: real)
    requires ThreadDepth <= od
    ensures AreaLastThread(od, id) < Tubulars.WallArea(od, id)
  {
    SquaresOrdered(od - ThreadDepth, od);
    ProductPositive(Pi / 4.0, od * od - (od - ThreadDepth) * (od - ThreadDepth));
  }

  /** Argument of the ultimate-strength table: the grade number in
      thousands of psi, as the table expects, or the grade label itself,
      as the joint rating passes it. */
  datatype GradeArg = Thousands(ksi: int) | Label(grade: Tubulars.Grade)

  /** Minimum ultimate tensile strength by grade. */
  function UltimateStrength(grade: GradeArg, isL: bool): (up: real)
    ensures isL ==> up == 95000.0
    ensures !isL && grade == Thousands(75) ==> up == 95000.0
    ensures !isL && grade == Thousands(80) ==> up == 100000.0
    ensures !isL && grade == Thousands(95) ==> up == 105000.0
    ensures !isL && grade !in {Thousands(75), Thousands(80), Thousands(95)} ==> up == 125000.0
  {
    if isL then 95000.0
    else if grade == Thousands(75) then 95000.0
    else if grade == Thousands(80) then 100000.0
    else if grade == Thousands(95) then 105000.0
    else 125000.0
  }

  /** Joint fracture strength: 95 % of ultimate strength over the critical
      section, the coupling wall at the thread root for buttress and the
      pipe wall under the last perfect thread otherwise. */
  function TensionFracture(od: real, id: real, up: real, c: Coupling): (f: real)
    ensures c.connection != Tubulars.BTC && 0.0 < up && ThreadDepth <= od ==> f < 0.95 * TensileBody(od, id, up)
    ensures c.connection == Tubulars.BTC && 0.0 <= DiameterRoot(c) <= c.w && 0.0 <= up ==> 0.0 <= f
  {
    FractureAreaBounds(od, id, up, c);
    var a := if c.connection == Tubulars.BTC then Pi / 4.0 * (c.w * c.w - DiameterRoot(c) * DiameterRoot(c))
             else AreaLastThread(od, id);
    0.95 * a * up
  }

  /** Fracture bounds over the critical areas: a round-thread joint breaks
      below 95 % of the body rating at the ultimate strength, since the last
      perfect thread cuts into the wall; a buttress coupling whose root lies
      inside its OD has a non-negative rating. */
  lemma FractureAreaBounds(od: real, id: real, up: real, c: Coupling)
    ensures c.connection != Tubulars.BTC && 0.0 < up && ThreadDepth <= od ==>
              0.95 * AreaLastThread(od, id) * up < 0.95 * TensileBody(od, id, up)
    ensures c.connection == Tubulars.BTC && 0.0 <= DiameterRoot(c) <= c.w && 0.0 <= up ==>
              0.0 <= 0.95 * (Pi / 4.0 * (c.w * c.w - DiameterRoot(c) * DiameterRoot(c))) * up
  {
    if c.connection != Tubulars.BTC && 0.0 < up && ThreadDepth <= od {
      var body := Tubulars.WallArea(od, id);
      var cut := AreaLastThread(od, id);
      AreaLastThreadBelowBody(od, id);
      ProductPositive(0.95 * up, body - cut);
      assert 0.95 * cut * up == 0.95 * up * cut;
      assert 0.95 * TensileBody(od, id, up) == 0.95 * up * body;
    }
    if c.connection == Tubulars.BTC && 0.0 <= DiameterRoot(c) <= c.w && 0.0 <= up {
      var d1 := DiameterRoot(c);
      SquaresWeaklyOrdered(d1, c.w);
      ProductNonNegative(Pi / 4.0, c.w * c.w - d1 * d1);
      ProductNonNegative(0.95 * (Pi / 4.0 * (c.w * c.w - d1 * d1)), up);
    }
  }

  /** Pull-out strength of a round-thread joint (API 5C3) over the engaged
      length L = L4 − M; pow(od) stands for od^−0.59. */
  function PulloutRound(od: real, id: real, yp: real, up: real, c: Coupling, pow: real -> real): real
    requires 0.5 * (c.l4 - c.m) + 0.14 * od != 0.0 && (c.l4 - c.m) + 0.14 * od != 0.0
  {
    var l := c.l4 - c.m;
    0.95 * AreaLastThread(od, id) * l * ((0.74 * pow(od) * up) / (0.5 * l + 0.14 * od) + yp / (l + 0.14 * od))
  }

  /** Pull-out strength of a buttress joint: the body wall with the
      yield-to-ultimate correction. */
  function PulloutButtress(od: real, id: real, yp: real, up: real): real
    requires up != 0.0
  {
    0.95 * Tubulars.WallArea(od, id) * up * (1.008 - 0.0396 * (1.083 - yp / up) * od)
  }

  predicate PulloutDefined(od: real, up: real, c: Coupling) {
    if c.connection == Tubulars.BTC then up != 0.0
    else 0.5 * (c.l4 - c.m) + 0.14 * od != 0.0 && (c.l4 - c.m) + 0.14 * od != 0.0
  }

  /** Joint pull-out strength: the buttress formula for BTC, the
      round-thread formula for STC and LTC. */
  function TensionPullout(od: real, id: real, yp: real, up: real, c: Coupling, pow: real -> real): (f: real)
    requires PulloutDefined(od, up, c)
    ensures c.connection == Tubulars.BTC ==>
              f == PulloutButtress(od, id, 0.0, up) + yp * (0.0396 * od * (0.95 * Tubulars.WallArea(od, id)))
    ensures c.connection != Tubulars.BTC ==>
              f == PulloutRound(od, id, 0.0, up, c, pow) + yp * RoundPulloutSlope(od, id, c)
  {
    if c.connection != Tubulars.BTC then
      RoundAffine(0.95 * AreaLastThread(od, id) * (c.l4 - c.m),
                  (0.74 * pow(od) * up) / (0.5 * (c.l4 - c.m) + 0.14 * od),
                  (c.l4 - c.m) + 0.14 * od, yp);
      PulloutRound(od, id, yp, up, c, pow)
    else
      ButtressExpand(0.95 * Tubulars.WallArea(od, id), up, od, yp);
      ButtressExpand(0.95 * Tubulars.WallArea(od, id), up, od, 0.0);
      PulloutButtress(od, id, yp, up)
  }

  /** How much the round-thread pull-out rating gains per unit of yield
      point: the pull-out factor over (L + 0.14·od). */
  function RoundPulloutSlope(od: real, id: real, c: Coupling): real
    requires (c.l4 - c.m) + 0.14 * od != 0.0
  {
    0.95 * AreaLastThread(od, id) * (c.l4 - c.m) / ((c.l4 - c.m) + 0.14 * od)
  }

  /** k·(x + y/d) is k·x plus y times k/d. */
  lemma RoundAffine(k: real, x: real, d: real, y: real)
    requires d != 0.0
    ensures k * (x + y / d) == k * (x + 0.0 / d) + y * (k / d)
  {
    assert k * (y / d) == y * (k / d);
  }

  /** A stronger pipe never pulls out more easily: on a real wall (for
      round threads, one thick enough to carry the last perfect thread, with
      a positive engaged length) the pull-out rating does not decrease as
      the yield point grows. */
  lemma TensionPulloutMonotone(od: real, id: real, yp1: real, yp2: real, up: real, c: Coupling,
                               pow: real -> real)
    requires PulloutDefined(od, up, c)
    requires yp1 <= yp2 && 0.0 < od
    requires c.connection == Tubulars.BTC ==> 0.0 <= id <= od
    requires c.connection != Tubulars.BTC ==> 0.0 <= id <= od - ThreadDepth && 0.0 < c.l4 - c.m
    ensures TensionPullout(od, id, yp1, up, c, pow) <= TensionPullout(od, id, yp2, up, c, pow)
  {
    if c.connection != Tubulars.BTC {
      RoundPulloutMonotone(od, id, yp1, yp2, up, c, pow);
    } else {
      ButtressPulloutMonotone(od, id, yp1, yp2, up);
    }
  }

  lemma RoundPulloutMonotone(od: real, id: real, yp1: real, yp2: real, up: real, c: Coupling,
                             pow: real -> real)
    requires yp1 <= yp2 && 0.0 < od && 0.0 <= id <= od - ThreadDepth && 0.0 < c.l4 - c.m
    ensures PulloutRound(od, id, yp1, up, c, pow) <= PulloutRound(od, id, yp2, up, c, pow)
  {
    SquaresWeaklyOrdered(id, od - ThreadDepth);
    ProductNonNegative(Pi / 4.0, (od - ThreadDepth) * (od - ThreadDepth) - id * id);
    ProductNonNegative(0.95 * AreaLastThread(od, id), c.l4 - c.m);
    AffineStep(0.95 * AreaLastThread(od, id) * (c.l4 - c.m),
               (0.74 * pow(od) * up) / (0.5 * (c.l4 - c.m) + 0.14 * od),
               (c.l4 - c.m) + 0.14 * od, yp1, yp2);
  }

  lemma ButtressPulloutMonotone(od: real, id: real, yp1: real, yp2: real, up: real)
    requires up != 0.0 && yp1 <= yp2 && 0.0 < od && 0.0 <= id <= od
    ensures PulloutButtress(od, id, yp1, up) <= PulloutButtress(od, id, yp2, up)
  {
    SquaresWeaklyOrdered(id, od);
    ProductNonNegative(Pi / 4.0, od * od - id * id);
    ButtressExpand(0.95 * Tubulars.WallArea(od, id), up, od, yp1);
    ButtressExpand(0.95 * Tubulars.WallArea(od, id), up, od, yp2);
    ProductNonNegative(0.0396 * od, 0.95 * Tubulars.WallArea(od, id));
    ProductNonNegative(0.0396 * od * (0.95 * Tubulars.WallArea(od, id)), yp2 - yp1);
  }

  /** c·(x + y/d) does not decrease in y for c ≥ 0 and d > 0. */
  lemma AffineStep(c: real, x: real, d: real, y1: real, y2: real)
    requires 0.0 <= c && 0.0 < d && y1 <= y2
    ensures c * (x + y1 / d) <= c * (x + y2 / d)
  {
    assert y2 / d - y1 / d == (y2 - y1) / d;
    assert 0.0 <= (y2 - y1) / d;
    ProductNonNegative(c, (x + y2 / d) - (x + y1 / d));
  }

  /** The buttress pull-out formula is affine in the yield point, with
      slope 0.0396·od·a. */
  lemma ButtressExpand(a: real, u: real, od: real, y: real)
    requires u != 0.0
    ensures a * u * (1.008 - 0.0396 * (1.083 - y / u) * od)
            == a * u * (1.008 - 0.0396 * 1.083 * od) + 0.0396 * od * a * y
  {
    assert u * (y / u) == y;
  }

  /** The ultimate strength the joint rating ought to use: the grade's
      number and the L-80 flag taken from the grade. */
  function JointUltimateStrength(grade: Tubulars.Grade): (up: real)
    ensures grade.family == "L" ==> up == 95000.0
    ensures grade.family != "L" && grade.rating == 80 ==> up == 100000.0
  {
    UltimateStrength(Thousands(grade.rating), grade.family == "L")
  }

  /** Joint tensile rating: the smaller of fracture and pull-out strength. */
  function TensileJoint(od: real, id: real, yp: real, grade: Tubulars.Grade, c: Coupling, pow: real -> real): (f: real)
    requires PulloutDefined(od, JointUltimateStrength(grade), c)
    ensures var up := JointUltimateStrength(grade);
            && f <= TensionFracture(od, id, up, c)
            && f <= TensionPullout(od, id, yp, up, c, pow)
            && (f == TensionFracture(od, id, up, c) || f == TensionPullout(od, id, yp, up, c, pow))
  {
    var up := JointUltimateStrength(grade);
    Min(TensionFracture(od, id, up, c), TensionPullout(od, id, yp, up, c, pow))
  }

  /** The joint rating as api.py writes it: the grade label is handed to
      the ultimate-strength table, which compares it with grade numbers. */
  function TensileJointAsWritten(od: real, id: real, yp: real, grade: Tubulars.Grade, c: Coupling, pow: real -> real): (f: real)
    requires PulloutDefined(od, 125000.0, c)
    ensures f <= TensionFracture(od, id, 125000.0, c)
    ensures f <= TensionPullout(od, id, yp, 125000.0, c, pow)
    ensures f == TensionFracture(od, id, 125000.0, c) || f == TensionPullout(od, id, yp, 125000.0, c, pow)
  {
    var up := UltimateStrength(Label(grade), false);
    Min(TensionFracture(od, id, up, c), TensionPullout(od, id, yp, up, c, pow))
  }

  /** A grade label never equals a grade number, so the table always falls
      through to 125 000 psi and the L-80 flag is never set: the rating as
      written does not depend on the grade at all. */
  lemma TensileJointAsWrittenIgnoresGrade(od: real, id: real, yp: real, g1: Tubulars.Grade,
                                          g2: Tubulars.Grade, c: Coupling, pow: real -> real)
    requires PulloutDefined(od, 125000.0, c)
    ensures TensileJointAsWritten(od, id, yp, g1, c, pow) == TensileJointAsWritten(od, id, yp, g2, c, pow)
  {
    assert UltimateStrength(Label(g1), false) == 125000.0;
    assert UltimateStrength(Label(g2), false) == 125000.0;
  }

  /** For an N-80 joint the table yields 125 000 psi as written, where the
      grade calls for 100 000 psi. */
  lemma UltimateStrengthOfLabelN80()
    ensures UltimateStrength(Label(Tubulars.Grade("N", 80)), false) == 125000.0
    ensures JointUltimateStrength(Tubulars.Grade("N", 80)) == 100000.0
  {
    assert Label(Tubulars.Grade("N", 80)) !in {Thousands(75), Thousands(80), Thousands(95)};
  }
}

=== FILE: collapse.dfy ===
/** Collapse rating of API Bulletin 5C3 (CasingDesign/api.py): four regimes
    (yield strength, plastic, transition, elastic) chosen by the slenderness
    D/t against three boundaries, with the empirical coefficients A, B, C and
    the derived F, G written as polynomials in the yield point.

    The boundaries are the points where neighbouring regime formulas meet;
    the lemmas at the end prove that each pair does agree there. */
module CollapseRating {
  import opened Numerics

  /** The constant of the elastic collapse formula, 46.95·10⁶ psi. */
  const ElasticConstant: real := 46950000.0

  /* ---------------------------------------------------------------------
     Coefficients
     --------------------------------------------------------------------- */

  /** Σ cs[k]·x^k, evaluated by Horner's rule. The regression polynomials
      below are given by their coefficient lists, lowest power first. */
  function Polynomial(cs: seq<real>, x: real): real
    decreases |cs|
  {
    if |cs| == 0 then 0.0 else cs[0] + x * Polynomial(cs[1..], x)
  }

  /** Horner evaluation of a cubic is its power form. */
  lemma {:induction false} CubicPolynomial(c0: real, c1: real, c2: real, c3: real, x: real)
    ensures Polynomial([c0, c1, c2, c3], x) == c0 + c1 * x + c2 * (x * x) + c3 * (x * x * x)
  {
    var cs := [c0, c1, c2, c3];
    var none: seq<real> := [];
    assert cs[1..] == [c1, c2, c3];
    assert [c1, c2, c3][1..] == [c2, c3];
    assert [c2, c3][1..] == [c3];
    assert [c3][1..] == none;
    assert Polynomial(none, x) == 0.0;
    var p3 := Polynomial([c3], x);
    assert p3 == c3 + x * Polynomial(none, x);
    var p2 := Polynomial([c2, c3], x);
    assert p2 == c2 + x * p3;
    var p1 := Polynomial([c1, c2, c3], x);
    assert p1 == c1 + x * p2;
    assert Polynomial(cs, x) == c0 + x * p1;
  }

  const CoefficientsA: seq<real> := [2.8762, 0.0000010679, 0.000000000021301, -0.000000000000000053132]
  const CoefficientsB: seq<real> := [0.026233, 0.00000050609]
  const CoefficientsC: seq<real> := [-465.93, 0.030867, -0.000000010483, 0.000000000000036989]

  function CoefA(yp: real): real {
    Polynomial(CoefficientsA, yp)
  }

  function CoefB(yp: real): real {
    Polynomial(CoefficientsB, yp)
  }

  function CoefC(yp: real): real {
    Polynomial(CoefficientsC, yp)
  }

  /** The coefficient lists are the API 5C3 regression formulas for A, B
      and C in their power form. */
  lemma CoefficientFormulas(yp: real)
    ensures CoefA(yp) == 2.8762 + 0.0000010679 * yp + 0.000000000021301 * (yp * yp)
                         - 0.000000000000000053132 * (yp * yp * yp)
    ensures CoefB(yp) == 0.026233 + 0.00000050609 * yp
    ensures CoefC(yp) == -465.93 + 0.030867 * yp - 0.000000010483 * (yp * yp)
                         + 0.000000000000036989 * (yp * yp * yp)
  {
    CubicPolynomial(2.8762, 0.0000010679, 0.000000000021301, -0.000000000000000053132, yp);
    CubicPolynomial(-465.93, 0.030867, -0.000000010483, 0.000000000000036989, yp);
    assert CoefficientsB[1..] == [0.00000050609];
    assert CoefficientsB[1..][1..] == [];
  }

  /** X = B/A, the ratio F and G are built from. */
  function RatioX(a: real, b: real): real
    requires a != 0.0
  {
    b / a
  }

  /** u = 3X/(2 + X); its reciprocal is the elastic boundary. */
  function RatioU(a: real, b: real): real
    requires a != 0.0 && 2.0 + RatioX(a, b) != 0.0
  {
    3.0 * RatioX(a, b) / (2.0 + RatioX(a, b))
  }

  /** The denominator of F, yp·(u − X)·(1 − u)². */
  function FDenominator(a: real, b: real, yp: real): real
    requires a != 0.0 && 2.0 + RatioX(a, b) != 0.0
  {
    var u := RatioU(a, b);
    (yp * (u - RatioX(a, b))) * ((1.0 - u) * (1.0 - u))
  }

  /** When the fractions inside F and G are defined. */
  predicate FDefined(a: real, b: real, yp: real) {
    a != 0.0 && 2.0 + RatioX(a, b) != 0.0 && FDenominator(a, b, yp) != 0.0
  }

  /** F = 46.95·10⁶·u³ / (yp·(u − X)·(1 − u)²). */
  function CoefF(a: real, b: real, yp: real): real
    requires FDefined(a, b, yp)
  {
    var u := RatioU(a, b);
    ElasticConstant * (u * u * u) / FDenominator(a, b, yp)
  }

  /** G = F·X. */
  function CoefG(a: real, b: real, yp: real): real
    requires FDefined(a, b, yp)
  {
    CoefF(a, b, yp) * RatioX(a, b)
  }

  /** The five coefficients one collapse rating uses. */
  datatype Coefficients = Coefficients(a: real, b: real, c: real, f: real, g: real)

  /** F and G are derived from A and B as API 5C3 prescribes. */
  predicate Derived(k: Coefficients, yp: real) {
    FDefined(k.a, k.b, yp) && k.f == CoefF(k.a, k.b, yp) && k.g == CoefG(k.a, k.b, yp)
  }

  /** The coefficients of API 5C3 for a yield point. */
  function Coefficients5C3(yp: real): Coefficients
    requires FDefined(CoefA(yp), CoefB(yp), yp)
  {
    var a := CoefA(yp);
    var b := CoefB(yp);
    Coefficients(a, b, CoefC(yp), CoefF(a, b, yp), CoefG(a, b, yp))
  }

  /* ---------------------------------------------------------------------
     Regime formulas, as functions of the slenderness dt = D/t
     --------------------------------------------------------------------- */

  /** D/t with t the half-wall (od − id)/2, as every collapse formula
      computes it. */
  function Slenderness(od: real, id: real): (dt: real)
    requires od != id
    ensures dt * (od - id) == 2.0 * od
  {
    od / ((od - id) / 2.0)
  }

  /** Yield-strength collapse: the pressure that brings the inner wall to
      the yield point, 2·yp·(D/t − 1)/(D/t)². */
  function CollapseYield(dt: real, yp: real): real
    requires dt != 0.0
  {
    2.0 * yp * ((dt - 1.0) / (dt * dt))
  }

  function CollapsePlastic(dt: real, yp: real, k: Coefficients): real
    requires dt != 0.0
  {
    yp * (k.a / dt - k.b) - k.c
  }

  function CollapseTransition(dt: real, yp: real, k: Coefficients): real
    requires dt != 0.0
  {
    yp * (k.f / dt - k.g)
  }

  function CollapseElastic(dt: real): real
    requires dt != 0.0 && dt != 1.0
  {
    SquareZero(dt - 1.0);
    ProductNonZero(dt, (dt - 1.0) * (dt - 1.0));
    ElasticConstant / (dt * ((dt - 1.0) * (dt - 1.0)))
  }

  /* ---------------------------------------------------------------------
     Regime boundaries
     --------------------------------------------------------------------- */

  /** K = B + C/yp, the leading coefficient of the yield/plastic quadratic. */
  function PlasticK(yp: real, k: Coefficients): real
    requires yp != 0.0
  {
    k.b + k.c / yp
  }

  /** (A − 2)² + 8K, the discriminant under the root of ratio_plastic. */
  function PlasticDiscriminant(yp: real, k: Coefficients): real
    requires yp != 0.0
  {
    (k.a - 2.0) * (k.a - 2.0) + 8.0 * PlasticK(yp, k)
  }

  /** The yield/plastic boundary, (√((A − 2)² + 8K) + A − 2)/(2K). */
  function RatioPlastic(yp: real, k: Coefficients, sqrt: real -> real): real
    requires yp != 0.0 && PlasticK(yp, k) != 0.0
  {
    (sqrt(PlasticDiscriminant(yp, k)) + k.a - 2.0) / (2.0 * PlasticK(yp, k))
  }

  function TransitionDenominator(yp: real, k: Coefficients): real {
    k.c + yp * (k.b - k.g)
  }

  /** The plastic/transition boundary, yp·(A − F)/(C + yp·(B − G)). */
  function RatioTransition(yp: real, k: Coefficients): (r: real)
    requires TransitionDenominator(yp, k) != 0.0
    ensures r * TransitionDenominator(yp, k) == yp * (k.a - k.f)
  {
    yp * (k.a - k.f) / TransitionDenominator(yp, k)
  }

  /** The transition/elastic boundary, (2 + B/A)/(3·B/A). */
  function RatioElastic(k: Coefficients): real
    requires k.a != 0.0 && k.b != 0.0
  {
    assert 3.0 * k.b / k.a != 0.0;
    (2.0 + k.b / k.a) / (3.0 * k.b / k.a)
  }

  /** Every quotient of the three boundaries is defined. */
  predicate RatiosDefined(yp: real, k: Coefficients) {
    && yp != 0.0
    && PlasticK(yp, k) != 0.0
    && TransitionDenominator(yp, k) != 0.0
    && k.a != 0.0
    && k.b != 0.0
  }

  /** Every quotient the source forms while rating collapse is defined. */
  predicate CollapseDefined(od: real, id: real, yp: real) {
    && od != id
    && Slenderness(od, id) != 0.0
    && Slenderness(od, id) != 1.0
    && FDefined(CoefA(yp), CoefB(yp), yp)
    && RatiosDefined(yp, Coefficients5C3(yp))
  }

  /* ---------------------------------------------------------------------
     Regime selection
     --------------------------------------------------------------------- */

  datatype Regime = YieldStrength | Plastic | Transition | Elastic

  /** Order of the regimes from stocky to slender pipe. */
  function Rank(g: Regime): (n: nat)
    ensures n < 4
  {
    match g
    case YieldStrength => 0
    case Plastic => 1
    case Transition => 2
    case Elastic => 3
  }

  /** dt is within the yield-strength boundary. When the discriminant is
      negative np.sqrt yields NaN, every comparison with it is false, and
      the yield-strength regime is never selected. */
  predicate WithinPlasticRatio(dt: real, yp: real, k: Coefficients, sqrt: real -> real)
    requires RatiosDefined(yp, k)
  {
    0.0 <= PlasticDiscriminant(yp, k) && dt <= RatioPlastic(yp, k, sqrt)
  }

  /** The regime of the first boundary dt does not exceed, in the order
      plastic, transition, elastic. */
  function RegimeOf(dt: real, yp: real, k: Coefficients, sqrt: real -> real): (g: Regime)
    requires RatiosDefined(yp, k)
    ensures g == YieldStrength <==> WithinPlasticRatio(dt, yp, k, sqrt)
    ensures g == Plastic <==> !WithinPlasticRatio(dt, yp, k, sqrt) && dt <= RatioTransition(yp, k)
    ensures g == Transition <==>
              !WithinPlasticRatio(dt, yp, k, sqrt) && RatioTransition(yp, k) < dt <= RatioElastic(k)
    ensures g == Elastic <==>
              !WithinPlasticRatio(dt, yp, k, sqrt) && RatioTransition(yp, k) < dt && RatioElastic(k) < dt
  {
    if WithinPlasticRatio(dt, yp, k, sqrt) then YieldStrength
    else if dt <= RatioTransition(yp, k) then Plastic
    else if dt <= RatioElastic(k) then Transition
    else Elastic
  }

  /** A more slender pipe never falls in an earlier regime, whatever the
      order of the three boundaries. */
  lemma RegimeMonotone(dt1: real, dt2: real, yp: real, k: Coefficients, sqrt: real -> real)
    requires RatiosDefined(yp, k)
    requires dt1 <= dt2
    ensures Rank(RegimeOf(dt1, yp, k, sqrt)) <= Rank(RegimeOf(dt2, yp, k, sqrt))
  {
  }

  /** The value of a regime's formula at dt. */
  function RegimeValue(g: Regime, dt: real, yp: real, k: Coefficients): real
    requires dt != 0.0 && dt != 1.0
  {
    match g
    case YieldStrength => CollapseYield(dt, yp)
    case Plastic => CollapsePlastic(dt, yp, k)
    case Transition => CollapseTransition(dt, yp, k)
    case Elastic => CollapseElastic(dt)
  }

  /** The collapse rating. All four formulas and all three boundaries are
      evaluated, then the first regime whose boundary D/t does not exceed
      supplies the value. */
  function Collapse(od: real, id: real, yp: real, sqrt: real -> real): (p: real)
    requires CollapseDefined(od, id, yp)
    ensures var dt := Slenderness(od, id);
            var k := Coefficients5C3(yp);
            p == RegimeValue(RegimeOf(dt, yp, k, sqrt), dt, yp, k)
  {
    var dt := Slenderness(od, id);
    var k := Coefficients5C3(yp);
    var pYield := CollapseYield(dt, yp);
    var pPlastic := CollapsePlastic(dt, yp, k);
    var pTransition := CollapseTransition(dt, yp, k);
    var pElastic := CollapseElastic(dt);
    if 0.0 <= PlasticDiscriminant(yp, k) && dt <= RatioPlastic(yp, k, sqrt) then pYield
    else if dt <= RatioTransition(yp, k) then pPlastic
    else if dt <= RatioElastic(k) then pTransition
    else pElastic
  }

  /* ---------------------------------------------------------------------
     Continuity at the boundaries
     --------------------------------------------------------------------- */

  /** The plastic and transition formulas agree at the plastic/transition
      boundary. */
  lemma PlasticMeetsTransition(yp: real, k: Coefficients)
    requires TransitionDenominator(yp, k) != 0.0
    requires RatioTransition(yp, k) != 0.0
    ensures CollapsePlastic(RatioTransition(yp, k), yp, k) == CollapseTransition(RatioTransition(yp, k), yp, k)
  {
    LinearBoundary(k.a, k.b, k.c, k.f, k.g, yp, RatioTransition(yp, k));
  }

  /** The transition and elastic formulas agree at the transition/elastic
      boundary whenever F and G are derived from A and B: this is where
      F's construction from X = B/A and G = F·X matters. */
  lemma TransitionMeetsElastic(yp: real, k: Coefficients)
    requires Derived(k, yp) && k.b != 0.0
    ensures RatioElastic(k) != 0.0 && RatioElastic(k) != 1.0
    ensures CollapseTransition(RatioElastic(k), yp, k) == CollapseElastic(RatioElastic(k))
  {
    var x := RatioX(k.a, k.b);
    var u := RatioU(k.a, k.b);
    var r := RatioElastic(k);
    var p := yp * (u - x);
    var q := (1.0 - u) * (1.0 - u);
    assert x != 0.0;
    assert r == (2.0 + x) / (3.0 * x);
    assert r * u == 1.0;
    assert p * q != 0.0;
    ProductNonZeroFactors(p, q);
    ElasticSide(ElasticConstant, u, r, q);
    TransitionSide(ElasticConstant * (u * u * u), yp, x, u, r, k.f, k.g, p, q);
    assert CollapseTransition(r, yp, k) == ElasticConstant * (u * u * u) / q;
    assert CollapseElastic(r) == ElasticConstant * (u * u * u) / q;
  }

  /** The yield-strength and plastic formulas agree at the yield/plastic
      boundary (when its discriminant is non-negative, so that the root is
      real). */
  lemma YieldMeetsPlastic(yp: real, k: Coefficients, sqrt: real -> real)
    requires IsSqrt(sqrt)
    requires yp != 0.0 && PlasticK(yp, k) != 0.0
    requires 0.0 <= PlasticDiscriminant(yp, k)
    requires RatioPlastic(yp, k, sqrt) != 0.0
    ensures CollapseYield(RatioPlastic(yp, k, sqrt), yp) == CollapsePlastic(RatioPlastic(yp, k, sqrt), yp, k)
  {
    var r := RatioPlastic(yp, k, sqrt);
    var pk := PlasticK(yp, k);
    QuadraticRoot(k.a, pk, sqrt(PlasticDiscriminant(yp, k)), r);
    QuadraticBoundary(k.a, k.b, k.c, yp, pk, r);
  }

  /** y·(a/d − b) − c = y·(f/d − g) at the d with d·(c + y·(b − g)) = y·(a − f). */
  lemma LinearBoundary(a: real, b: real, c: real, f: real, g: real, y: real, d: real)
    requires d != 0.0
    requires d * (c + y * (b - g)) == y * (a - f)
    ensures y * (a / d - b) - c == y * (f / d - g)
  {
    assert y * (a / d) - y * (f / d) == (y * (a - f)) / d;
    assert (y * (a - f)) / d == c + y * (b - g);
  }

  lemma ProductNonZeroFactors(p: real, q: real)
    requires p * q != 0.0
    ensures p != 0.0 && q != 0.0
  {
  }

  /** With r = 1/u, p = y·(u − x), F = n/(p·q) and G = F·x, the transition
      value y·(F/r − G) is n/q. */
  lemma TransitionSide(n: real, y: real, x: real, u: real, r: real, f: real, g: real, p: real, q: real)
    requires r * u == 1.0 && p == y * (u - x) && p != 0.0 && q != 0.0
    requires f == n / (p * q) && g == f * x
    ensures y * (f / r - g) == n / q
  {
    DivByReciprocal(f, r, u);
    assert y * (f / r - g) == f * p;
    CancelRatio(n, p, q);
  }

  /** With r = 1/u and q = (1 − u)², the elastic value E/(r·(r − 1)²) is
      E·u³/q. */
  lemma ElasticSide(e: real, u: real, r: real, q: real)
    requires r * u == 1.0 && q == (1.0 - u) * (1.0 - u) && q != 0.0
    ensures r * ((r - 1.0) * (r - 1.0)) != 0.0
    ensures e / (r * ((r - 1.0) * (r - 1.0))) == e * (u * u * u) / q
  {
    ElasticCube(r, u);
    assert u != 0.0;
    ProductNonZero(u * u, u);
    DivSwap(e, r * ((r - 1.0) * (r - 1.0)), u * u * u, q);
  }

  lemma DivByReciprocal(f: real, r: real, u: real)
    requires r * u == 1.0
    ensures r != 0.0 && f / r == f * u
  {
  }

  /** (n/(p·q))·p = n/q for non-zero p and q. */
  lemma CancelRatio(n: real, p: real, q: real)
    requires p != 0.0 && q != 0.0
    ensures n / (p * q) * p == n / q
  {
  }

  /** r·(r − 1)²·u³ = (1 − u)² when r·u = 1. */
  lemma ElasticCube(r: real, u: real)
    requires r * u == 1.0
    ensures r * ((r - 1.0) * (r - 1.0)) * (u * u * u) == (1.0 - u) * (1.0 - u)
  {
    assert (r - 1.0) * u == 1.0 - u;
    assert r * ((r - 1.0) * (r - 1.0)) * (u * u * u) == (r * u) * (((r - 1.0) * u) * ((r - 1.0) * u));
  }

  /** e/b = e·w/q when b·w = q with q and w non-zero. */
  lemma DivSwap(e: real, b: real, w: real, q: real)
    requires b * w == q && q != 0.0 && w != 0.0
    ensures b != 0.0 && e / b == e * w / q
  {
  }

  /** r = (s + a − 2)/(2k) with s² = (a − 2)² + 8k solves k·r² + (2 − a)·r − 2 = 0. */
  lemma QuadraticRoot(a: real, k: real, s: real, r: real)
    requires k != 0.0
    requires s * s == (a - 2.0) * (a - 2.0) + 8.0 * k
    requires r == (s + a - 2.0) / (2.0 * k)
    ensures k * (r * r) + (2.0 - a) * r - 2.0 == 0.0
  {
    var m := a - 2.0;
    QuotientTimesDivisor(s + a - 2.0, 2.0 * k);
    var w := 2.0 * k * r;
    assert s == w - m;
    SquareOfDifference(s, w, m);
    assert w * w - 2.0 * w * m == 8.0 * k;
    assert 4.0 * k * (k * (r * r) - m * r - 2.0) == w * w - 2.0 * w * m - 8.0 * k;
    ProductZero(4.0 * k, k * (r * r) - m * r - 2.0);
  }

  lemma QuotientTimesDivisor(n: real, d: real)
    requires d != 0.0
    ensures n / d * d == n
  {
  }

  lemma SquareOfDifference(s: real, w: real, m: real)
    requires s == w - m
    ensures s * s == w * w - 2.0 * w * m + m * m
  {
  }

  /** At a root r of k·r² + (2 − a)·r − 2 with k = b + c/y, the
      yield-strength value 2y(r − 1)/r² equals the plastic value
      y(a/r − b) − c. */
  lemma QuadraticBoundary(a: real, b: real, c: real, y: real, k: real, r: real)
    requires y != 0.0 && r != 0.0
    requires k == b + c / y
    requires k * (r * r) + (2.0 - a) * r - 2.0 == 0.0
    ensures 2.0 * y * ((r - 1.0) / (r * r)) == y * (a / r - b) - c
  {
    assert y * b * (r * r) + c * (r * r) == y * a * r - 2.0 * y * r + 2.0 * y by {
      assert y * k == y * b + c;
      assert y * (k * (r * r) + (2.0 - a) * r - 2.0) == 0.0;
    }
    assert (y * (a / r - b) - c) * (r * r) == 2.0 * y * (r - 1.0);
  }
}

=== FILE: fluids.dfy ===
/** Hydrostatic pressure of a fluid column (fluids.py).

    A column is a surface pressure and an ordered list of segments, each a
    top depth and a constant density; the last segment reaches down to the
    total depth. The pressure at a depth is the surface pressure plus the
    weight of every segment above it plus the partial weight of the segment
    that contains it. */
module Fluids {
  import opened Numerics
  import opened Outcomes

  datatype FluidColumn = FluidColumn(surfacePressure: real, top: seq<real>, density: seq<real>)

  /** The column the source expects: one density per top, at least one
      segment, tops strictly increasing and none below the total depth. */
  ghost predicate WellFormed(col: FluidColumn, td: real) {
    && 1 <= |col.top|
    && |col.density| == |col.top|
    && (forall i, j :: 0 <= i < j < |col.top| ==> col.top[i] < col.top[j])
    && col.top[|col.top| - 1] <= td
  }

  /** Bottom of segment i: the next segment's top, or the total depth for
      the last segment (the source's IndexError fallback). */
  function SegmentBottom(col: FluidColumn, td: real, i: nat): real {
    if i + 1 < |col.top| then col.top[i + 1] else td
  }

  /** Pressure of a fluid head: head × density × g. */
  function Hydrostatic(head: real, density: real): (p: real)
    ensures 0.0 <= head && 0.0 <= density ==> 0.0 <= p
    ensures head == 0.0 ==> p == 0.0
  {
    head * density * Gravity
  }

  /** The loop of pressure_single from segment i with pressure acc so far.
      Every segment whose bottom lies strictly above the depth adds its full
      weight; the first segment whose bottom is at or below the depth adds
      the partial weight down to the depth. Running past the last segment
      (which happens exactly when the depth is below the total depth) reads
      top[i] out of range, an IndexError. */
  function Walk(depth: real, col: FluidColumn, td: real, i: nat, acc: real): Result<real>
    decreases |col.top| - i
  {
    if i >= |col.top| || i >= |col.density| then Failure(IndexError)
    else if SegmentBottom(col, td, i) < depth then
      Walk(depth, col, td, i + 1, acc + Hydrostatic(SegmentBottom(col, td, i) - col.top[i], col.density[i]))
    else
      Success(acc + Hydrostatic(depth - col.top[i], col.density[i]))
  }

  /** pressure_single(depth, fluid_column): the walk from the surface. */
  function PressureSingle(depth: real, col: FluidColumn, td: real): Result<real> {
    Walk(depth, col, td, 0, col.surfacePressure)
  }

  /** pressure(depth, inside, outside): both columns at one depth; the
      inside column is evaluated first, so its failure is the one reported. */
  function Pressure(depth: real, inside: FluidColumn, outside: FluidColumn, td: real): (r: Result<(real, real)>)
    ensures r.Success? <==> PressureSingle(depth, inside, td).Success? && PressureSingle(depth, outside, td).Success?
    ensures r.Success? ==> r.value == (PressureSingle(depth, inside, td).value, PressureSingle(depth, outside, td).value)
    ensures PressureSingle(depth, inside, td).Failure? ==> r == PressureSingle(depth, inside, td).PropagateFailure()
  {
    var pin :- PressureSingle(depth, inside, td);
    var pout :- PressureSingle(depth, outside, td);
    Success((pin, pout))
  }

  /* ---------------------------------------------------------------------
     Reference definition: the weight of the fully traversed segments.
     --------------------------------------------------------------------- */

  /** Full hydrostatic weight of segments i .. k-1. */
  function Traversed(col: FluidColumn, td: real, i: nat, k: nat): real
    requires k <= |col.top| && |col.density| == |col.top|
    decreases k - i
  {
    if k <= i then 0.0
    else Hydrostatic(SegmentBottom(col, td, i) - col.top[i], col.density[i]) + Traversed(col, td, i + 1, k)
  }

  /** Appending one segment to the traversed range adds its full weight. */
  lemma {:induction false} TraversedSnoc(col: FluidColumn, td: real, i: nat, k: nat)
    requires i <= k < |col.top| && |col.density| == |col.top|
    ensures Traversed(col, td, i, k + 1)
         == Traversed(col, td, i, k) + Hydrostatic(SegmentBottom(col, td, k) - col.top[k], col.density[k])
    decreases k - i
  {
    if i < k {
      TraversedSnoc(col, td, i + 1, k);
    }
  }

  /** The walk from segment i, for a depth inside segment k ≥ i, adds the
      full weight of segments i .. k-1 and the partial weight of k. */
  lemma {:induction false} WalkClosedForm(depth: real, col: FluidColumn, td: real, i: nat, k: nat, acc: real)
    requires WellFormed(col, td)
    requires i <= k < |col.top|
    requires k == 0 || col.top[k] < depth
    requires depth <= SegmentBottom(col, td, k)
    ensures Walk(depth, col, td, i, acc)
         == Success(acc + Traversed(col, td, i, k) + Hydrostatic(depth - col.top[k], col.density[k]))
    decreases k - i
  {
    if i < k {
      assert SegmentBottom(col, td, i) == col.top[i + 1];
      assert col.top[i + 1] <= col.top[k];
      WalkClosedForm(depth, col, td, i + 1, k, acc + Hydrostatic(SegmentBottom(col, td, i) - col.top[i], col.density[i]));
    }
  }

  /** The general closed form: for a depth in segment k (strictly below its
      top, or anywhere down to the first bottom for k = 0), the pressure is
      the surface pressure plus the full weight of the segments above k plus
      the partial weight of k. */
  lemma PressureClosedForm(depth: real, col: FluidColumn, td: real, k: nat)
    requires WellFormed(col, td)
    requires k < |col.top|
    requires k == 0 || col.top[k] < depth
    requires depth <= SegmentBottom(col, td, k)
    ensures PressureSingle(depth, col, td)
         == Success(col.surfacePressure + Traversed(col, td, 0, k) + Hydrostatic(depth - col.top[k], col.density[k]))
  {
    WalkClosedForm(depth, col, td, 0, k, col.surfacePressure);
  }

  /** A single-segment column is linear in depth down to the total depth. */
  lemma SingleSegmentPressure(depth: real, col: FluidColumn, td: real)
    requires WellFormed(col, td) && |col.top| == 1
    requires depth <= td
    ensures PressureSingle(depth, col, td)
         == Success(col.surfacePressure + (depth - col.top[0]) * col.density[0] * Gravity)
  {
    PressureClosedForm(depth, col, td, 0);
    assert Traversed(col, td, 0, 0) == 0.0;
    assert Hydrostatic(depth - col.top[0], col.density[0]) == (depth - col.top[0]) * col.density[0] * Gravity;
  }

  /** At the top of the first segment the pressure is the surface pressure. */
  lemma PressureAtSurface(col: FluidColumn, td: real)
    requires WellFormed(col, td)
    ensures PressureSingle(col.top[0], col, td) == Success(col.surfacePressure)
  {
    PressureClosedForm(col.top[0], col, td, 0);
  }

  /** Continuity at an interior segment boundary: the strict test keeps the
      boundary depth in the upper segment k, and the value found there is
      the value segment k+1 starts from. */
  lemma PressureContinuousAtBoundary(col: FluidColumn, td: real, k: nat)
    requires WellFormed(col, td)
    requires k + 1 < |col.top|
    ensures PressureSingle(col.top[k + 1], col, td)
         == Success(col.surfacePressure + Traversed(col, td, 0, k)
                    + Hydrostatic(col.top[k + 1] - col.top[k], col.density[k]))
    ensures PressureSingle(col.top[k + 1], col, td)
         == Success(col.surfacePressure + Traversed(col, td, 0, k + 1)
                    + Hydrostatic(col.top[k + 1] - col.top[k + 1], col.density[k + 1]))
  {
    if k > 0 {
      assert col.top[k] < col.top[k + 1];
    }
    PressureClosedForm(col.top[k + 1], col, td, k);
    TraversedSnoc(col, td, 0, k);
  }

  /** On a well-formed column the walk ends in a value exactly for depths
      down to the total depth. */
  lemma {:induction false} WalkDefined(depth: real, col: FluidColumn, td: real, i: nat, acc: real)
    requires WellFormed(col, td)
    requires i <= |col.top|
    requires i == 0 || SegmentBottom(col, td, i - 1) < depth
    ensures Walk(depth, col, td, i, acc).Success? <==> depth <= td
    decreases |col.top| - i
  {
    if i < |col.top| {
      if SegmentBottom(col, td, i) < depth {
        WalkDefined(depth, col, td, i + 1, acc + Hydrostatic(SegmentBottom(col, td, i) - col.top[i], col.density[i]));
      } else {
        assert col.top[|col.top| - 1] <= td;
        if i + 1 < |col.top| {
          assert col.top[i + 1] <= col.top[|col.top| - 1];
        }
      }
    }
  }

  lemma PressureDefined(depth: real, col: FluidColumn, td: real)
    requires WellFormed(col, td)
    ensures PressureSingle(depth, col, td).Success? <==> depth <= td
  {
    WalkDefined(depth, col, td, 0, col.surfacePressure);
  }

  /** The pressure at a depth of a well-formed column, once it is known to
      exist. */
  function PressureOf(depth: real, col: FluidColumn, td: real): (p: real)
    requires WellFormed(col, td) && depth <= td
    ensures PressureSingle(depth, col, td) == Success(p)
  {
    PressureDefined(depth, col, td);
    PressureSingle(depth, col, td).value
  }

  /* ---------------------------------------------------------------------
     Monotonicity: with non-negative densities pressure never decreases
     with depth.
     --------------------------------------------------------------------- */

  ghost predicate NonNegativeDensities(col: FluidColumn) {
    forall i :: 0 <= i < |col.density| ==> 0.0 <= col.density[i]
  }

  lemma HydrostaticMonotone(h1: real, h2: real, density: real)
    requires h1 <= h2 && 0.0 <= density
    ensures Hydrostatic(h1, density) <= Hydrostatic(h2, density)
  {
    assert (h2 - h1) * density >= 0.0;
  }

  /** Walking on from a segment whose top is at or above the depth never
      lowers the pressure accumulated so far. */
  lemma {:induction false} WalkAtLeastAcc(depth: real, col: FluidColumn, td: real, i: nat, acc: real)
    requires WellFormed(col, td) && NonNegativeDensities(col)
    requires i < |col.top|
    requires col.top[i] <= depth <= td
    ensures Walk(depth, col, td, i, acc).Success?
    ensures acc <= Walk(depth, col, td, i, acc).value
    decreases |col.top| - i
  {
    var b := SegmentBottom(col, td, i);
    if i + 1 < |col.top| {
      assert col.top[i] < col.top[i + 1];
    }
    if b < depth {
      WalkAtLeastAcc(depth, col, td, i + 1, acc + Hydrostatic(b - col.top[i], col.density[i]));
    }
  }

  lemma {:induction false} WalkMonotone(d1: real, d2: real, col: FluidColumn, td: real, i: nat, acc: real)
    requires WellFormed(col, td) && NonNegativeDensities(col)
    requires i < |col.top|
    requires i == 0 || col.top[i] < d1
    requires d1 <= d2 <= td
    ensures Walk(d1, col, td, i, acc).Success? && Walk(d2, col, td, i, acc).Success?
    ensures Walk(d1, col, td, i, acc).value <= Walk(d2, col, td, i, acc).value
    decreases |col.top| - i
  {
    var b := SegmentBottom(col, td, i);
    var rho := col.density[i];
    if i + 1 < |col.top| {
      assert col.top[i] < col.top[i + 1];
    }
    var full := acc + Hydrostatic(b - col.top[i], rho);
    if b < d1 {
      WalkMonotone(d1, d2, col, td, i + 1, full);
    } else if b < d2 {
      // d1 stops in segment i, d2 walks on past its bottom
      assert i + 1 < |col.top|;
      WalkAtLeastAcc(d2, col, td, i + 1, full);
      HydrostaticMonotone(d1 - col.top[i], b - col.top[i], rho);
    } else {
      HydrostaticMonotone(d1 - col.top[i], d2 - col.top[i], rho);
    }
  }

  /** Pressure is non-decreasing in depth on a column of non-negative
      densities. */
  lemma PressureMonotone(d1: real, d2: real, col: FluidColumn, td: real)
    requires WellFormed(col, td) && NonNegativeDensities(col)
    requires d1 <= d2 <= td
    ensures PressureSingle(d1, col, td).Success? && PressureSingle(d2, col, td).Success?
    ensures PressureSingle(d1, col, td).value <= PressureSingle(d2, col, td).value
  {
    WalkMonotone(d1, d2, col, td, 0, col.surfacePressure);
  }
}

=== FILE: grid.dfy ===
/** The depth grid of a scenario and the casing section at every grid
    point (update_depth and update_casing in algorithm.py).

    Depths here are in feet and the section tops are taken as already
    rounded to whole feet, as the source rounds them before comparing. */
module Grid {
  import opened Outcomes
  import Tubulars

  /** Sequences whose entries strictly increase. */
  predicate StrictlyIncreasing(s: seq<real>) {
    forall a, b :: 0 <= a < b < |s| ==> s[a] < s[b]
  }

  /** A whole number of feet. */
  predicate Whole(x: real) {
    x == x.Floor as real
  }

  /** The tops of all sections, from the surface down. */
  function Tops(casing: seq<Tubulars.Section>): (tops: seq<real>)
    ensures |tops| == |casing|
    ensures forall k :: 0 <= k < |casing| ==> tops[k] == casing[k].top
  {
    seq(|casing|, k requires 0 <= k < |casing| => casing[k].top)
  }

  /* ---------------------------------------------------------------------
     update_depth
     --------------------------------------------------------------------- */

  /** The grid loop from foot i down to the total depth td: every whole
      foot is a grid point, and when the foot equals the next pending
      section top a second point 0.01 ft below it is added and that top is
      consumed. Only the first pending top is ever compared. */
  function DepthWalk(i: int, td: int, pending: seq<real>): seq<real>
    decreases td + 1 - i
  {
    if td < i then []
    else if |pending| > 0 && i as real == pending[0] then
      [i as real, i as real + 0.01] + DepthWalk(i + 1, td, pending[1..])
    else
      [i as real] + DepthWalk(i + 1, td, pending)
  }

  /** update_depth(casing, scenario): the first top (the surface) is
      dropped and the grid is walked from 0 to the total depth. An empty
      casing fails on that first pop. */
  function UpdateDepth(casing: seq<Tubulars.Section>, totalDepth: nat): (r: Result<seq<real>>)
    ensures r.Failure? <==> |casing| == 0
    ensures r.Success? ==> |r.value| >= totalDepth + 1 && r.value[0] == 0.0
  {
    if |casing| == 0 then Failure(IndexError)
    else
      DepthWalkLength(0, totalDepth, Tops(casing)[1..]);
      Success(DepthWalk(0, totalDepth, Tops(casing)[1..]))
  }

  lemma {:induction false} DepthWalkLength(i: int, td: int, pending: seq<real>)
    requires i <= td + 1
    ensures |DepthWalk(i, td, pending)| >= td + 1 - i
    ensures i <= td ==> DepthWalk(i, td, pending)[0] == i as real
    decreases td + 1 - i
  {
    if i <= td {
      if |pending| > 0 && i as real == pending[0] {
        DepthWalkLength(i + 1, td, pending[1..]);
      } else {
        DepthWalkLength(i + 1, td, pending);
      }
    }
  }

  /** The grid strictly increases and stays between i and td + 0.01. */
  lemma {:induction false} DepthWalkIncreasing(i: int, td: int, pending: seq<real>)
    ensures var md := DepthWalk(i, td, pending);
            && StrictlyIncreasing(md)
            && forall n :: 0 <= n < |md| ==> i as real <= md[n] <= td as real + 0.01
    decreases td + 1 - i
  {
    if i <= td {
      var md := DepthWalk(i, td, pending);
      var head, rest;
      if |pending| > 0 && i as real == pending[0] {
        head, rest := [i as real, i as real + 0.01], DepthWalk(i + 1, td, pending[1..]);
        DepthWalkIncreasing(i + 1, td, pending[1..]);
      } else {
        head, rest := [i as real], DepthWalk(i + 1, td, pending);
        DepthWalkIncreasing(i + 1, td, pending);
      }
      assert md == head + rest;
      assert forall n :: 0 <= n < |head| ==> head[n] <= i as real + 0.01;
      forall a, b | 0 <= a < b < |md|
        ensures md[a] < md[b]
      {
        if b < |head| {
          assert a == 0 && b == 1;
        } else if a >= |head| {
          assert md[a] == rest[a - |head|] && md[b] == rest[b - |head|];
        } else {
          assert md[b] == rest[b - |head|];
        }
      }
      forall n | 0 <= n < |md|
        ensures i as real <= md[n] <= td as real + 0.01
      {
        if n >= |head| {
          assert md[n] == rest[n - |head|];
        }
      }
    }
  }

  /** The whole foot k is a point of the grid md. */
  predicate HasFoot(md: seq<real>, k: int) {
    (k as real) in md
  }

  /** Every whole foot from i to td is a grid point. */
  lemma {:induction false} DepthWalkIntegers(i: int, td: int, pending: seq<real>)
    ensures forall k :: i <= k <= td ==> HasFoot(DepthWalk(i, td, pending), k)
    decreases td + 1 - i
  {
    if i <= td {
      var md := DepthWalk(i, td, pending);
      if |pending| > 0 && i as real == pending[0] {
        DepthWalkIntegers(i + 1, td, pending[1..]);
        assert md == [i as real, i as real + 0.01] + DepthWalk(i + 1, td, pending[1..]);
      } else {
        DepthWalkIntegers(i + 1, td, pending);
        assert md == [i as real] + DepthWalk(i + 1, td, pending);
      }
      forall k | i <= k <= td
        ensures HasFoot(md, k)
      {
        if k == i {
          assert md[0] == i as real;
        } else {
          var rest := if |pending| > 0 && i as real == pending[0] then DepthWalk(i + 1, td, pending[1..])
                      else DepthWalk(i + 1, td, pending);
          assert HasFoot(rest, k);
          assert forall x :: x in rest ==> x in md;
        }
      }
    }
  }

  /** Pending tops that are whole feet, strictly increasing and within
      [i, td]: each one is met by the walk. */
  predicate Reachable(i: int, td: int, pending: seq<real>) {
    && (forall j :: 0 <= j < |pending| ==> Whole(pending[j]) && i as real <= pending[j] <= td as real)
    && (forall a, b :: 0 <= a < b < |pending| ==> pending[a] < pending[b])
  }

  /** Every reachable top gets its second point 0.01 ft below it, so the
      grid holds one extra point per top. */
  lemma {:induction false} DepthWalkBoundaries(i: int, td: int, pending: seq<real>)
    requires i <= td + 1
    requires Reachable(i, td, pending)
    ensures var md := DepthWalk(i, td, pending);
            && (forall j :: 0 <= j < |pending| ==> pending[j] + 0.01 in md)
            && |md| == td + 1 - i + |pending|
    decreases td + 1 - i
  {
    if i <= td {
      var md := DepthWalk(i, td, pending);
      if |pending| > 0 && i as real == pending[0] {
        var rest := pending[1..];
        ReachableAfterMatch(i, td, pending);
        DepthWalkBoundaries(i + 1, td, rest);
        var w := DepthWalk(i + 1, td, rest);
        assert md == [i as real, i as real + 0.01] + w;
        forall j | 0 <= j < |pending|
          ensures pending[j] + 0.01 in md
        {
          if j == 0 {
            assert md[1] == pending[0] + 0.01;
          } else {
            assert pending[j] == rest[j - 1];
            assert pending[j] + 0.01 in w;
          }
        }
      } else {
        ReachableAfterMiss(i, td, pending);
        DepthWalkBoundaries(i + 1, td, pending);
        var w := DepthWalk(i + 1, td, pending);
        assert md == [i as real] + w;
        assert forall j :: 0 <= j < |pending| ==> pending[j] + 0.01 in w;
      }
    } else {
      ReachableWithinGrid(i, td, pending);
    }
  }

  /** Once the top at foot i is consumed, the remaining tops lie below i. */
  lemma ReachableAfterMatch(i: int, td: int, pending: seq<real>)
    requires Reachable(i, td, pending)
    requires |pending| > 0 && i as real == pending[0]
    ensures Reachable(i + 1, td, pending[1..])
  {
    var rest := pending[1..];
    forall j | 0 <= j < |rest|
      ensures Whole(rest[j]) && (i + 1) as real <= rest[j] <= td as real
    {
      assert rest[j] == pending[j + 1];
      assert pending[0] < pending[j + 1];
      assert rest[j].Floor > i;
    }
  }

  /** A foot that matches no top leaves every pending top below it. */
  lemma ReachableAfterMiss(i: int, td: int, pending: seq<real>)
    requires Reachable(i, td, pending)
    requires |pending| == 0 || i as real != pending[0]
    ensures Reachable(i + 1, td, pending)
  {
    forall j | 0 <= j < |pending|
      ensures Whole(pending[j]) && (i + 1) as real <= pending[j] <= td as real
    {
      if j == 0 {
        assert pending[0].Floor > i;
      } else {
        assert pending[0] < pending[j];
        assert pending[j].Floor > i;
      }
    }
  }

  lemma ReachableWithinGrid(i: int, td: int, pending: seq<real>)
    requires Reachable(i, td, pending)
    ensures |pending| > 0 ==> i <= td
  {
    if |pending| > 0 {
      assert i as real <= pending[0] <= td as real;
    }
  }

  /** A grid point of the walk from foot i: a whole foot in [i, td], or
      0.01 ft below one of the pending tops. */
  predicate OnGrid(x: real, i: int, td: int, pending: seq<real>) {
    (Whole(x) && i <= x.Floor <= td) || x - 0.01 in pending
  }

  /** Nothing else is on the grid: the n-th point of the walk is a whole
      foot in [i, td] or lies 0.01 ft below one of the pending tops. */
  lemma {:induction false} DepthWalkOnlyGridPoints(i: int, td: int, pending: seq<real>, n: nat)
    requires n < |DepthWalk(i, td, pending)|
    ensures OnGrid(DepthWalk(i, td, pending)[n], i, td, pending)
    decreases td + 1 - i
  {
    var md := DepthWalk(i, td, pending);
    assert i <= td;
    if |pending| > 0 && i as real == pending[0] {
      var rest := pending[1..];
      var w := DepthWalk(i + 1, td, rest);
      assert md == [i as real, i as real + 0.01] + w;
      if n == 0 {
        assert md[0] == i as real;
      } else if n == 1 {
        assert md[1] - 0.01 == pending[0];
      } else {
        assert md[n] == w[n - 2];
        DepthWalkOnlyGridPoints(i + 1, td, rest, n - 2);
        OnGridAfterMatch(w[n - 2], i, td, pending);
      }
    } else {
      var w := DepthWalk(i + 1, td, pending);
      assert md == [i as real] + w;
      if n == 0 {
        assert md[0] == i as real;
      } else {
        assert md[n] == w[n - 1];
        DepthWalkOnlyGridPoints(i + 1, td, pending, n - 1);
      }
    }
  }

  /** A point of the walk after the first top was consumed is a point of
      the walk before. */
  lemma OnGridAfterMatch(x: real, i: int, td: int, pending: seq<real>)
    requires |pending| > 0 && OnGrid(x, i + 1, td, pending[1..])
    ensures OnGrid(x, i, td, pending)
  {
    if x - 0.01 in pending[1..] {
      var j :| 0 <= j < |pending[1..]| && pending[1..][j] == x - 0.01;
      assert pending[j + 1] == x - 0.01;
    }
  }

  /** The grid update_depth builds for a casing whose later tops are whole
      feet, strictly increasing and within [0, td]: it starts at the
      surface, strictly increases, holds every whole foot, holds a point
      0.01 ft below every section top after the first, has exactly one
      point per foot plus one per such top, and holds nothing else. */
  lemma UpdateDepthGrid(casing: seq<Tubulars.Section>, totalDepth: nat)
    requires 1 <= |casing|
    requires Reachable(0, totalDepth, Tops(casing)[1..])
    ensures UpdateDepth(casing, totalDepth).Success?
    ensures var md := UpdateDepth(casing, totalDepth).value;
            && md[0] == 0.0
            && StrictlyIncreasing(md)
            && (forall k :: 0 <= k <= totalDepth ==> HasFoot(md, k))
            && (forall j :: 1 <= j < |casing| ==> casing[j].top + 0.01 in md)
            && |md| == totalDepth + |casing|
            && (forall n :: 0 <= n < |md| ==>
                  (Whole(md[n]) && 0 <= md[n].Floor <= totalDepth) || md[n] - 0.01 in Tops(casing)[1..])
  {
    var pending := Tops(casing)[1..];
    var md := DepthWalk(0, totalDepth, pending);
    assert UpdateDepth(casing, totalDepth).value == md;
    assert Tops(casing)[1..] == pending;
    assert StrictlyIncreasing(md) by {
      DepthWalkIncreasing(0, totalDepth, pending);
    }
    assert forall k :: 0 <= k <= totalDepth ==> HasFoot(md, k) by {
      DepthWalkIntegers(0, totalDepth, pending);
    }
    assert (forall j :: 1 <= j < |casing| ==> casing[j].top + 0.01 in md) && |md| == totalDepth + |casing| by {
      DepthWalkBoundaries(0, totalDepth, pending);
      assert forall j :: 1 <= j < |casing| ==> casing[j].top == pending[j - 1];
    }
    UpdateDepthOnlyGridPoints(casing, totalDepth);
  }

  /** Every point of the grid is a whole foot in [0, td] or lies 0.01 ft
      below a section top after the first. */
  lemma UpdateDepthOnlyGridPoints(casing: seq<Tubulars.Section>, totalDepth: nat)
    requires 1 <= |casing|
    ensures var md := UpdateDepth(casing, totalDepth).value;
            forall n :: 0 <= n < |md| ==>
              (Whole(md[n]) && 0 <= md[n].Floor <= totalDepth) || md[n] - 0.01 in Tops(casing)[1..]
  {
    var pending := Tops(casing)[1..];
    var md := DepthWalk(0, totalDepth, pending);
    assert UpdateDepth(casing, totalDepth).value == md;
    forall n | 0 <= n < |md|
      ensures (Whole(md[n]) && 0 <= md[n].Floor <= totalDepth) || md[n] - 0.01 in pending
    {
      DepthWalkOnlyGridPoints(0, totalDepth, pending, n);
    }
  }

  /** Consecutive grid points are at most one foot apart. */
  lemma {:induction false} DepthWalkGaps(i: int, td: int, pending: seq<real>)
    ensures var md := DepthWalk(i, td, pending);
            forall n :: 0 < n < |md| ==> md[n] - md[n - 1] <= 1.0
    decreases td + 1 - i
  {
    if i <= td {
      var md := DepthWalk(i, td, pending);
      var head, rest;
      if |pending| > 0 && i as real == pending[0] {
        head, rest := [i as real, i as real + 0.01], DepthWalk(i + 1, td, pending[1..]);
        DepthWalkGaps(i + 1, td, pending[1..]);
      } else {
        head, rest := [i as real], DepthWalk(i + 1, td, pending);
        DepthWalkGaps(i + 1, td, pending);
      }
      DepthWalkLength(i + 1, td, if |pending| > 0 && i as real == pending[0] then pending[1..] else pending);
      assert md == head + rest;
      forall n | 0 < n < |md|
        ensures md[n] - md[n - 1] <= 1.0
      {
        if n > |head| {
          assert md[n] == rest[n - |head|] && md[n - 1] == rest[n - 1 - |head|];
        } else if n == |head| {
          assert md[n] == rest[0] == (i + 1) as real;
        }
      }
    }
  }

  /* ---------------------------------------------------------------------
     update_casing
     --------------------------------------------------------------------- */

  /** The counter j of update_casing after n grid points: it starts at 1,
      and at each point moves on by one when the point lies strictly below
      the top of section j, unless every section has been entered. */
  function Counter(casing: seq<Tubulars.Section>, md: seq<real>, n: nat): (j: nat)
    requires 1 <= |casing| && n <= |md|
    ensures 1 <= j <= |casing|
  {
    if n == 0 then 1
    else
      var j := Counter(casing, md, n - 1);
      if j == |casing| then j
      else if md[n - 1] > casing[j].top then j + 1
      else j
  }

  /** The section at depth x in the source's sense: below the top of
      section s (strictly, except for the first section) and at or above
      the top of the next one. A depth exactly on a section top belongs to
      the section above it. */
  predicate InSectionBelowTop(casing: seq<Tubulars.Section>, x: real, s: nat) {
    && s < |casing|
    && (s == 0 || casing[s].top < x)
    && (s + 1 == |casing| || x <= casing[s + 1].top)
  }

  /** Consecutive grid points never have two section tops between them
      (taking the points as half-open intervals [md[k-1], md[k])), and the
      first point lies at or above the top of the third section. */
  predicate SingleCrossings(casing: seq<Tubulars.Section>, md: seq<real>) {
    && (|casing| <= 2 || |md| == 0 || md[0] <= casing[2].top)
    && forall k, j :: 0 < k < |md| && 1 <= j && j + 1 < |casing| ==>
         !(md[k - 1] <= casing[j].top && casing[j + 1].top < md[k])
  }

  predicate NonDecreasing(s: seq<real>) {
    forall a, b :: 0 <= a < b < |s| ==> s[a] <= s[b]
  }

  /** Under single crossings the counter always points one past the
      section holding the latest grid point. */
  lemma {:induction false} CounterLocates(casing: seq<Tubulars.Section>, md: seq<real>, n: nat)
    requires 1 <= |casing| && 1 <= n <= |md|
    requires NonDecreasing(md) && SingleCrossings(casing, md)
    ensures InSectionBelowTop(casing, md[n - 1], Counter(casing, md, n) - 1)
  {
    var j := Counter(casing, md, n);
    if n == 1 {
      assert Counter(casing, md, 0) == 1;
    } else {
      CounterLocates(casing, md, n - 1);
      var s := Counter(casing, md, n - 1) - 1;
      assert md[n - 2] <= md[n - 1];
      if j - 1 == s + 1 && s + 2 < |casing| {
        assert !(md[n - 2] <= casing[s + 1].top && casing[s + 2].top < md[n - 1]);
      }
    }
  }

  lemma CounterStep(casing: seq<Tubulars.Section>, md: seq<real>, n: nat)
    requires 1 <= |casing| && n < |md|
    ensures Counter(casing, md, n) <= Counter(casing, md, n + 1) <= Counter(casing, md, n) + 1
  {
  }

  /** What the counter gives every grid point: a valid section, starting
      at the first or second section, moving down at most one section per
      point, and under single crossings the section holding the point. */
  lemma CountedIndices(casing: seq<Tubulars.Section>, md: seq<real>, ids: seq<nat>)
    requires 1 <= |casing| && |ids| == |md|
    requires forall k :: 0 <= k < |ids| ==> ids[k] + 1 == Counter(casing, md, k + 1)
    ensures forall k :: 0 <= k < |ids| ==> ids[k] < |casing|
    ensures |ids| > 0 ==> ids[0] <= 1
    ensures forall k :: 0 < k < |ids| ==> ids[k - 1] <= ids[k] <= ids[k - 1] + 1
    ensures NonDecreasing(md) && SingleCrossings(casing, md) ==>
              forall k :: 0 <= k < |ids| ==> InSectionBelowTop(casing, md[k], ids[k])
  {
    if |ids| > 0 {
      assert Counter(casing, md, 0) == 1;
    }
    forall k | 0 < k < |ids|
      ensures ids[k - 1] <= ids[k] <= ids[k - 1] + 1
    {
      CounterStep(casing, md, k);
    }
    if NonDecreasing(md) && SingleCrossings(casing, md) {
      forall k | 0 <= k < |ids|
        ensures InSectionBelowTop(casing, md[k], ids[k])
      {
        CounterLocates(casing, md, k + 1);
      }
    }
  }

  /** The grid update_depth builds meets the condition under which the
      counter locates every point: consecutive points are at most a foot
      apart while distinct whole-foot tops are at least a foot apart. */
  lemma GridCrossesSingly(casing: seq<Tubulars.Section>, totalDepth: nat)
    requires 1 <= |casing|
    requires Reachable(0, totalDepth, Tops(casing)[1..])
    ensures UpdateDepth(casing, totalDepth).Success?
    ensures var md := UpdateDepth(casing, totalDepth).value;
            NonDecreasing(md) && SingleCrossings(casing, md)
  {
    var pending := Tops(casing)[1..];
    var md := DepthWalk(0, totalDepth, pending);
    assert UpdateDepth(casing, totalDepth).value == md;
    DepthWalkIncreasing(0, totalDepth, pending);
    DepthWalkGaps(0, totalDepth, pending);
    DepthWalkLength(0, totalDepth, pending);
    if 3 <= |casing| {
      assert casing[2].top == pending[1];
    }
    forall k, j | 0 < k < |md| && 1 <= j && j + 1 < |casing|
      ensures !(md[k - 1] <= casing[j].top && casing[j + 1].top < md[k])
    {
      var lo, hi := pending[j - 1], pending[j];
      assert lo == casing[j].top && hi == casing[j + 1].top;
      assert lo < hi && Whole(lo) && Whole(hi);
      assert lo.Floor < hi.Floor;
      assert md[k] - md[k - 1] <= 1.0;
    }
  }

  /** The section index of every grid point, as update_casing's loop
      computes it (casing_id). */
  method SectionIndices(casing: seq<Tubulars.Section>, md: seq<real>) returns (ids: seq<nat>)
    requires 1 <= |casing|
    ensures |ids| == |md|
    ensures forall k :: 0 <= k < |ids| ==> ids[k] < |casing| && ids[k] + 1 == Counter(casing, md, k + 1)
    ensures |ids| > 0 ==> ids[0] <= 1
    ensures forall k :: 0 < k < |ids| ==> ids[k - 1] <= ids[k] <= ids[k - 1] + 1
    ensures NonDecreasing(md) && SingleCrossings(casing, md) ==>
              forall k :: 0 <= k < |ids| ==> InSectionBelowTop(casing, md[k], ids[k])
  {
    ids := [];
    var j := 1;
    var i := 0;
    while i < |md|
      invariant 0 <= i <= |md|
      invariant j == Counter(casing, md, i)
      invariant |ids| == i
      invariant forall k :: 0 <= k < i ==> ids[k] + 1 == Counter(casing, md, k + 1)
    {
      if j == |casing| {
      } else if md[i] > casing[j].top {
        j := j + 1;
      }
      assert j == Counter(casing, md, i + 1);
      ids := ids + [j - 1];
      i := i + 1;
    }
    CountedIndices(casing, md, ids);
  }
}

=== FILE: numerics.dfy ===
/** Shared numeric vocabulary of the casing-design engine: the two physical
    constants, the square-root oracle that stands in for np.sqrt, and the
    small min/max combinators the strength ratings and design loads use. */
module Numerics {

  /** np.pi as a real literal. */
  const Pi: real := 3.141592653589793

  /** Standard gravity (m/s²), the unit converter's 'gn'. */
  const Gravity: real := 9.80665

  /** What the model knows of a square-root function: on the non-negative
      reals it returns the non-negative root. Outside that domain np.sqrt
      yields NaN, which the model does not represent. */
  ghost predicate IsSqrt(sqrt: real -> real) {
    forall x :: 0.0 <= x ==> 0.0 <= sqrt(x) && sqrt(x) * sqrt(x) == x
  }

  function Max(a: real, b: real): (r: real)
    ensures a <= r && b <= r
    ensures r == a || r == b
  {
    if a < b then b else a
  }

  function Min(a: real, b: real): (r: real)
    ensures r <= a && r <= b
    ensures r == a || r == b
  {
    if a < b then a else b
  }

  /** A non-negative square root is unique. */
  lemma RootUnique(x: real, y: real)
    requires 0.0 <= x && 0.0 <= y && x * x == y * y
    ensures x == y
  {
    if x + y != 0.0 {
      assert x - y == ((x - y) * (x + y)) / (x + y);
    }
  }

  lemma SqrtOfSquare(sqrt: real -> real, x: real)
    requires IsSqrt(sqrt)
    requires 0.0 <= x
    ensures sqrt(x * x) == x
  {
    RootUnique(sqrt(x * x), x);
  }

  lemma SqrtOfOne(sqrt: real -> real)
    requires IsSqrt(sqrt)
    ensures sqrt(1.0) == 1.0
  {
    SqrtOfSquare(sqrt, 1.0);
  }

  /** Product of two positive reals. Stated over plain variables so that the
      solver does not first expand compound factors. */
  lemma ProductPositive(x: real, y: real)
    requires 0.0 < x && 0.0 < y
    ensures 0.0 < x * y
  {
  }

  lemma ProductNonNegative(x: real, y: real)
    requires 0.0 <= x && 0.0 <= y
    ensures 0.0 <= x * y
  {
  }

  lemma ProductZero(x: real, y: real)
    requires x * y == 0.0
    ensures x == 0.0 || y == 0.0
  {
  }

  lemma ProductNonZero(x: real, y: real)
    requires x != 0.0 && y != 0.0
    ensures x * y != 0.0
  {
  }

  lemma SquareNonNegative(x: real)
    ensures 0.0 <= x * x
  {
    if x < 0.0 {
      ProductPositive(-x, -x);
    } else if 0.0 < x {
      ProductPositive(x, x);
    }
  }

  lemma SquareZero(x: real)
    ensures x * x == 0.0 <==> x == 0.0
  {
    if x * x == 0.0 {
      ProductZero(x, x);
    }
  }

  /** Dividing c·x by a non-zero c gives x back. */
  lemma CancelFactor(c: real, x: real)
    requires c != 0.0
    ensures (c * x) / c == x
  {
  }

  /** Squaring is strictly increasing on the non-negative reals. */
  lemma SquaresOrdered(a: real, b: real)
    requires 0.0 <= a < b
    ensures a * a < b * b
  {
    assert b * b - a * a == (b - a) * (b + a);
    ProductPositive(b - a, b + a);
  }

  lemma SquaresWeaklyOrdered(a: real, b: real)
    requires 0.0 <= a <= b
    ensures a * a <= b * b
  {
    if a < b {
      SquaresOrdered(a, b);
    }
  }

  /** A share of a positive whole lies in [0, 1]. */
  lemma QuotientAtMostOne(a: real, b: real)
    requires 0.0 <= a <= b && 0.0 < b
    ensures 0.0 <= a / b <= 1.0
  {
  }

  /** The root of a number in [0, 1] lies in [0, 1]. */
  lemma SqrtAtMostOne(sqrt: real -> real, x: real)
    requires IsSqrt(sqrt)
    requires 0.0 <= x <= 1.0
    ensures 0.0 <= sqrt(x) <= 1.0
  {
    var s := sqrt(x);
    assert (s - 1.0) * (s + 1.0) <= 0.0;
  }
}

/** The error outcomes of the engine. The source signals these by raising
    (IndexError, ValueError) or by a failing database lookup. */
module Outcomes {

  datatype Error =
    | DepthBelowTotalDepth   // tension_real: depth greater than total depth
    | NegativeDepth          // tension_real: depth less than 0
    | IndexError             // a walk or lookup ran past the end of a series
    | EmptyArgmax            // np.argmax over an empty scenario group
    | MissingCoupling        // no coupling specification for a joint

  datatype Result<+T> = Success(value: T) | Failure(error: Error) {

    predicate IsFailure() {
      Failure?
    }

    function PropagateFailure<U>(): Result<U>
      requires Failure?
    {
      Failure(error)
    }

    function Extract(): T
      requires Success?
    {
      value
    }
  }
}

=== FILE: stress.dfy ===
/** Pipe-wall stresses (CasingDesign/stress.py): the Lamé radial and
    tangential stresses, the axial stress from the real tension, the von Mises
    equivalent stress with and without bending, and the API biaxial
    adjustment of the yield point. */
module Stress {
  import opened Numerics
  import Tubulars

  /* ---------------------------------------------------------------------
     Lamé stresses
     --------------------------------------------------------------------- */

  /** The two Lamé constants as stress.py writes them, over the squared
      inner radius a = ri² and squared outer radius b = ro²:
        k1 = (a·Pi − b·Po) / (b − a)
        k2 = (Pi − Po)·a·b / ((b − a)·a) */
  function LameK1(a: real, b: real, pin: real, pout: real): real
    requires b - a != 0.0
  {
    (a * pin - b * pout) / (b - a)
  }

  function LameK2(a: real, b: real, pin: real, pout: real): real
    requires b - a != 0.0 && a != 0.0
  {
    (pin - pout) * a * b / ((b - a) * a)
  }

  /** The squared radius of a diameter. */
  function RadiusSquared(d: real): (r2: real)
    ensures 4.0 * r2 == d * d
    ensures r2 == 0.0 <==> d == 0.0
  {
    SquareZero(d / 2.0);
    (d / 2.0) * (d / 2.0)
  }

  /** Well-posedness of the Lamé fractions: a non-zero bore and distinct
      inner and outer radii. */
  predicate LameDefined(od: real, id: real) {
    id != 0.0 && RadiusSquared(od) - RadiusSquared(id) != 0.0
  }

  /** k1 − k2 simplifies to −Pi, whatever the wall and the outside
      pressure: the radial stress at the bore is the bore pressure. */
  lemma LameDifference(a: real, b: real, pin: real, pout: real)
    requires b - a != 0.0 && a != 0.0
    ensures LameK1(a, b, pin, pout) - LameK2(a, b, pin, pout) == -pin
  {
    var d := b - a;
    var k2 := LameK2(a, b, pin, pout);
    assert k2 == (pin - pout) * b / d by {
      assert (pin - pout) * a * b == ((pin - pout) * b) * a;
      assert (d * a) != 0.0;
    }
    assert LameK1(a, b, pin, pout) - k2 == ((a * pin - b * pout) - (pin - pout) * b) / d;
    assert (a * pin - b * pout) - (pin - pout) * b == -pin * d;
  }

  /** k1 + k2 is the hoop stress at the bore, (Pi·(a + b) − 2·b·Po)/(b − a). */
  lemma LameSum(a: real, b: real, pin: real, pout: real)
    requires b - a != 0.0 && a != 0.0
    ensures LameK1(a, b, pin, pout) + LameK2(a, b, pin, pout) == (pin * (a + b) - 2.0 * b * pout) / (b - a)
  {
    var d := b - a;
    var k2 := LameK2(a, b, pin, pout);
    assert k2 == (pin - pout) * b / d by {
      assert (pin - pout) * a * b == ((pin - pout) * b) * a;
      assert (d * a) != 0.0;
    }
    assert (a * pin - b * pout) + (pin - pout) * b == pin * (a + b) - 2.0 * b * pout;
  }

  /** Radial stress at the bore, k1 − k2. */
  function Radial(od: real, id: real, pin: real, pout: real): (r: real)
    requires LameDefined(od, id)
    ensures r == -pin
  {
    var a := RadiusSquared(id);
    var b := RadiusSquared(od);
    LameDifference(a, b, pin, pout);
    LameK1(a, b, pin, pout) - LameK2(a, b, pin, pout)
  }

  /** Tangential (hoop) stress at the bore, k1 + k2. */
  function Tangential(od: real, id: real, pin: real, pout: real): (r: real)
    requires LameDefined(od, id)
    ensures r == (pin * (od * od + id * id) - 2.0 * (od * od) * pout) / (od * od - id * id)
  {
    var a := RadiusSquared(id);
    var b := RadiusSquared(od);
    LameSum(a, b, pin, pout);
    QuarterScaled(pin * (od * od + id * id) - 2.0 * (od * od) * pout, od * od - id * id);
    LameK1(a, b, pin, pout) + LameK2(a, b, pin, pout)
  }

  /** Scaling numerator and denominator by 1/4 leaves a fraction unchanged. */
  lemma QuarterScaled(n: real, d: real)
    requires d != 0.0
    ensures (n / 4.0) / (d / 4.0) == n / d
  {
  }

  /** radial + tangential = 2·k1 and tangential − radial = 2·k2. */
  lemma RadialTangentialConstants(od: real, id: real, pin: real, pout: real)
    requires LameDefined(od, id)
    ensures Radial(od, id, pin, pout) + Tangential(od, id, pin, pout)
            == 2.0 * LameK1(RadiusSquared(id), RadiusSquared(od), pin, pout)
    ensures Tangential(od, id, pin, pout) - Radial(od, id, pin, pout)
            == 2.0 * LameK2(RadiusSquared(id), RadiusSquared(od), pin, pout)
  {
  }

  /** Under equal inside and outside pressure P both stresses are −P: the
      wall is in uniform hydrostatic compression. */
  lemma EqualPressuresGiveUniformStress(od: real, id: real, p: real)
    requires LameDefined(od, id)
    ensures Radial(od, id, p, p) == -p
    ensures Tangential(od, id, p, p) == -p
  {
    var n := od * od - id * id;
    assert n != 0.0;
    assert p * (od * od + id * id) - 2.0 * (od * od) * p == -p * n;
  }

  /* ---------------------------------------------------------------------
     Axial stress
     --------------------------------------------------------------------- */

  /** Axial stress: real tension over the wall cross-section. */
  function Axial(od: real, id: real, tReal: real): (r: real)
    requires Tubulars.WallArea(od, id) != 0.0
    ensures r * Tubulars.WallArea(od, id) == tReal
  {
    tReal / Tubulars.WallArea(od, id)
  }

  /** On a real pipe wall the axial stress has the sign of the tension, and
      vanishes exactly when the tension does. */
  lemma AxialSign(od: real, id: real, tReal: real)
    requires 0.0 <= id < od
    ensures Tubulars.WallArea(od, id) != 0.0
    ensures 0.0 < Axial(od, id, tReal) <==> 0.0 < tReal
    ensures Axial(od, id, tReal) == 0.0 <==> tReal == 0.0
    ensures Axial(od, id, tReal) < 0.0 <==> tReal < 0.0
  {
    Tubulars.WallAreaPositive(od, id);
    var w := Tubulars.WallArea(od, id);
    var s := Axial(od, id, tReal);
    SignOfProduct(s, w);
  }

  /** With a positive factor w the product s·w has the sign of s. */
  lemma SignOfProduct(s: real, w: real)
    requires 0.0 < w
    ensures 0.0 < s * w <==> 0.0 < s
    ensures s * w == 0.0 <==> s == 0.0
    ensures s * w < 0.0 <==> s < 0.0
  {
    if 0.0 < s {
      ProductPositive(s, w);
    } else if s < 0.0 {
      ProductPositive(-s, w);
    }
  }

  /* ---------------------------------------------------------------------
     von Mises
     --------------------------------------------------------------------- */

  /** Half the sum of the squared principal-stress differences. */
  function VonMisesRadicand(sr: real, st: real, sa: real): (q: real)
    ensures 0.0 <= q
  {
    SquareNonNegative(sr - st);
    SquareNonNegative(sr - sa);
    SquareNonNegative(st - sa);
    ((sr - st) * (sr - st) + (sr - sa) * (sr - sa) + (st - sa) * (st - sa)) / 2.0
  }

  /** von Mises equivalent stress without bending. */
  function VonMises(sr: real, st: real, sa: real, sqrt: real -> real): (r: real)
    requires IsSqrt(sqrt)
    ensures 0.0 <= r
    ensures r * r == sr * sr + st * st + sa * sa - sr * st - sr * sa - st * sa
  {
    sqrt(VonMisesRadicand(sr, st, sa))
  }

  /** The equivalent stress squared is the radicand it was taken from. */
  lemma VonMisesSquared(sr: real, st: real, sa: real, sqrt: real -> real)
    requires IsSqrt(sqrt)
    ensures VonMises(sr, st, sa, sqrt) * VonMises(sr, st, sa, sqrt) == VonMisesRadicand(sr, st, sa)
  {
  }

  /** The equivalent stress vanishes exactly when the three principal
      stresses are equal. */
  lemma VonMisesZeroIff(sr: real, st: real, sa: real, sqrt: real -> real)
    requires IsSqrt(sqrt)
    ensures VonMises(sr, st, sa, sqrt) == 0.0 <==> (sr == st && st == sa)
  {
    var q := VonMisesRadicand(sr, st, sa);
    if VonMises(sr, st, sa, sqrt) == 0.0 {
      assert q == 0.0;
      SquareNonNegative(sr - st);
      SquareNonNegative(sr - sa);
      SquareNonNegative(st - sa);
      assert (sr - st) * (sr - st) == 0.0;
      assert (st - sa) * (st - sa) == 0.0;
      SquareZero(sr - st);
      SquareZero(st - sa);
    }
    if sr == st && st == sa {
      assert q == 0.0;
      SqrtOfSquare(sqrt, 0.0);
    }
  }

  /** The equivalent stress does not depend on the order of its arguments:
      swapping the first two and rotating all three generate every
      permutation. */
  lemma VonMisesSymmetric(sr: real, st: real, sa: real, sqrt: real -> real)
    requires IsSqrt(sqrt)
    ensures VonMises(sr, st, sa, sqrt) == VonMises(st, sr, sa, sqrt)
    ensures VonMises(sr, st, sa, sqrt) == VonMises(st, sa, sr, sqrt)
  {
    assert VonMisesRadicand(sr, st, sa) == VonMisesRadicand(st, sr, sa);
    assert VonMisesRadicand(sr, st, sa) == VonMisesRadicand(st, sa, sr);
  }

  /** Under a pure axial load the equivalent stress is the axial stress's
      magnitude. */
  lemma VonMisesUniaxial(sa: real, sqrt: real -> real)
    requires IsSqrt(sqrt)
    ensures VonMises(0.0, 0.0, sa, sqrt) == (if sa < 0.0 then -sa else sa)
  {
    var m := if sa < 0.0 then -sa else sa;
    assert VonMisesRadicand(0.0, 0.0, sa) == m * m;
    SqrtOfSquare(sqrt, m);
  }

  /** von Mises with a bending stress σb: the axial stress is replaced by
      σa − σb. */
  function VonMisesBending(sr: real, st: real, sa: real, sb: real, sqrt: real -> real): (r: real)
    requires IsSqrt(sqrt)
    ensures r == VonMises(sr, st, sa - sb, sqrt)
  {
    var a := (sr - st) * (sr - st);
    var b := (sr - (sa - sb)) * (sr - (sa - sb));
    var c := (st - (sa - sb)) * (st - (sa - sb));
    sqrt((a + b + c) / 2.0)
  }

  /** Without bending the two forms agree. */
  lemma VonMisesBendingWithoutBending(sr: real, st: real, sa: real, sqrt: real -> real)
    requires IsSqrt(sqrt)
    ensures VonMisesBending(sr, st, sa, 0.0, sqrt) == VonMises(sr, st, sa, sqrt)
  {
    assert sa - 0.0 == sa;
  }

  /* ---------------------------------------------------------------------
     Biaxial yield
     --------------------------------------------------------------------- */

  /** The root term of the biaxial rule, √(1 − ¾·(σa/yp)²). */
  function BiaxialRoot(yp: real, sa: real, sqrt: real -> real): real
    requires yp != 0.0
  {
    sqrt(1.0 - 0.75 * ((sa / yp) * (sa / yp)))
  }

  /** The coefficient of σa/yp in the biaxial rule: −½ when the two flags
      agree, +½ when they differ. */
  function BiaxialSlope(tension: bool, collapse: bool): (h: real)
    ensures h == -0.5 || h == 0.5
  {
    if tension == collapse then -0.5 else 0.5
  }

  /** The yield point reduced for an axial stress, by the four-branch rule
      of stress.py: the root term is decreased by half the stress ratio for
      (tension, collapse) and for (compression, burst), and increased by it
      in the two mixed cases. */
  function BiaxialYield(yp: real, sa: real, tension: bool, collapse: bool, sqrt: real -> real): (r: real)
    requires yp != 0.0
    ensures r == yp * (BiaxialRoot(yp, sa, sqrt) + BiaxialSlope(tension, collapse) * (sa / yp))
  {
    var s := sa / yp;
    var root := BiaxialRoot(yp, sa, sqrt);
    if tension then
      if collapse then yp * (root - 0.5 * s) else yp * (root + 0.5 * s)
    else if collapse then yp * (root + 0.5 * s)
    else yp * (root - 0.5 * s)
  }

  /** With no axial stress the adjusted yield point is the yield point, for
      all four flag combinations. */
  lemma BiaxialUnloaded(yp: real, tension: bool, collapse: bool, sqrt: real -> real)
    requires IsSqrt(sqrt)
    requires yp != 0.0
    ensures BiaxialYield(yp, 0.0, tension, collapse, sqrt) == yp
  {
    assert 0.0 / yp == 0.0;
    SqrtOfOne(sqrt);
  }

  /** Branch pairing: flipping both flags selects the same formula. */
  lemma BiaxialPairing(yp: real, sa: real, tension: bool, collapse: bool, sqrt: real -> real)
    requires yp != 0.0
    ensures BiaxialYield(yp, sa, tension, collapse, sqrt) == BiaxialYield(yp, sa, !tension, !collapse, sqrt)
  {
  }

  /** The adjusted point lies on the biaxial yield ellipse of API 5C3: with
      y = Ypa/yp and s = σa/yp, y² + y·s + s² = 1 when the flags agree and
      y² − y·s + s² = 1 when they differ (as long as the root's argument is
      non-negative). */
  lemma BiaxialOnEllipse(yp: real, sa: real, tension: bool, collapse: bool, sqrt: real -> real)
    requires IsSqrt(sqrt)
    requires yp != 0.0
    requires 0.0 <= 1.0 - 0.75 * ((sa / yp) * (sa / yp))
    ensures var y := BiaxialYield(yp, sa, tension, collapse, sqrt) / yp;
            var s := sa / yp;
            var k := if tension == collapse then 1.0 else -1.0;
            y * y + k * y * s + s * s == 1.0
  {
    var s := sa / yp;
    var root := BiaxialRoot(yp, sa, sqrt);
    var h := BiaxialSlope(tension, collapse);
    var k := if tension == collapse then 1.0 else -1.0;
    var y := BiaxialYield(yp, sa, tension, collapse, sqrt) / yp;
    CancelFactor(yp, root + h * s);
    assert y == root - k * 0.5 * s;
    assert root * root == 1.0 - 0.75 * (s * s);
    EllipseIdentity(root, s, k, y);
  }

  lemma EllipseIdentity(root: real, s: real, k: real, y: real)
    requires k * k == 1.0
    requires y == root - k * 0.5 * s
    requires root * root == 1.0 - 0.75 * (s * s)
    ensures y * y + k * y * s + s * s == 1.0
  {
    assert y * y == root * root - k * root * s + 0.25 * (k * k) * (s * s);
  }
}

=== FILE: tubulars.dfy ===
/** Casing string geometry and axial tension (tubulars.py).

    The string is an ordered list of sections from the surface down. Real
    tension is integrated from the bottom of the string upward: it starts
    from the pressure-area force at total depth, adds the weight of every
    section walked through, and at each section boundary adds the pressure
    acting on the change of cross-section. */
module Tubulars {
  import opened Numerics
  import opened Outcomes
  import opened Fluids

  /** Connection type of a casing joint: short round thread, long round
      thread, or buttress. */
  datatype Connection = STC | LTC | BTC

  /** A grade label such as "L-80": a letter family and the minimum yield
      in thousands of psi. */
  datatype Grade = Grade(family: string, rating: nat)

  datatype Section = Section(
    top: real,          // depth of the top of the section
    od: real,           // outer diameter
    id: real,           // inner diameter
    wpf: real,          // weight per unit length
    yp: real,           // minimum yield strength
    grade: Grade,
    connection: Connection)

  /** The string the source expects: at least one section, the first at
      the surface, tops strictly increasing, none below the total depth. */
  ghost predicate WellFormed(casing: seq<Section>, td: real) {
    && 1 <= |casing|
    && casing[0].top == 0.0
    && (forall i, j :: 0 <= i < j < |casing| ==> casing[i].top < casing[j].top)
    && casing[|casing| - 1].top <= td
  }

  /** area(diameter): area of a circle, π/4·d². */
  function Area(d: real): (a: real)
    ensures 0.0 <= a
  {
    Pi / 4.0 * (d * d)
  }

  /** The area grows with the diameter. */
  lemma AreaMonotone(d1: real, d2: real)
    requires 0.0 <= d1 <= d2
    ensures Area(d1) <= Area(d2)
  {
    SquaresWeaklyOrdered(d1, d2);
  }

  /** Cross-sectional area of a pipe wall, π/4·(od² − id²), as stress.py,
      api.py and the body tensile rating compute it. It is the difference
      of the two circle areas. */
  function WallArea(od: real, id: real): (a: real)
    ensures a == Area(od) - Area(id)
  {
    Pi / 4.0 * (od * od - id * id)
  }

  /** A pipe wall (0 ≤ id < od) has a positive cross-section. */
  lemma WallAreaPositive(od: real, id: real)
    requires 0.0 <= id < od
    ensures 0.0 < WallArea(od, id)
  {
    SquaresOrdered(id, od);
  }

  /* ---------------------------------------------------------------------
     tension_real
     --------------------------------------------------------------------- */

  /** Pressure on the change of cross-section at the top of section s + 1,
      with section s above it: the inside pressure acts on the change of
      inner area, the outside pressure on the change of outer area. */
  function StepForce(pin: real, pout: real, upper: Section, lower: Section): (f: real)
    ensures upper.id == lower.id && upper.od == lower.od ==> f == 0.0
  {
    pin * (Area(upper.id) - Area(lower.id)) - pout * (Area(upper.od) - Area(lower.od))
  }

  /** Axial force at the bottom end of a section: the inside pressure
      pushing up on the inner area, the outside pressure pushing down on the
      outer area, less the slack-off weight. */
  function EndForce(pin: real, pout: real, s: Section, slackOff: real): real {
    -slackOff + pin * Area(s.id) - pout * Area(s.od)
  }

  /** Weight of a length of section s. */
  function SectionWeight(length: real, s: Section): (w: real)
    ensures 0.0 <= length && 0.0 <= s.wpf ==> 0.0 <= w
  {
    length * s.wpf * Gravity
  }

  /** The upward loop of tension_real. It stands at the boundary at the top
      of section s + 1 with tension acc just below it, adds the boundary
      force, and then either stops inside section s (adding the weight from
      the boundary up to the depth) or adds the whole of section s and
      moves up. Passing the top of the first section reads past the end of
      the reversed lists: an IndexError. */
  function TensionWalk(depth: real, casing: seq<Section>, inside: FluidColumn, outside: FluidColumn,
                       td: real, s: int, acc: real): Result<real>
    requires -1 <= s && s + 1 < |casing|
    decreases s + 1
  {
    var boundary := casing[s + 1].top;
    var pin :- PressureSingle(boundary, inside, td);
    var pout :- PressureSingle(boundary, outside, td);
    if s < 0 then Failure(IndexError)
    else
      var acc' := acc + StepForce(pin, pout, casing[s], casing[s + 1]);
      if depth < boundary && casing[s].top <= depth then
        Success(acc' + SectionWeight(boundary - depth, casing[s]))
      else
        TensionWalk(depth, casing, inside, outside, td, s - 1,
                    acc' + SectionWeight(boundary - casing[s].top, casing[s]))
  }

  /** tension_real(depth, casing, inside, outside), with the total depth
      and the slack-off weight passed in explicitly. */
  function TensionReal(depth: real, casing: seq<Section>, inside: FluidColumn, outside: FluidColumn,
                       td: real, slackOff: real): (r: Result<real>)
    ensures td < depth ==> r == Failure(DepthBelowTotalDepth)
    ensures depth <= td && depth < 0.0 ==> r == Failure(NegativeDepth)
  {
    if td < depth then Failure(DepthBelowTotalDepth)
    else if depth < 0.0 then Failure(NegativeDepth)
    else
      var pinTd :- PressureSingle(td, inside, td);
      if |casing| == 0 then Failure(IndexError)
      else
        var poutTd :- PressureSingle(td, outside, td);
        var last := casing[|casing| - 1];
        var bottom := EndForce(pinTd, poutTd, last, slackOff);
        if last.top <= depth then
          Success(bottom + SectionWeight(td - depth, last))
        else
          TensionWalk(depth, casing, inside, outside, td, |casing| - 2,
                      bottom + SectionWeight(td - last.top, last))
  }

  /* ---------------------------------------------------------------------
     Reference definition: bottom-hole force plus carried load.
     --------------------------------------------------------------------- */

  ghost predicate Consistent(casing: seq<Section>, inside: FluidColumn, outside: FluidColumn, td: real) {
    WellFormed(casing, td) && Fluids.WellFormed(inside, td) && Fluids.WellFormed(outside, td)
  }

  /** Force at the bottom of the string: the pressure-area forces of the
      deepest section at total depth, less the slack-off weight. */
  function BottomHoleForce(casing: seq<Section>, inside: FluidColumn, outside: FluidColumn,
                           td: real, slackOff: real): real
    requires Consistent(casing, inside, outside, td)
  {
    EndForce(PressureOf(td, inside, td), PressureOf(td, outside, td), casing[|casing| - 1], slackOff)
  }

  /** Bottom of section j: the next section's top, or the total depth. */
  function SectionBottom(casing: seq<Section>, td: real, j: nat): real
    requires j < |casing|
  {
    if j + 1 < |casing| then casing[j + 1].top else td
  }

  /** Boundary force at the top of section j (j ≥ 1). */
  function BoundaryForce(casing: seq<Section>, inside: FluidColumn, outside: FluidColumn, td: real, j: nat): real
    requires Consistent(casing, inside, outside, td)
    requires 1 <= j < |casing|
  {
    StepForce(PressureOf(casing[j].top, inside, td), PressureOf(casing[j].top, outside, td), casing[j - 1], casing[j])
  }

  /** Load carried at the bottom of section k from everything below it:
      the full weight and the top boundary force of every deeper section. */
  function Carried(casing: seq<Section>, inside: FluidColumn, outside: FluidColumn, td: real, k: nat): real
    requires Consistent(casing, inside, outside, td)
    requires k < |casing|
    decreases |casing| - k
  {
    if k + 1 >= |casing| then 0.0
    else
      SectionWeight(SectionBottom(casing, td, k + 1) - casing[k + 1].top, casing[k + 1])
      + BoundaryForce(casing, inside, outside, td, k + 1)
      + Carried(casing, inside, outside, td, k + 1)
  }

  /** The depth lies in section k: at or below its top and strictly above
      the next top. */
  ghost predicate InSection(casing: seq<Section>, depth: real, k: nat) {
    && k < |casing|
    && casing[k].top <= depth
    && (k + 1 == |casing| || depth < casing[k + 1].top)
  }

  /** The walk, for a depth in section k ≤ s, yields the reference value. */
  lemma {:induction false} TensionWalkClosedForm(depth: real, casing: seq<Section>, inside: FluidColumn,
                                                 outside: FluidColumn, td: real, slackOff: real,
                                                 k: nat, s: int, acc: real)
    requires Consistent(casing, inside, outside, td)
    requires InSection(casing, depth, k) && depth <= td
    requires k <= s && s + 1 < |casing|
    requires acc + BoundaryForce(casing, inside, outside, td, s + 1)
          == BottomHoleForce(casing, inside, outside, td, slackOff) + Carried(casing, inside, outside, td, s)
    ensures TensionWalk(depth, casing, inside, outside, td, s, acc)
         == Success(BottomHoleForce(casing, inside, outside, td, slackOff) + Carried(casing, inside, outside, td, k)
                    + SectionWeight(SectionBottom(casing, td, k) - depth, casing[k]))
    decreases s
  {
    var boundary := casing[s + 1].top;
    assert boundary <= casing[|casing| - 1].top <= td;
    var pin := PressureOf(boundary, inside, td);
    var pout := PressureOf(boundary, outside, td);
    var acc' := acc + StepForce(pin, pout, casing[s], casing[s + 1]);
    if s == k {
      assert depth < boundary && casing[s].top <= depth;
    } else {
      assert casing[k + 1].top <= casing[s].top;
      assert !(casing[s].top <= depth);
      var next := acc' + SectionWeight(boundary - casing[s].top, casing[s]);
      assert SectionBottom(casing, td, s) == boundary;
      TensionWalkClosedForm(depth, casing, inside, outside, td, slackOff, k, s - 1, next);
    }
  }

  /** The closed form of tension_real: for a depth in section k, the
      bottom-hole force, plus the load carried below section k, plus the
      weight of section k from its bottom up to the depth. */
  lemma TensionClosedForm(depth: real, casing: seq<Section>, inside: FluidColumn, outside: FluidColumn,
                          td: real, slackOff: real, k: nat)
    requires Consistent(casing, inside, outside, td)
    requires InSection(casing, depth, k) && depth <= td
    ensures TensionReal(depth, casing, inside, outside, td, slackOff)
         == Success(BottomHoleForce(casing, inside, outside, td, slackOff) + Carried(casing, inside, outside, td, k)
                    + SectionWeight(SectionBottom(casing, td, k) - depth, casing[k]))
  {
    var n := |casing|;
    var last := casing[n - 1];
    var bottom := BottomHoleForce(casing, inside, outside, td, slackOff);
    if 0 < k {
      assert casing[0].top < casing[k].top;
    }
    assert 0.0 <= depth;
    if k + 1 < n {
      assert casing[k + 1].top <= last.top;
      assert !(last.top <= depth);
      var acc := bottom + SectionWeight(td - last.top, last);
      assert Carried(casing, inside, outside, td, n - 2)
          == SectionWeight(td - last.top, last) + BoundaryForce(casing, inside, outside, td, n - 1);
      TensionWalkClosedForm(depth, casing, inside, outside, td, slackOff, k, n - 2, acc);
    } else {
      TensionInDeepestSection(depth, casing, inside, outside, td, slackOff);
      assert Carried(casing, inside, outside, td, k) == 0.0;
      assert SectionBottom(casing, td, k) == td;

    }
  }

  /** Every depth of the string in [0, total depth] lies in some section. */
  lemma {:induction false} SectionExists(casing: seq<Section>, td: real, depth: real, k: nat)
    requires WellFormed(casing, td)
    requires k < |casing| && casing[k].top <= depth
    ensures exists j :: k <= j < |casing| && InSection(casing, depth, j)
    decreases |casing| - k
  {
    if k + 1 < |casing| && casing[k + 1].top <= depth {
      SectionExists(casing, td, depth, k + 1);
    } else {
      assert InSection(casing, depth, k);
    }
  }

  /** tension_real fails exactly outside [0, total depth]. */
  lemma TensionRealDefined(depth: real, casing: seq<Section>, inside: FluidColumn, outside: FluidColumn,
                           td: real, slackOff: real)
    requires Consistent(casing, inside, outside, td)
    ensures TensionReal(depth, casing, inside, outside, td, slackOff).Success? <==> 0.0 <= depth <= td
  {
    if 0.0 <= depth <= td {
      SectionExists(casing, td, depth, 0);
      var k :| 0 <= k < |casing| && InSection(casing, depth, k);
      TensionClosedForm(depth, casing, inside, outside, td, slackOff, k);
    }
  }

  /** At total depth the tension is the bottom-hole force. */
  lemma TensionAtTotalDepth(casing: seq<Section>, inside: FluidColumn, outside: FluidColumn,
                            td: real, slackOff: real)
    requires Consistent(casing, inside, outside, td)
    ensures TensionReal(td, casing, inside, outside, td, slackOff)
         == Success(BottomHoleForce(casing, inside, outside, td, slackOff))
  {
    TensionInDeepestSection(td, casing, inside, outside, td, slackOff);
  }

  /** In the deepest section tension is linear in depth: the bottom-hole
      force plus the weight between the depth and total depth. */
  lemma TensionInDeepestSection(depth: real, casing: seq<Section>, inside: FluidColumn, outside: FluidColumn,
                                td: real, slackOff: real)
    requires Consistent(casing, inside, outside, td)
    requires casing[|casing| - 1].top <= depth <= td
    ensures TensionReal(depth, casing, inside, outside, td, slackOff)
         == Success(BottomHoleForce(casing, inside, outside, td, slackOff)
                    + (td - depth) * casing[|casing| - 1].wpf * Gravity)
  {
    if 1 < |casing| {
      assert casing[0].top < casing[|casing| - 1].top;
    }
    var pin := PressureOf(td, inside, td);
    var pout := PressureOf(td, outside, td);
    var last := casing[|casing| - 1];
    assert TensionReal(depth, casing, inside, outside, td, slackOff)
        == Success(EndForce(pin, pout, last, slackOff) + SectionWeight(td - depth, last));
  }

  /** Within one section tension changes only by the weight of the length
      between the two depths. */
  lemma TensionLinearInSection(d1: real, d2: real, casing: seq<Section>, inside: FluidColumn,
                               outside: FluidColumn, td: real, slackOff: real, k: nat)
    requires Consistent(casing, inside, outside, td)
    requires InSection(casing, d1, k) && InSection(casing, d2, k) && d1 <= td && d2 <= td
    ensures TensionReal(d1, casing, inside, outside, td, slackOff).Success?
    ensures TensionReal(d2, casing, inside, outside, td, slackOff).Success?
    ensures TensionReal(d1, casing, inside, outside, td, slackOff).value
          - TensionReal(d2, casing, inside, outside, td, slackOff).value
         == (d2 - d1) * casing[k].wpf * Gravity
  {
    TensionClosedForm(d1, casing, inside, outside, td, slackOff, k);
    TensionClosedForm(d2, casing, inside, outside, td, slackOff, k);
  }

  /* ---------------------------------------------------------------------
     tension_eff
     --------------------------------------------------------------------- */

  /** The section lookup of tension_eff: scanning from the top, the last
      section whose top is at or above the depth before the first one
      below it; section 0 when even the first top lies below the depth. */
  function SectionScan(depth: real, casing: seq<Section>, i: nat, current: nat): (k: nat)
    requires current < |casing| && i <= |casing|
    ensures k < |casing|
    ensures k == current || i <= k
    decreases |casing| - i
  {
    if i < |casing| && depth - casing[i].top >= 0.0 then SectionScan(depth, casing, i + 1, i)
    else current
  }

  function SectionAt(depth: real, casing: seq<Section>): (k: nat)
    requires 1 <= |casing|
    ensures k < |casing|
    ensures (forall i, j :: 0 <= i < j < |casing| ==> casing[i].top < casing[j].top) ==>
              (k == 0 || casing[k].top <= depth) && (k + 1 == |casing| || depth < casing[k + 1].top)
  {
    SectionAtSpec(depth, casing, 0, 0);
    SectionScan(depth, casing, 0, 0)
  }

  lemma {:induction false} SectionAtSpec(depth: real, casing: seq<Section>, i: nat, current: nat)
    requires current < |casing| && i <= |casing|
    requires i == 0 ==> current == 0
    requires 0 < i ==> current == i - 1 && casing[current].top <= depth
    ensures var k := SectionScan(depth, casing, i, current);
            (forall a, b :: 0 <= a < b < |casing| ==> casing[a].top < casing[b].top) ==>
              (k == 0 || casing[k].top <= depth) && (k + 1 == |casing| || depth < casing[k + 1].top)
    decreases |casing| - i
  {
    if i < |casing| && depth - casing[i].top >= 0.0 {
      SectionAtSpec(depth, casing, i + 1, i);
    }
  }

  /** On a well-formed string the lookup finds the section containing the
      depth. */
  lemma SectionAtFindsSection(depth: real, casing: seq<Section>, td: real)
    requires WellFormed(casing, td) && 0.0 <= depth
    ensures InSection(casing, depth, SectionAt(depth, casing))
  {
  }

  /** tension_eff(t_real, depth, casing, inside, outside): real tension
      plus the outside pressure on the outer area less the inside pressure
      on the inner area of the section at that depth. */
  function TensionEff(tReal: real, depth: real, casing: seq<Section>, inside: FluidColumn,
                      outside: FluidColumn, td: real): (r: Result<real>)
    ensures r.Success? <==> 1 <= |casing| && Pressure(depth, inside, outside, td).Success?
    ensures r.Success? ==>
              var s := casing[SectionAt(depth, casing)];
              r.value - tReal
              == PressureSingle(depth, outside, td).value * Area(s.od) - PressureSingle(depth, inside, td).value * Area(s.id)
  {
    if |casing| == 0 then Failure(IndexError)
    else
      var s := casing[SectionAt(depth, casing)];
      var p :- Pressure(depth, inside, outside, td);
      Success(tReal + p.1 * Area(s.od) - p.0 * Area(s.id))
  }
}
